=== FILE: README.md ===
# Doorspital doctor and pharmacy dashboards — a Dafny model

This project models the logic of the Doorspital dashboard, a React
single-page application. It covers two sides of the product.

- The doctor side:
  - the application shell with its persisted session;
  - the dashboard layout and its refresh;
  - the doctor dashboard's view models;
  - the onboarding and verification section;
  - the editable sections: services, weekly availability, chat rooms and notifications;
  - the registration draft kept in browser storage.
- The pharmacy side:
  - the sidebar;
  - the prescription order list with its filter, search, pagination and status counts;
  - the order details page with its status change;
  - the invoice with its money block;
  - the settings form.

Shared pieces are the REST client (`apiRequest`) and the global loading
overlay.

Every page reads loosely shaped backend JSON. The model therefore works on
JavaScript values (`JsValue.Value`: `undefined`, `null`, booleans, numbers,
strings, arrays, objects). It spells out the JavaScript operators the pages
rely on: optional chaining, `??`, `||`, truthiness, `Number`, `parseInt`,
`String`, spreading, and `+` on mixed operands. An expression that can raise
a `TypeError` yields `Outcome.Throws`. Examples are reading a property of
`null`, or calling `.toUpperCase()` on a number.

Asynchronous effects are modelled as pure transitions. Each takes the
settlement of its request as a parameter (`Api.Reply`, or `Api.Joint` for a
`Promise.all` of two requests) plus whether the component was unmounted
first. Each returns the new page state and the loader calls it made.

The network, the clock, `localStorage` and JSON text are parameters:
- `send` is the network;
- `clock` is `Date`/locale formatting;
- `Storage.Store` is a map;
- `Storage.Codec` is `JSON.parse`/`JSON.stringify`, with a lawfulness
  predicate for the round trip.

Modules follow the source files:

| Module | Source |
|---|---|
| `Api` | `src/lib/api.js` |
| `GlobalLoader` | `src/lib/globalLoaderContext.jsx` |
| `Registration` | `src/lib/registrationContext.jsx` |
| `AppShell` | `src/App.jsx` |
| `DashboardLayout` | `src/pages/DashboardLayout.jsx` |
| `DoctorDashboard` | `src/pages/DoctorDashboard.jsx` |
| `Onboarding` | `src/pages/dashboard/Onboarding.jsx` |
| `DashboardSections` | `src/pages/dashboard/DashboardSections.jsx` |
| `PharmacySidebar` | `src/pharmacy/components/Sidebar.jsx` |
| `PrescriptionOrders` | `NewPrescriptionOrders.jsx` |
| `OrderDetails` | `OrderDetails.jsx` |
| `Invoice` | `InvoicePage.jsx` |
| `SettingsPage` | `SettingsPage.jsx` |

The helper modules are:
- `JsValue` — values and operators;
- `Payload` — `pickValue`, `safeArray`, `normalizeList`, `extractArrayFromPayload`;
- `Lists` — filter and count;
- `Tally` — counting into an object;
- `Money` — the running sum over order items;
- `Addresses` — `filter(Boolean).join(", ")`;
- `Storage` — browser storage and JSON.

## Model

| member | source | states |
|---|---|---|
| JsValue.Get | src/pages/DoctorDashboard.jsx:91 | optional property access yields the object's own property, and `undefined` for a missing key or a non-object |
| JsValue.Member | src/pharmacy/pharmacypages/InvoicePage.jsx:212-213 | plain property access throws exactly on `null`/`undefined` and otherwise reads like optional access |
| JsValue.Spread | src/pharmacy/pharmacypages/OrderDetails.jsx:96 | spreading copies an object's own properties; an array's elements or a string's characters under the keys "0", "1", …, one per index; nothing from `undefined`, `null`, a boolean or a number |
| JsValue.Lower | src/pharmacy/pharmacypages/NewPrescriptionOrders.jsx:43 | lower-casing keeps the length and maps every character independently |
| JsValue.Upper | src/pharmacy/pharmacypages/InvoicePage.jsx:226 | upper-casing keeps the length and maps every character independently |
| JsValue.TrimStartSpec | src/pharmacy/pharmacypages/NewPrescriptionOrders.jsx:105 | the left trim is a suffix starting at a non-space, after only white space |
| JsValue.TrimEnd | src/pharmacy/pharmacypages/NewPrescriptionOrders.jsx:105 | the right trim is a prefix ending at a non-space, followed only by white space |
| JsValue.Trim | src/pharmacy/pharmacypages/NewPrescriptionOrders.jsx:105 | `trim()` is a slice of the input that neither starts nor ends with white space |
| JsValue.NatToString | src/pages/DoctorDashboard.jsx:170 | the decimal text of a number is a non-empty run of digits |
| JsValue.NatToStringInjective | src/pages/DoctorDashboard.jsx:170 | distinct numbers have distinct decimal texts, so no two indices share a key |
| JsValue.Indexed | src/pharmacy/pharmacypages/OrderDetails.jsx:96 | an array-like value's first `n` elements under the keys "0" … "n-1", and no other key |
| JsValue.DigitsValue | src/pages/dashboard/DashboardSections.jsx:870-877 | the value of a run of digits is never negative |
| JsValue.ToNumber | src/pages/DoctorDashboard.jsx:493 | `Number(v)`: numbers are themselves, `null` and `false` are 0, `true` is 1, `[]` is 0, `undefined` and objects are NaN |
| JsValue.NumberOfSingletonArray | src/pages/DoctorDashboard.jsx:493 | an array holding one number reads as that number |
| JsValue.LeadingDigits | src/pages/dashboard/DashboardSections.jsx:870-877 | the digits `parseInt` reads are the longest digit prefix of the text |
| JsValue.DigitsOfNat | src/pages/dashboard/DashboardSections.jsx:870-877 | reading back the printed digits of a number gives the number |
| JsValue.ParseIntOfInt | src/pages/dashboard/DashboardSections.jsx:870-877 | `parseInt` of any integer number value is that integer |
| JsValue.NumberOfDisplayedInt | src/pharmacy/pharmacypages/InvoicePage.jsx:221 | `Number(String(n))` is `n` for every integer |
| JsValue.MapAll | src/pages/DoctorDashboard.jsx:466-479 | a map whose callback may throw throws iff some call throws, else yields one result per index |
| JsValue.MapRecords | src/pages/DoctorDashboard.jsx:157-161 | mapping records throws iff some record is `null`/`undefined`, else yields `f(i, x_i)` for each index |
| Lists.Filter | src/pharmacy/pharmacypages/NewPrescriptionOrders.jsx:108-133 | `filter` keeps exactly the elements satisfying the test, in order, as a subsequence without new duplicates |
| Lists.Count | src/pharmacy/pharmacypages/NewPrescriptionOrders.jsx:145-151 | an occurrence count is positive exactly for members |
| Lists.FilterAppend | src/pharmacy/pharmacypages/NewPrescriptionOrders.jsx:108-133 | filtering distributes over concatenation |
| Lists.CountFilter | src/pharmacy/pharmacypages/NewPrescriptionOrders.jsx:108-133 | filtering keeps every occurrence of a passing value and none of a failing one |
| Payload.PickValue | src/pages/DoctorDashboard.jsx:89-96 | the value of the first listed key that is neither `null` nor `undefined`, else the fallback |
| Payload.FirstTruthy | src/pages/DashboardLayout.jsx:239-241 | an `||` chain yields the value of the first truthy key, else the fallback |
| Payload.SafeArray | src/pages/DoctorDashboard.jsx:80-87 | the first non-empty array among the candidates, else empty |
| Payload.FirstArrayUnder | src/pages/DoctorDashboard.jsx:123-127 | the array under the first key holding an array, else empty |
| Payload.ExtractArrayFromPayload | src/pages/DoctorDashboard.jsx:120-129 | a falsy payload gives nothing, an array is itself, otherwise the first keyed array |
| Payload.NormalizeList | src/pages/dashboard/DashboardSections.jsx:27-33 | a falsy payload gives nothing, an array is itself, then `items`, then `data`, else empty |
| Payload.NormalizeListExtended | src/pages/DoctorDashboard.jsx:107-116 | as the sections' reader, with three more keys tried after `items` and `data` |
| Payload.ExtendedAgreesWithSections | src/pages/DoctorDashboard.jsx:107-116 | the two `normalizeList` versions agree whenever the shorter one finds a list |
| Tally.Bump | src/pharmacy/pharmacypages/NewPrescriptionOrders.jsx:148 | one reduction step raises the key's count by one and leaves every other count alone |
| Tally.Tally | src/pharmacy/pharmacypages/NewPrescriptionOrders.jsx:146-150 | the counts have exactly the counted keys, each with its number of occurrences |
| Tally.CountSnoc | src/pharmacy/pharmacypages/NewPrescriptionOrders.jsx:146-150 | appending a key raises its occurrence count only |
| Tally.CountSnocOne | src/pharmacy/pharmacypages/NewPrescriptionOrders.jsx:146-150 | pointwise form of the step above |
| Tally.SumValuesRemove | src/pharmacy/pharmacypages/NewPrescriptionOrders.jsx:146-150 | the sum of the counts does not depend on which key is taken out first |
| Tally.SumValuesBump | src/pharmacy/pharmacypages/NewPrescriptionOrders.jsx:148 | one reduction step raises the sum of the counts by one |
| Tally.TallySum | src/pharmacy/pharmacypages/NewPrescriptionOrders.jsx:146-150 | the counts add up to the number of keys counted |
| Storage.JsonStableObject | src/lib/registrationContext.jsx:41 | an object of JSON-stable, defined properties survives the trip through JSON text |
| Storage.SetItem | src/App.jsx:46 | `setItem` stores the text under its key and changes no other key |
| Storage.RemoveItem | src/App.jsx:48 | `removeItem` clears its key and changes no other key |
| Api.BaseUrl | src/lib/api.js:1 | the configured base URL when defined, even if empty, else the public backend |
| Api.CreateHeaders | src/lib/api.js:3-12 | JSON content type iff not a form, and a bearer header iff the token is truthy; no other header |
| Api.ParseResponse | src/lib/api.js:14-21 | empty text is `{}`, JSON text is its parse, and other text comes back as a string |
| Api.ParseResponseRoundTrip | src/lib/api.js:14-21 | the text of a serialised value parses back to the value's JSON image |
| Api.RequestUrl | src/lib/api.js:24 | the URL is the base followed verbatim by the path |
| Api.EncodeBody | src/lib/api.js:30 | a form body passes through, a truthy body becomes JSON text, otherwise no body |
| Api.BuildRequest | src/lib/api.js:23-31 | the method defaults to GET only when undefined; URL, headers and body are as above |
| Api.ErrorMessage | src/lib/api.js:37-39 | the failure message is the body's `message`, else `error`, else the status text; a non-string becomes a generic message |
| Api.Settle | src/lib/api.js:33-41 | an OK response resolves to the parsed body; any other response rejects with the error message |
| Api.ApiRequest | src/lib/api.js:23-42 | a call settles as the response to the built request does |
| Api.PlainFailureReportsStatus | src/lib/api.js:36-39 | a failure with an empty or non-JSON body reports the status text |
| Api.SuccessRoundTrip | src/lib/api.js:33-41 | a successful JSON response resolves to the JSON image of the server's value |
| GlobalLoader.ShowLoader | src/lib/globalLoaderContext.jsx:9-11 | showing raises the count by one and makes the overlay visible |
| GlobalLoader.HideLoader | src/lib/globalLoaderContext.jsx:13-15 | hiding lowers the count by one, but never below zero |
| GlobalLoader.RunWithoutUnderflow | src/lib/globalLoaderContext.jsx:9-15 | calls that never hide more than was shown move the count by their net number |
| GlobalLoader.BalancedLoadRestoresCount | src/lib/globalLoaderContext.jsx:9-15 | a show paired with a later hide restores the count, whatever balanced calls come between |
| GlobalLoader.NetAppend | src/lib/globalLoaderContext.jsx:9-15 | the net count of calls is additive over concatenation |
| GlobalLoader.StrayHideIsAbsorbed | src/lib/globalLoaderContext.jsx:13-15 | a hide with nothing in progress leaves the count at zero and the overlay hidden |
| GlobalLoader.UseGlobalLoader | src/lib/globalLoaderContext.jsx:34-39 | the hook returns the provider's value and throws outside a provider |
| Registration.MergeSection | src/lib/registrationContext.jsx:45-47 | a merged section holds every stored key with its stored value and every other default key with its default |
| Registration.SectionDefaults | src/lib/registrationContext.jsx:6-27 | each section's defaults have exactly that section's keys |
| Registration.Assemble | src/lib/registrationContext.jsx:42-49 | the draft holds the defaults overridden by the stored properties, with the merged sections and the default files |
| Registration.HydrateParsed | src/lib/registrationContext.jsx:41-49 | parsed JSON gives the defaults spread over with its properties, sections merged key by key and files reset |
| Registration.Hydrate | src/lib/registrationContext.jsx:37-53 | nothing stored, or an empty string, gives the defaults, and so does unparsable text; otherwise the parsed draft, with the files always reset |
| Registration.Snapshot | src/lib/registrationContext.jsx:59-64 | the snapshot has exactly the doctor id and the three sections, never the files |
| Registration.Persist | src/lib/registrationContext.jsx:58-66 | the persist effect writes the snapshot's JSON under the draft key and nothing else |
| Registration.SetDoctorId | src/lib/registrationContext.jsx:68-75 | a string id is stored trimmed, a missing one as "", and any other value throws |
| Registration.UpdatePart | src/lib/registrationContext.jsx:77-111 | an update merges its keys into one part and changes no other part |
| Registration.ResetRegistration | src/lib/registrationContext.jsx:113-122 | a reset gives the defaults and keeps the doctor id unless told not to; only then is the stored draft removed |
| Registration.SnapshotStable | src/lib/registrationContext.jsx:59-65 | the snapshot of a well-formed draft survives JSON |
| Registration.HydrateStoredValue | src/lib/registrationContext.jsx:37-49 | stored JSON of a stable value hydrates as that value parsed |
| Registration.MergeKeepsFullSection | src/lib/registrationContext.jsx:45-47 | a section already holding every default key is its own merge |
| Registration.DraftKeys | src/lib/registrationContext.jsx:6-35 | the draft has exactly five parts |
| Registration.DefaultFieldValues | src/lib/registrationContext.jsx:6-35 | the default draft has the five parts, an empty doctor id and the default files |
| Registration.PartNamesDiffer | src/lib/registrationContext.jsx:6-35 | the five part names are pairwise different |
| Registration.PartsDetermineDraft | src/lib/registrationContext.jsx:6-35 | two drafts with the same five parts are equal |
| Registration.HydrateSnapshot | src/lib/registrationContext.jsx:37-64 | hydrating a well-formed draft's snapshot gives the draft back with its files reset |
| Registration.HydrateSnapshotKeys | src/lib/registrationContext.jsx:37-64 | the hydrated snapshot and the draft with reset files have the same five parts |
| Registration.HydrateSnapshotSection | src/lib/registrationContext.jsx:41-49 | each section of a well-formed draft comes back from its snapshot unchanged |
| Registration.HydrateSnapshotSections | src/lib/registrationContext.jsx:41-49 | the personal, registration and identity sections of a well-formed draft all come back from its snapshot unchanged |
| Registration.HydratePersisted | src/lib/registrationContext.jsx:37-66 | what is persisted comes back on the next load, files excepted |
| Registration.DefaultsWellFormed | src/lib/registrationContext.jsx:6-35 | the defaults with any string doctor id form a well-formed draft |
| Registration.ResetThenReload | src/lib/registrationContext.jsx:113-122 | after a reset that keeps the id, the next load restores the defaults with that id |
| AppShell.InitialToken | src/App.jsx:28 | the initial token is the stored string, or `null` |
| AppShell.InitialUser | src/App.jsx:29-36 | the initial user is the parsed stored JSON, else `null` when nothing, empty text or unparsable text is stored |
| AppShell.PersistToken | src/App.jsx:44-50 | a truthy token is written and any other is removed; no other key changes |
| AppShell.PersistUser | src/App.jsx:52-58 | a truthy user is written as JSON and any other is removed; no other key changes |
| AppShell.PersistSession | src/App.jsx:44-58 | the two persistence effects touch only the token and user keys |
| AppShell.GuardDashboard | src/App.jsx:38-42 | the login dialog opens exactly when a dashboard path is visited without a token |
| AppShell.HandleLoginSuccess | src/App.jsx:64-69 | a login stores the user and token (falsy ones as `null`), closes the dialog and goes to the dashboard; a missing payload throws |
| AppShell.HandleLogout | src/App.jsx:77-81 | logout clears both parts of the session and goes home |
| AppShell.HandleHomeJoinClick | src/App.jsx:83-89 | with a token the click goes to the dashboard, otherwise it opens the login dialog |
| AppShell.ProtectedRoute | src/App.jsx:91-108 | the children render iff there is a token; otherwise the login prompt shows and the dialog opens |
| AppShell.LoginSurvivesReload | src/App.jsx:28-69 | after a login with a string token and an object user, the next page load restores the same session |
| AppShell.LogoutSurvivesReload | src/App.jsx:28-81 | after logout the next page load is signed out, and a dashboard path asks for login |
| DashboardLayout.Greeting | src/pages/DashboardLayout.jsx:62-66 | morning before 12, afternoon before 17, evening after |
| DashboardLayout.FindLabel | src/pages/DashboardLayout.jsx:244-246 | `find` yields the label of the first section at the path, and nothing iff no section is at the path |
| DashboardLayout.CurrentSectionLabel | src/pages/DashboardLayout.jsx:244-246 | the header shows the label of the section at the current path, "Menu" when there is none |
| DashboardLayout.SectionPathsDistinct | src/pages/DashboardLayout.jsx:23-49 | no two menu sections share a path, and every section has a caption |
| DashboardLayout.Redirect | src/pages/DashboardLayout.jsx:249-251 | exactly the bare dashboard path redirects, to the onboarding section |
| DashboardLayout.WelcomeName | src/pages/DashboardLayout.jsx:237-242 | the first truthy profile name, else the user's truthy name, else "Doctor" |
| DashboardLayout.RefreshDashboard | src/pages/DashboardLayout.jsx:185-231 | no token gives no request; otherwise loader balanced, both bodies stored on success, a pending-verification failure sets only the flag (retrying the profile), any other failure sets the error |
| DashboardLayout.RefreshErrorOrPending | src/pages/DashboardLayout.jsx:207-226 | a refresh never leaves both an error and the pending flag set |
| DashboardLayout.PendingIgnoresCase | src/pages/DashboardLayout.jsx:210-215 | the pending-verification test ignores the message's letter case |
| DoctorDashboard.FallbackCards | src/pages/DoctorDashboard.jsx:132-153 | the four fixed cards in order, each value present or "—" and each meta present or "" ; each card's value and meta come from its own keys, first present wins: `verificationTasks`/`verificationPending`/`verifications` and `verificationMeta`/`verificationMessage`; `clinicsSynced`/`clinicCount` and `lastClinicSync`; `todayVisits`/`visitsToday` and `visitMeta`; `followUps`/`followUpsPending` and `followUpMeta` |
| DoctorDashboard.FallbackCardsOfBareOverview | src/pages/DoctorDashboard.jsx:131-153 | with no overview key present, as for the default `{}`, every fallback card shows "—" with an empty meta |
| DoctorDashboard.PickAbsent | src/pages/DoctorDashboard.jsx:89-96 | `pickValue` on a value with no present key gives the fallback |
| DoctorDashboard.BuildSnapshotStats | src/pages/DoctorDashboard.jsx:131-165 | a non-empty metrics list maps one card per metric (throwing on a missing metric); otherwise the four fallback cards |
| DoctorDashboard.MetricCard | src/pages/DoctorDashboard.jsx:157-161 | each card field is the metric's first present alias, else its default |
| DoctorDashboard.BuildOnboardingSteps | src/pages/DoctorDashboard.jsx:167-174 | one step per entry of the first non-empty list, untitled ones named "Step i+1"; throws iff an entry is missing |
| DoctorDashboard.StepOf | src/pages/DoctorDashboard.jsx:169-173 | each step field is the entry's first present alias, else its default (the title "Step i+1") |
| DoctorDashboard.FormatTime | src/pages/DoctorDashboard.jsx:98-105 | a falsy time shows "TBD"; any other goes to the clock |
| DoctorDashboard.PatientName | src/pages/DoctorDashboard.jsx:179-187 | a string patient is itself, an object gives its first truthy name field, anything else "Patient" |
| DoctorDashboard.BuildAppointments | src/pages/DoctorDashboard.jsx:176-196 | one entry per normalised appointment with patient, mode, time, status and notes per their fallbacks; throws iff an entry is missing |
| DoctorDashboard.ResolvedDoctorId | src/pages/DoctorDashboard.jsx:237-257 | the first truthy of profile id, overview doctor id and overview id; then a doctor user's id; else `null` |
| DoctorDashboard.EmptyProfileIdFallsThrough | src/pages/DoctorDashboard.jsx:239-240 | a present but empty profile id stops the profile's later keys and falls through to the overview |
| DoctorDashboard.NoSourceNoDoctorId | src/pages/DoctorDashboard.jsx:237-257 | with no profile, no overview and a non-doctor user there is no id |
| DoctorDashboard.SlotLabel | src/pages/DoctorDashboard.jsx:466-479 | a string slot is itself; a timed slot is "start - end" with its first present descriptor in parentheses when truthy; a `time` slot is the clock text with its truthy `mode` in parentheses; otherwise `label`, `title` or "Slot"; throws exactly for a missing slot |
| DoctorDashboard.CalendarRowOf | src/pages/DoctorDashboard.jsx:450-481 | a day's row has its first present label or "Day i+1" and one slot text per entry; throws iff the day or an entry is missing |
| DoctorDashboard.CalendarRows | src/pages/DoctorDashboard.jsx:448-482 | one row per schedule day, each labelled as above and each the row its day builds, slot texts included; throws iff some row throws |
| DoctorDashboard.ScheduleFromResponse | src/pages/DoctorDashboard.jsx:328-335 | the availability list is the array response, the `data` array, or the first array under `schedule`, `availability`, `slots`, `days`, `data` of the truthy `data` (else of the response); empty for a falsy response or when no key holds an array |
| DoctorDashboard.StringSlotsShownAsIs | src/pages/DoctorDashboard.jsx:458-467 | a day whose `slots` are all strings shows exactly those strings, in order |
| DoctorDashboard.TimedSlotText | src/pages/DoctorDashboard.jsx:468-473 | a slot with text start, end and mode reads "start - end (mode)" |
| DoctorDashboard.StatusKeys | src/pages/DoctorDashboard.jsx:491 | one status key per order |
| DoctorDashboard.Amounts | src/pages/DoctorDashboard.jsx:493 | one amount per order |
| DoctorDashboard.FiniteSumSnoc | src/pages/DoctorDashboard.jsx:494-496 | appending an amount adds it to the sum only when it is finite |
| DoctorDashboard.StatusCounts | src/pages/DoctorDashboard.jsx:488-492 | the `forEach` counts are the tally of the orders' status keys |
| DoctorDashboard.AmountTotal | src/pages/DoctorDashboard.jsx:489-496 | the running amount is the sum of the finite amounts |
| DoctorDashboard.PharmacyOrderStats | src/pages/DoctorDashboard.jsx:486-499 | nothing iff there are no orders; else the count, per-status counts summing to it, and the finite amount sum |
| DoctorDashboard.NaNAmountsAddNothing | src/pages/DoctorDashboard.jsx:493-496 | an order whose amount is not a number leaves the total unchanged |
| DoctorDashboard.AmountsSnoc | src/pages/DoctorDashboard.jsx:493 | one more order appends its amount to the amounts |
| Onboarding.ReplaceFirst | src/pages/dashboard/Onboarding.jsx:17 | `replace` with a one-character string changes only the first occurrence |
| Onboarding.ReplaceFirstOnlyFirst | src/pages/dashboard/Onboarding.jsx:17 | a string without the pattern is unchanged, and otherwise only the first occurrence's position changes |
| Onboarding.NoPatternUnchanged | src/pages/dashboard/Onboarding.jsx:17 | a string without the pattern character is returned unchanged |
| Onboarding.FirstOccurrenceReplaced | src/pages/dashboard/Onboarding.jsx:17 | the first occurrence is replaced and the text before and after it kept |
| Onboarding.BadgeLabel | src/pages/dashboard/Onboarding.jsx:17 | a missing status is "UNKNOWN", a string status is upper-cased with its first "_" a space, and any other status throws |
| Onboarding.BadgeStyle | src/pages/dashboard/Onboarding.jsx:10-18 | the four known statuses get their colours; anything else the neutral style |
| Onboarding.DoctorIdFromOverview | src/pages/dashboard/Onboarding.jsx:75-82 | the first truthy of the overview doctor's ids and the overview's ids; no overview keeps the previous id |
| Onboarding.FetchVerification | src/pages/dashboard/Onboarding.jsx:84-101 | no request without a token or id; otherwise the record or the failure message, and loading ends |
| Onboarding.Render | src/pages/dashboard/Onboarding.jsx:103-127 | spinner while loading, then the error, then "no record", and the details iff a truthy record loaded without error |
| Onboarding.NoTokenKeepsSpinner | src/pages/dashboard/Onboarding.jsx:84-85 | without a token the page stays on the spinner |
| Onboarding.LoadedRecordShowsDetails | src/pages/dashboard/Onboarding.jsx:84-127 | a successful load of a truthy record shows the details |
| Onboarding.DetailRow | src/pages/dashboard/Onboarding.jsx:42 | a detail shows its value, or "—" for a falsy one |
| Onboarding.DocumentStatus | src/pages/dashboard/Onboarding.jsx:47-63 | a document is "Uploaded" iff its file is truthy, "Pending" otherwise |
| DashboardSections.InitialServices | src/pages/dashboard/DashboardSections.jsx:82 | the first truthy service list of the profile doctor, the profile and the user, else empty |
| DashboardSections.ServicesOf | src/pages/dashboard/DashboardSections.jsx:82-83 | a string-array `services` value gives its names in order |
| DashboardSections.InitialServicesList | src/pages/dashboard/DashboardSections.jsx:82-83 | no `services` anywhere starts the list empty; a string array found first is taken as it is |
| DashboardSections.AddService | src/pages/dashboard/DashboardSections.jsx:94-110 | a trimmed, non-blank, unlisted name is appended and the input cleared; otherwise nothing changes; the list stays duplicate-free |
| DashboardSections.RemoveService | src/pages/dashboard/DashboardSections.jsx:112-114 | every copy of the service goes, the others stay in order |
| DashboardSections.ToggleService | src/pages/dashboard/DashboardSections.jsx:116-122 | a listed service is removed, an unlisted one added |
| DashboardSections.ToggleTwiceRestores | src/pages/dashboard/DashboardSections.jsx:116-122 | toggling an unlisted trimmed name twice gives the list back |
| DashboardSections.ToggleDay | src/pages/dashboard/DashboardSections.jsx:829-834 | flips that day's `enabled` and changes nothing else |
| DashboardSections.ToggleDayTwice | src/pages/dashboard/DashboardSections.jsx:829-834 | toggling a boolean flag twice restores the week |
| DashboardSections.ChangeField | src/pages/dashboard/DashboardSections.jsx:836-841 | sets one field of one day and changes nothing else |
| DashboardSections.ApplyToWeekdays | src/pages/dashboard/DashboardSections.jsx:843-857 | Monday's settings, enabled, on Monday to Friday; the weekend unchanged |
| DashboardSections.ApplyToWeekdaysIdempotent | src/pages/dashboard/DashboardSections.jsx:843-857 | applying Monday's settings twice is applying them once |
| DashboardSections.Days | src/pages/dashboard/DashboardSections.jsx:870-877 | one day number per entry |
| DashboardSections.EnabledBelow | src/pages/dashboard/DashboardSections.jsx:870-877 | exactly the enabled days, in increasing order, each with its settings |
| DashboardSections.SlotDays | src/pages/dashboard/DashboardSections.jsx:870-877 | one day number per slot |
| DashboardSections.SavePayload | src/pages/dashboard/DashboardSections.jsx:870-877 | the saved list has a slot exactly for each enabled day, in day order, with its times and parsed duration |
| DashboardSections.NoEnabledDaySavesNothing | src/pages/dashboard/DashboardSections.jsx:870-877 | a week with no enabled day saves an empty list |
| DashboardSections.DefaultWeekSavesNothing | src/pages/dashboard/DashboardSections.jsx:804-812 | the default week saves an empty list |
| DashboardSections.NoneEnabledBelow | src/pages/dashboard/DashboardSections.jsx:870-877 | no enabled day below `n` gives no entry |
| DashboardSections.DefaultWeekdaysPayload | src/pages/dashboard/DashboardSections.jsx:843-877 | after applying to weekdays the default week saves Monday to Friday |
| DashboardSections.AvailabilityDoctorId | src/pages/dashboard/DashboardSections.jsx:824-827 | the overview doctor's id, else the overview's own |
| DashboardSections.SaveAvailability | src/pages/dashboard/DashboardSections.jsx:859-890 | no request without a token or doctor id; otherwise the doctor's path and the payload, with the success or error message |
| DashboardSections.KeysOf | src/pages/dashboard/DashboardSections.jsx:1076 | one key per map entry |
| DashboardSections.RoomKeys | src/pages/dashboard/DashboardSections.jsx:1076 | one key per room |
| DashboardSections.SetEntry | src/pages/dashboard/DashboardSections.jsx:1076 | `Map.set` keeps a known key's place with the new room, and appends a new key |
| DashboardSections.Entries | src/pages/dashboard/DashboardSections.jsx:1076 | the map built from the rooms has distinct keys and no more entries than rooms |
| DashboardSections.EntriesKeys | src/pages/dashboard/DashboardSections.jsx:1076 | the map's keys are exactly the rooms' keys |
| DashboardSections.FirstWith | src/pages/dashboard/DashboardSections.jsx:1076 | the position of the first room with a key |
| DashboardSections.EntriesLastWins | src/pages/dashboard/DashboardSections.jsx:1076 | each kept room is the last room listed with its key |
| DashboardSections.EntriesFirstOrder | src/pages/dashboard/DashboardSections.jsx:1076 | keys keep the order of their first appearance |
| DashboardSections.FirstWithExtend | src/pages/dashboard/DashboardSections.jsx:1076 | appending a room does not move a key's first position |
| DashboardSections.FirstWithAbsent | src/pages/dashboard/DashboardSections.jsx:1076 | a new key first appears at the appended room |
| DashboardSections.LastWithFound | src/pages/dashboard/DashboardSections.jsx:1076 | the last room with an occurring key has that key |
| DashboardSections.DedupeRooms | src/pages/dashboard/DashboardSections.jsx:1076 | throws iff a room is missing; otherwise one room per distinct id |
| DashboardSections.KeptRooms | src/pages/dashboard/DashboardSections.jsx:1076 | every kept room is the last listed with its id |
| DashboardSections.DedupeRoomsSpec | src/pages/dashboard/DashboardSections.jsx:1076 | the de-duplicated list has no repeated id, every id present, in first-appearance order, each room the last with its id |
| DashboardSections.MarkedRead | src/pages/dashboard/DashboardSections.jsx:738 | the copy is read and otherwise the same notification |
| DashboardSections.MarkAsRead | src/pages/dashboard/DashboardSections.jsx:735-742 | after success exactly the notifications with the id are marked read; a failure changes nothing |
| DashboardSections.MarkedReadStable | src/pages/dashboard/DashboardSections.jsx:738 | marking read keeps the id and is idempotent |
| DashboardSections.MarkAsReadFixed | src/pages/dashboard/DashboardSections.jsx:735-742 | a list whose matching notifications are already read is unchanged |
| DashboardSections.MarkAsReadIdempotent | src/pages/dashboard/DashboardSections.jsx:735-742 | marking the same notification read twice is marking it once |
| PharmacySidebar.ActiveExamples | src/pharmacy/components/Sidebar.jsx:20-22 | on every path the dashboard entry is active only on its own path; worked examples of a section entry matching by plain prefix |
| PharmacySidebar.SectionActiveUnder | src/pharmacy/components/Sidebar.jsx:20-22 | a section entry is highlighted on every path extending its target and on no path not starting with it |
| PharmacySidebar.PrefixesNest | src/pharmacy/components/Sidebar.jsx:20-22 | two prefixes of one path are prefixes of each other |
| PharmacySidebar.TargetsDoNotNest | src/pharmacy/components/Sidebar.jsx:8-16 | no section target is a prefix of another |
| PharmacySidebar.AtMostOneActive | src/pharmacy/components/Sidebar.jsx:8-22 | whatever the path, at most one menu entry is highlighted |
| PharmacySidebar.Status | src/pharmacy/components/Sidebar.jsx:76 | only the first entry receives the "Active" status |
| PharmacySidebar.BadgeText | src/pharmacy/components/Sidebar.jsx:38 | the badge shows the status, or "View" when there is none |
| PharmacySidebar.BadgesOfTheMenu | src/pharmacy/components/Sidebar.jsx:38-76 | the first entry reads "Active" and every other "View", wherever the user is |
| PharmacySidebar.StoreName | src/pharmacy/components/Sidebar.jsx:47 | the truthy store name, else the truthy user name, else "City Pharmacy"; always truthy |
| PharmacySidebar.UserName | src/pharmacy/components/Sidebar.jsx:48 | the user's name when present, even if empty, else "Pharmacy Partner" |
| PharmacySidebar.EmptyUserName | src/pharmacy/components/Sidebar.jsx:47-48 | an empty user name is skipped by the store line but printed as the user name |
| PrescriptionOrders.StatusKey | src/pharmacy/pharmacypages/NewPrescriptionOrders.jsx:42-43 | a missing status is "pending"; any other is its text with each character lower-cased, of the same length |
| PrescriptionOrders.UnderscoresToSpaces | src/pharmacy/pharmacypages/NewPrescriptionOrders.jsx:52 | every "_" becomes a space and nothing else changes |
| PrescriptionOrders.CapitalizeWords | src/pharmacy/pharmacypages/NewPrescriptionOrders.jsx:53 | exactly the word characters at a word boundary are upper-cased |
| PrescriptionOrders.StatusLabel | src/pharmacy/pharmacypages/NewPrescriptionOrders.jsx:45-55 | "Pending" for a missing status, the friendly label of a known key in any case, else the status with every "_" a space and every word start upper-cased, equal to it ignoring case |
| PrescriptionOrders.FilterStatusesLabelled | src/pharmacy/pharmacypages/NewPrescriptionOrders.jsx:24-40 | every filter button has its friendly label, and the six statuses are distinct |
| PrescriptionOrders.FilterOrders | src/pharmacy/pharmacypages/NewPrescriptionOrders.jsx:105-134 | exactly the orders matching filter and search are listed, in order, each as often as in the input; a missing order throws |
| PrescriptionOrders.AllAndBlankListsEverything | src/pharmacy/pharmacypages/NewPrescriptionOrders.jsx:105-134 | the "all" filter with a blank search lists every order |
| PrescriptionOrders.TotalPages | src/pharmacy/pharmacypages/NewPrescriptionOrders.jsx:137 | at least one page, and just enough pages of fifteen for the orders |
| PrescriptionOrders.Slice | src/pharmacy/pharmacypages/NewPrescriptionOrders.jsx:140-143 | `slice` with in-range bounds is the subsequence, and an end past the array stops at the end |
| PrescriptionOrders.SafePage | src/pharmacy/pharmacypages/NewPrescriptionOrders.jsx:138 | the shown page is the current page capped at the last |
| PrescriptionOrders.Visible | src/pharmacy/pharmacypages/NewPrescriptionOrders.jsx:139-143 | a page shows at most fifteen orders |
| PrescriptionOrders.PageHoldsItsOrders | src/pharmacy/pharmacypages/NewPrescriptionOrders.jsx:136-143 | the i-th filtered order is on page i/15+1 at position i mod 15 |
| PrescriptionOrders.PastTheEndShowsLast | src/pharmacy/pharmacypages/NewPrescriptionOrders.jsx:138-143 | a page past the last shows the last page |
| PrescriptionOrders.GoToPageDelta | src/pharmacy/pharmacypages/NewPrescriptionOrders.jsx:153-160 | the page moves by the delta, clamped to the first and last page |
| PrescriptionOrders.StatusKeys | src/pharmacy/pharmacypages/NewPrescriptionOrders.jsx:147 | one status key per order |
| PrescriptionOrders.CountStatuses | src/pharmacy/pharmacypages/NewPrescriptionOrders.jsx:145-151 | the reduction computes the tally of the status keys |
| PrescriptionOrders.StatusCounts | src/pharmacy/pharmacypages/NewPrescriptionOrders.jsx:145-151 | throws iff an order is missing; otherwise exactly the occurring keys, each with its count, adding up to the number of orders |
| PrescriptionOrders.ButtonCount | src/pharmacy/pharmacypages/NewPrescriptionOrders.jsx:246 | a button shows the status's count, 0 when it has none |
| PrescriptionOrders.OrdersList | src/pharmacy/pharmacypages/NewPrescriptionOrders.jsx:108 | filtering succeeds iff the loaded orders are an array |
| PrescriptionOrders.SetFilter | src/pharmacy/pharmacypages/NewPrescriptionOrders.jsx:101-103 | a new filter goes back to page 1 and changes nothing else |
| PrescriptionOrders.SetSearch | src/pharmacy/pharmacypages/NewPrescriptionOrders.jsx:101-103 | a new search term goes back to page 1 and changes nothing else |
| PrescriptionOrders.StepPage | src/pharmacy/pharmacypages/NewPrescriptionOrders.jsx:153-160 | a page step stays within the pages and changes nothing else |
| PrescriptionOrders.LoadOrders | src/pharmacy/pharmacypages/NewPrescriptionOrders.jsx:68-99 | no token empties the list; otherwise loader balanced, the items (or data, or []) or the error message; an unmounted page keeps loading |
| OrderDetails.StatusOptionsMatchOrderList | src/pharmacy/pharmacypages/OrderDetails.jsx:12-19 | the selector offers the order list's six statuses, in its order, with its labels |
| OrderDetails.StatusOptionIdsDistinct | src/pharmacy/pharmacypages/OrderDetails.jsx:12-19 | the six status ids are pairwise different |
| OrderDetails.Load | src/pharmacy/pharmacypages/OrderDetails.jsx:56-82 | no request without a token or id; otherwise the order's `data` or the failure message (with its default) |
| OrderDetails.WithStatus | src/pharmacy/pharmacypages/OrderDetails.jsx:96 | the new status replaces the old, every other property kept |
| OrderDetails.ChangeStatus | src/pharmacy/pharmacypages/OrderDetails.jsx:84-104 | nothing without id or token; otherwise the PATCH to the order's status path, the loader balanced, and the new status or the error |
| OrderDetails.StatusChangeTouchesOnlyStatus | src/pharmacy/pharmacypages/OrderDetails.jsx:96 | a successful change alters the status and no other property |
| OrderDetails.StatusChangeIdempotent | src/pharmacy/pharmacypages/OrderDetails.jsx:84-104 | setting the same status twice is setting it once |
| OrderDetails.StatusChangeRestoresLoader | src/pharmacy/pharmacypages/OrderDetails.jsx:89-102 | every status change leaves the loader count where it found it |
| OrderDetails.DetailLine | src/pharmacy/pharmacypages/OrderDetails.jsx:108-110 | a line with a falsy price or quantity is 0, and a numeric line is price times quantity |
| OrderDetails.Subtotal | src/pharmacy/pharmacypages/OrderDetails.jsx:106-111 | `undefined` without items, the sum of the lines for an array, a throw otherwise or on a missing item |
| OrderDetails.TotalAmount | src/pharmacy/pharmacypages/OrderDetails.jsx:183 | the order's own total when present, else the subtotal |
| OrderDetails.SubtotalAgreesWithInvoice | src/pharmacy/pharmacypages/OrderDetails.jsx:106-111 | on numeric or missing amounts this page's subtotal equals the invoice's |
| OrderDetails.PaymentLabel | src/pharmacy/pharmacypages/OrderDetails.jsx:182 | "COD" when missing, the upper-cased string, and a throw for a non-string |
| OrderDetails.PaymentLabelAgreesWithInvoice | src/pharmacy/pharmacypages/OrderDetails.jsx:182 | this page and the invoice show the same payment method |
| Money.SumLines | src/pharmacy/pharmacypages/InvoicePage.jsx:211-215 | the running sum throws iff some item is missing, and is 0 for no items |
| Money.Combine | src/pharmacy/pharmacypages/InvoicePage.jsx:211-215 | two partial sums combine, throwing iff either threw |
| Money.SumLinesSplit | src/pharmacy/pharmacypages/InvoicePage.jsx:211-215 | summing a concatenation sums the halves |
| Money.SumLinesReorder | src/pharmacy/pharmacypages/InvoicePage.jsx:211-215 | the order of the items does not change the sum |
| Money.SumLinesCongruent | src/pharmacy/pharmacypages/InvoicePage.jsx:211-215 | line functions agreeing on present items give the same sum |
| Addresses.Present | src/pharmacy/pharmacypages/InvoicePage.jsx:25 | `filter(Boolean)` keeps only truthy parts |
| Addresses.Texts | src/pharmacy/pharmacypages/InvoicePage.jsx:26 | one text per kept part |
| Addresses.JoinKept | src/pharmacy/pharmacypages/InvoicePage.jsx:26 | no parts join to ""; each kept string occurs in the line (the exact line is `Addresses.JoinPresentCons`) |
| Addresses.JoinPresent | src/pharmacy/pharmacypages/InvoicePage.jsx:25-26 | no truthy part gives ""; every truthy string part appears in the line (the exact line is `Addresses.JoinPresentCons`) |
| Addresses.JoinContains | src/pharmacy/pharmacypages/InvoicePage.jsx:26 | every joined part occurs in the joined text |
| Addresses.JoinPresentSkipsFalsy | src/pharmacy/pharmacypages/InvoicePage.jsx:25-26 | a falsy part leaves the joined line unchanged |
| Addresses.JoinPresentCons | src/pharmacy/pharmacypages/InvoicePage.jsx:25-26 | read from the front, a falsy part prints nothing and a truthy one prints its text, then ", " and the rest's line when a later part is kept |
| Addresses.JoinPresentOfStrings | src/pharmacy/pharmacypages/InvoicePage.jsx:25-26 | any number of non-empty strings print in order with ", " between neighbours |
| Addresses.PresentSkipsFalsy | src/pharmacy/pharmacypages/InvoicePage.jsx:25 | a falsy part leaves the filtered list unchanged |
| Addresses.FiveParts | src/pharmacy/pharmacypages/InvoicePage.jsx:16-26 | five non-empty parts print as `a, b, c, d, e` |
| Addresses.KeptFive | src/pharmacy/pharmacypages/InvoicePage.jsx:25-26 | five non-empty parts are all kept, as themselves |
| Addresses.JoinFive | src/pharmacy/pharmacypages/InvoicePage.jsx:26 | five texts join with the separator between each neighbouring pair |
| Addresses.JoinSnoc | src/pharmacy/pharmacypages/InvoicePage.jsx:26 | joining one more part appends the separator and the part |
| Invoice.FormatAddress | src/pharmacy/pharmacypages/InvoicePage.jsx:16-27 | "Not provided" for a falsy address or one without truthy parts; otherwise the `filter(Boolean).join(", ")` line of the five parts |
| Invoice.FullAddressPrinted | src/pharmacy/pharmacypages/InvoicePage.jsx:16-27 | five non-empty text parts print as `a, b, c, d, e` |
| Invoice.SellerAddress | src/pharmacy/pharmacypages/InvoicePage.jsx:199-203 | a non-empty object address is formatted; a non-empty array prints "Not provided"; an empty object or array, or a non-object, falls back to `storeAddress`, else "Not provided" |
| Invoice.Amount | src/pharmacy/pharmacypages/InvoicePage.jsx:212-213 | a missing amount is 0, a number is itself |
| Invoice.ItemsOf | src/pharmacy/pharmacypages/InvoicePage.jsx:210 | missing items are none, an array is its elements, and anything else makes `reduce` throw |
| Invoice.LineBase | src/pharmacy/pharmacypages/InvoicePage.jsx:362-366 | price times quantity, 0 when either is missing, NaN iff either is not a number |
| Invoice.LineTotal | src/pharmacy/pharmacypages/InvoicePage.jsx:362-367 | base minus discount plus tax, NaN iff any part is NaN |
| Invoice.PlainLinesSumToSubtotal | src/pharmacy/pharmacypages/InvoicePage.jsx:211-215 | items without discount or tax sum to the subtotal in their line totals |
| Invoice.RowKey | src/pharmacy/pharmacypages/InvoicePage.jsx:369-372 | the product id, else the item id, else a key built from the index |
| Invoice.AnonymousRowKeysDiffer | src/pharmacy/pharmacypages/InvoicePage.jsx:369-372 | rows without ids at different indices get different keys |
| Invoice.ItemsSubtotal | src/pharmacy/pharmacypages/InvoicePage.jsx:210-215 | the items' sum, throwing iff the items cannot be summed |
| Invoice.Subtotal | src/pharmacy/pharmacypages/InvoicePage.jsx:210-216 | the order's subtotal when present, else the items' sum; the items are summed even when a subtotal is present, so it throws iff they cannot be |
| Invoice.Discount | src/pharmacy/pharmacypages/InvoicePage.jsx:217-218 | the first present discount field, else 0 |
| Invoice.Delivery | src/pharmacy/pharmacypages/InvoicePage.jsx:219-220 | the first present delivery field, else 0 |
| Invoice.PlusValue | src/pharmacy/pharmacypages/InvoicePage.jsx:221 | JavaScript `+`: a string operand concatenates, a primitive one adds numerically |
| Invoice.GrandTotalAsWritten | src/pharmacy/pharmacypages/InvoicePage.jsx:221 | the order total when present, else subtotal minus discount `+` delivery as JavaScript evaluates it |
| Invoice.GrandTotal | src/pharmacy/pharmacypages/InvoicePage.jsx:221 | the order total when present, else the numeric subtotal minus discount plus delivery; always a number then |
| Invoice.GrandTotalAgreesOnNumbers | src/pharmacy/pharmacypages/InvoicePage.jsx:221 | the written and corrected totals agree whenever the delivery charge is not text or an object |
| Invoice.TextDeliveryOrderFields | src/pharmacy/pharmacypages/InvoicePage.jsx:217-221 | the example order has discount 10, delivery "50" and no total |
| Invoice.TextDeliveryDiscount | src/pharmacy/pharmacypages/InvoicePage.jsx:217-218 | the example order's discount is its `discount` alias, 10 |
| Invoice.TextDeliveryCharge | src/pharmacy/pharmacypages/InvoicePage.jsx:219-220 | the example order's delivery charge is the text "50" |
| Invoice.TextFiftyIsFifty | src/pharmacy/pharmacypages/InvoicePage.jsx:221 | worked example for the finding: `Number("50")` is 50 |
| Invoice.NinetyDisplayed | src/pharmacy/pharmacypages/InvoicePage.jsx:221 | worked example for the finding: the number 90 prints as "90" |
| Invoice.GrandTotalConcatenates | src/pharmacy/pharmacypages/InvoicePage.jsx:221 | as written, that order's grand total is the text "9050" |
| Invoice.GrandTotalOfTextDelivery | src/pharmacy/pharmacypages/InvoicePage.jsx:221 | corrected, that order's grand total is 140 |
| Invoice.AmountPaid | src/pharmacy/pharmacypages/InvoicePage.jsx:222-223 | the first present paid field, else the grand total |
| Invoice.BalanceDue | src/pharmacy/pharmacypages/InvoicePage.jsx:224 | never negative; NaN iff either side is not a number; the shortfall when unpaid, else 0 |
| Invoice.InvoiceTotals | src/pharmacy/pharmacypages/InvoicePage.jsx:210-224 | the page's money block: throws iff the items cannot be summed, otherwise each figure above with the grand total as written and the amount paid falling back to it |
| Invoice.InvoiceTotalsCorrected | src/pharmacy/pharmacypages/InvoicePage.jsx:210-224 | the same block with the numeric grand total |
| Invoice.InvoiceTotalsAgreeOnNumbers | src/pharmacy/pharmacypages/InvoicePage.jsx:210-224 | the two blocks agree unless the delivery charge is text, an array or an object |
| Invoice.TextDeliveryTotals | src/pharmacy/pharmacypages/InvoicePage.jsx:210-224 | with a text delivery charge the page's block shows "9050" where the corrected one shows 140 |
| Invoice.BalanceZeroByDefault | src/pharmacy/pharmacypages/InvoicePage.jsx:222-224 | with no paid field and a numeric total, nothing is due |
| Invoice.ItemsOnlyOrder | src/pharmacy/pharmacypages/InvoicePage.jsx:210-224 | an order with only numeric items totals to their sum with nothing due |
| Invoice.InvoiceNumber | src/pharmacy/pharmacypages/InvoicePage.jsx:193 | the invoice number, else the order id, else `_id`, else the route's id |
| Invoice.PaymentMethod | src/pharmacy/pharmacypages/InvoicePage.jsx:226 | "COD" when missing, the upper-cased string, a throw for a non-string; never lower-case letters |
| Invoice.PaymentMethodStable | src/pharmacy/pharmacypages/InvoicePage.jsx:226 | a printed payment method prints the same again |
| Invoice.Load | src/pharmacy/pharmacypages/InvoicePage.jsx:100-129 | no request without token or id; otherwise both records, or the failure message with its default |
| Invoice.Render | src/pharmacy/pharmacypages/InvoicePage.jsx:146-177 | preparing iff loading, "not available" iff loaded without an order, otherwise the document with the error banner |
| Invoice.FailedFirstLoadHidesError | src/pharmacy/pharmacypages/InvoicePage.jsx:119-177 | a failed first load shows "not available", so the error banner is never seen |
| SettingsPage.FormatAddress | src/pharmacy/pharmacypages/SettingsPage.jsx:10-20 | "" for a falsy address or no truthy part; otherwise the `filter(Boolean).join(", ")` line of the five parts, containing every truthy string part |
| SettingsPage.FullAddressPrinted | src/pharmacy/pharmacypages/SettingsPage.jsx:10-20 | five non-empty text parts print as `a, b, c, d, e` |
| SettingsPage.FormatAddressAgreesWithInvoice | src/pharmacy/pharmacypages/SettingsPage.jsx:10-20 | for short-named addresses the settings line equals the invoice's, except "" against "Not provided" |
| SettingsPage.FormFromProfile | src/pharmacy/pharmacypages/SettingsPage.jsx:41-46 | each field the record's present value or "", and the address flattened |
| SettingsPage.EmptyProfileGivesBlankForm | src/pharmacy/pharmacypages/SettingsPage.jsx:23-46 | an empty profile fills the initial blank form |
| SettingsPage.LoadProfile | src/pharmacy/pharmacypages/SettingsPage.jsx:32-58 | no request without a token; otherwise the loader balanced and the form replaced only by a successful, live load |
| SettingsPage.LoadRestoresLoader | src/pharmacy/pharmacypages/SettingsPage.jsx:36-50 | a profile load leaves the loader count where it found it |

## Left out

- Numbers are integers or NaN. Amounts are whole rupees; fractional amounts, `Infinity` and `-0` are not modelled.
- JsValue.ToNumber: reads only optionally signed decimal digits from text, so exponents ("1e3"), a decimal point ("12.0"), the `0x`, `0o` and `0b` prefixes and "Infinity" give NaN where JavaScript gives a number.
- Properties inherited through prototypes (`toString`, `constructor`) are not modelled. Objects hold only their own properties.
- Case mapping covers ASCII letters only. Unicode case rules and locale-aware comparison are not modelled.
- Date formatting, locale and `Intl` output are not modelled. Time display goes through the `clock` parameter, and the invoice's date, time and currency texts are left out.
- `parseInt` reads decimal digits only. The `0x` prefix and radix detection are not modelled.
- Object identity is not modelled. A `Map` is keyed by value, and `===` compares values (NaN equals nothing).
- React rendering, layout, animations, timers and the drawers are not modelled. Only the state that decides what is shown is kept.
- The network is a parameter. A page's requests settle through the `Api.Reply` or `Api.Joint` passed in.
- DashboardSections.AddService: the service list is taken to be an array of strings (`DashboardSections.ServicesOf`). A `services` value that is text, where `includes` tests for a substring and the spread splits it into characters, or an array holding non-strings, is not modelled.
- DashboardSections.RemoveService: works on the same array of strings, for the same reason.
- DashboardSections.ToggleService: works on the same array of strings, for the same reason.
- DashboardSections.ToggleDay: requires a day number in 0..6, because the page only calls it from the seven day rows.
- DashboardSections.ChangeField: requires a day number in 0..6, for the same reason.
- Which request of a `Promise.all` fails first is part of the `Api.Joint` parameter.
- A load cancelled by unmounting is modelled as cancelled before it settles. A cancellation arriving between settlement and the state update is not modelled separately.
- Chat message sending, the patients and notifications views beyond marking read, and the remaining view-model builders are left out. This includes `buildPatients` and `buildNotifications`. They follow the same `Payload` readers.
- The invoice download and print, and the customer and seller text fallbacks other than the seller address are left out. These are the customer name, phone and email, seller name, phone, email and website, GST number and return policy. Each is a plain `??` chain of the kind `Payload.PickValue` states.
- The order details page's `statusUpdating` flag is left out. It only disables the selector while a change is in flight.
- Without a token the onboarding page keeps its spinner forever. The model states this in `Onboarding.NoTokenKeepsSpinner` rather than treating it as an error.
- The persist effect of the registration draft runs again whenever the draft's parts change. The model states what one run writes.
- The development scripts at the repository root and the context components are not part of this model. These are the navbar, footer, modals and theme.

## Findings

| source | as written | input that shows it | evidently intended | confidence | as-written member | corrected member |
|---|---|---|---|---|---|---|
| src/pharmacy/pharmacypages/InvoicePage.jsx:221 | `subtotal - totalDiscount + deliveryCharges` uses JavaScript `+`, which concatenates when the delivery charge arrives as text | an order with `subtotal: 100`, `discount: 10`, `deliveryCharges: "50"` and no `total` gives the grand total `"9050"` | the numeric sum 140 | low — not executed; it shows only when the backend sends the charge as text | Invoice.GrandTotalAsWritten, Invoice.GrandTotalConcatenates, Invoice.InvoiceTotals | Invoice.GrandTotal, Invoice.GrandTotalOfTextDelivery, Invoice.InvoiceTotalsCorrected |

=== FILE: address.dfy ===
/** Postal addresses as the pharmacy pages print them: the truthy parts of
    the address, in a fixed order, joined with ", ". */
module Addresses {
  import opened JsValue
  import Lists

  /** The parts `filter(Boolean)` keeps, in their order. */
  function Present(parts: seq<Value>): (r: seq<Value>)
    ensures forall x | x in r :: Truthy(x)
  {
    Lists.Filter(parts, Truthy)
  }

  /** The display strings of some values, in their order. */
  function Texts(vs: seq<Value>): (r: seq<string>)
    ensures |r| == |vs| && forall i | 0 <= i < |vs| :: r[i] == ToDisplayString(vs[i])
  {
    seq(|vs|, i requires 0 <= i < |vs| => ToDisplayString(vs[i]))
  }

  /** The kept parts' texts joined with ", ": empty when nothing is kept,
      and containing every kept string. */
  function JoinKept(kept: seq<Value>): (r: string)
    ensures |kept| == 0 ==> r == ""
    ensures forall x | x in kept && x.Str? :: Contains(r, x.s)
  {
    var texts := Texts(kept);
    forall x | x in kept && x.Str? ensures Contains(Join(texts, ", "), x.s) {
      var k :| 0 <= k < |kept| && kept[k] == x;
      JoinContains(texts, ", ", k);
    }
    Join(texts, ", ")
  }

  /** `parts.filter(Boolean).join(", ")`: the empty string when no part is
      truthy, and otherwise a text in which every truthy string part
      appears. */
  function JoinPresent(parts: seq<Value>): (r: string)
    ensures (forall i | 0 <= i < |parts| :: !Truthy(parts[i])) ==> r == ""
    ensures forall i | 0 <= i < |parts| && Truthy(parts[i]) && parts[i].Str? :: Contains(r, parts[i].s)
  {
    JoinKept(Present(parts))
  }

  /** Every part occurs in the joined text. */
  lemma {:induction false} JoinContains(parts: seq<string>, sep: string, k: nat)
    requires k < |parts|
    ensures Contains(Join(parts, sep), parts[k])
    decreases |parts|
  {
    var joined := Join(parts, sep);
    if |parts| == 1 {
      assert OccursAt(joined, parts[k], 0);
    } else if k == 0 {
      assert joined[..|parts[0]|] == parts[0];
      assert OccursAt(joined, parts[k], 0);
    } else {
      var rest := Join(parts[1..], sep);
      JoinContains(parts[1..], sep, k - 1);
      var j :| 0 <= j <= |rest| && OccursAt(rest, parts[k], j);
      var offset := |parts[0]| + |sep|;
      assert joined == parts[0] + sep + rest;
      assert joined[offset + j..offset + j + |parts[k]|] == rest[j..j + |parts[k]|];
      assert OccursAt(joined, parts[k], offset + j);
    }
  }

  /** A falsy part anywhere makes no difference to the joined text. */
  lemma JoinPresentSkipsFalsy(before: seq<Value>, part: Value, after: seq<Value>)
    requires !Truthy(part)
    ensures JoinPresent(before + [part] + after) == JoinPresent(before + after)
  {
    PresentSkipsFalsy(before, part, after);
  }

  lemma {:induction false} PresentSkipsFalsy(before: seq<Value>, part: Value, after: seq<Value>)
    requires !Truthy(part)
    ensures Present(before + [part] + after) == Present(before + after)
    decreases |before|
  {
    var xs := before + [part] + after;
    if |before| == 0 {
      assert xs[1..] == after && before + after == after;
    } else {
      assert xs[0] == (before + after)[0] == before[0];
      assert xs[1..] == before[1..] + [part] + after;
      assert (before + after)[1..] == before[1..] + after;
      PresentSkipsFalsy(before[1..], part, after);
    }
  }

  /** Reading the parts from the front: a falsy part prints nothing, and a
      truthy one prints its text, followed by ", " and the rest's line when
      any later part is kept. */
  lemma JoinPresentCons(part: Value, rest: seq<Value>)
    ensures !Truthy(part) ==> JoinPresent([part] + rest) == JoinPresent(rest)
    ensures Truthy(part) && |Present(rest)| == 0 ==> JoinPresent([part] + rest) == ToDisplayString(part)
    ensures Truthy(part) && |Present(rest)| > 0 ==>
              JoinPresent([part] + rest) == ToDisplayString(part) + ", " + JoinPresent(rest)
  {
    PresentCons(part, rest);
    if Truthy(part) {
      var kept := Present(rest);
      TextsCons(part, kept);
      JoinCons(ToDisplayString(part), Texts(kept), ", ");
    }
  }

  lemma PresentCons(part: Value, rest: seq<Value>)
    ensures Present([part] + rest) == if Truthy(part) then [part] + Present(rest) else Present(rest)
  {
    var xs := [part] + rest;
    assert xs[0] == part && xs[1..] == rest;
  }

  lemma TextsCons(part: Value, rest: seq<Value>)
    ensures Texts([part] + rest) == [ToDisplayString(part)] + Texts(rest)
  {
  }

  /** Joining behind a first part: the part alone, or the part, the
      separator and the rest joined. */
  lemma JoinCons(first: string, rest: seq<string>, sep: string)
    ensures |rest| == 0 ==> Join([first] + rest, sep) == first
    ensures |rest| > 0 ==> Join([first] + rest, sep) == first + sep + Join(rest, sep)
  {
    assert ([first] + rest)[1..] == rest;
  }

  /** Strings as parts. */
  function StrParts(ss: seq<string>): (r: seq<Value>)
    ensures |r| == |ss| && forall i | 0 <= i < |ss| :: r[i] == Str(ss[i])
  {
    seq(|ss|, i requires 0 <= i < |ss| => Str(ss[i]))
  }

  /** Any number of non-empty strings are all printed, in order, with ", "
      between neighbours. */
  lemma {:induction false} JoinPresentOfStrings(ss: seq<string>)
    requires forall i | 0 <= i < |ss| :: ss[i] != ""
    ensures JoinPresent(StrParts(ss)) == Join(ss, ", ")
    decreases |ss|
  {
    if |ss| > 0 {
      var rest := StrParts(ss[1..]);
      assert StrParts(ss) == [Str(ss[0])] + rest;
      JoinPresentOfStrings(ss[1..]);
      JoinPresentCons(Str(ss[0]), rest);
      if |ss| > 1 {
        FirstStringKept(ss[1..]);
      }
    }
  }

  lemma FirstStringKept(ss: seq<string>)
    requires |ss| > 0 && ss[0] != ""
    ensures |Present(StrParts(ss))| > 0
  {
    assert StrParts(ss)[0] in Present(StrParts(ss));
  }

  /** Five non-empty string parts are printed in order, comma separated. */
  lemma FiveParts(a: string, b: string, c: string, d: string, e: string)
    requires a != "" && b != "" && c != "" && d != "" && e != ""
    ensures JoinPresent([Str(a), Str(b), Str(c), Str(d), Str(e)]) == a + ", " + b + ", " + c + ", " + d + ", " + e
  {
    KeptFive(a, b, c, d, e);
    JoinFive(a, b, c, d, e, ", ");
  }

  /** Five non-empty strings are all kept, as themselves. */
  lemma KeptFive(a: string, b: string, c: string, d: string, e: string)
    requires a != "" && b != "" && c != "" && d != "" && e != ""
    ensures JoinPresent([Str(a), Str(b), Str(c), Str(d), Str(e)]) == Join([a, b, c, d, e], ", ")
  {
    var parts := [Str(a), Str(b), Str(c), Str(d), Str(e)];
    PresentKeepsTruthy(parts);
    TextsOfFive(a, b, c, d, e);
  }

  /** Parts that are all truthy are all kept. */
  lemma PresentKeepsTruthy(parts: seq<Value>)
    requires forall i | 0 <= i < |parts| :: Truthy(parts[i])
    ensures Present(parts) == parts
  {
  }

  lemma TextsOfFive(a: string, b: string, c: string, d: string, e: string)
    ensures Texts([Str(a), Str(b), Str(c), Str(d), Str(e)]) == [a, b, c, d, e]
  {
  }

  /** Five texts joined, written out. */
  lemma JoinFive(a: string, b: string, c: string, d: string, e: string, sep: string)
    ensures Join([a, b, c, d, e], sep) == a + sep + b + sep + c + sep + d + sep + e
  {
    JoinSnoc([a], b, sep);
    assert [a] + [b] == [a, b];
    JoinSnoc([a, b], c, sep);
    assert [a, b] + [c] == [a, b, c];
    JoinSnoc([a, b, c], d, sep);
    assert [a, b, c] + [d] == [a, b, c, d];
    JoinSnoc([a, b, c, d], e, sep);
    assert [a, b, c, d] + [e] == [a, b, c, d, e];
  }

  /** Joining one more part appends the separator and that part. */
  lemma {:induction false} JoinSnoc(parts: seq<string>, last: string, sep: string)
    requires |parts| > 0
    ensures Join(parts + [last], sep) == Join(parts, sep) + sep + last
    decreases |parts|
  {
    if |parts| > 1 {
      assert (parts + [last])[1..] == parts[1..] + [last];
      JoinSnoc(parts[1..], last, sep);
    } else {
      assert (parts + [last])[1..] == [last];
    }
  }
}

=== FILE: api.dfy ===
/** The REST client every page goes through: it builds the request headers,
    the URL and the body, and turns the response text into the parsed value
    or an error message. The network itself is the parameter `send`. */
module Api {
  import opened JsValue
  import Storage

  const DefaultBaseUrl: string := "https://doorspital-backend.onrender.com"

  /** The base URL: the configured one when the build defines it (even as
      the empty string), the public backend otherwise. */
  function BaseUrl(configured: Option<string>): (r: string)
    ensures configured.Some? ==> r == configured.value
    ensures configured.None? ==> r == DefaultBaseUrl
  {
    match configured
    case Some(u) => u
    case None => DefaultBaseUrl
  }

  type Headers = map<string, string>

  /** `createHeaders(token, isForm)`: JSON content type unless the request
      is a form, and a bearer token whenever the token is truthy. */
  function CreateHeaders(token: Value, isForm: Value): (r: Headers)
    ensures "Content-Type" in r <==> !Truthy(isForm)
    ensures "Content-Type" in r ==> r["Content-Type"] == "application/json"
    ensures "Authorization" in r <==> Truthy(token)
    ensures "Authorization" in r ==> r["Authorization"] == "Bearer " + ToDisplayString(token)
    ensures forall k | k in r :: k == "Content-Type" || k == "Authorization"
  {
    var json: Headers := if !Truthy(isForm) then map["Content-Type" := "application/json"] else map[];
    if Truthy(token) then json["Authorization" := "Bearer " + ToDisplayString(token)] else json
  }

  /** `parseResponse`: empty text is `{}`, JSON text is what it parses to,
      and any other text is returned as a string. */
  function ParseResponse(text: string, codec: Storage.Codec): (r: Value)
    ensures text == "" ==> r == EmptyObject
    ensures text != "" && codec.parse(text).Some? ==> r == codec.parse(text).value
    ensures text != "" && codec.parse(text).None? ==> r == Str(text)
  {
    if text == "" then EmptyObject
    else match codec.parse(text)
      case Some(v) => v
      case None => Str(text)
  }

  /** A body a server sends as JSON comes back as its JSON image. */
  lemma ParseResponseRoundTrip(codec: Storage.Codec, v: Value)
    requires Storage.Lawful(codec)
    requires !v.Undefined?
    ensures ParseResponse(codec.stringify(v), codec) == Storage.Jsonify(v)
  {
  }

  /** The request URL: the base URL followed by the path, verbatim. */
  function RequestUrl(base: string, path: string): (r: string)
    ensures |r| == |base| + |path|
    ensures r[..|base|] == base && r[|base|..] == path
  {
    base + path
  }

  /** What goes on the wire as the request body. */
  datatype Body = NoBody | Raw(form: Value) | JsonText(text: string)

  /** A form body passes through unchanged, a truthy body of any other
      request is JSON text, and otherwise there is no body. */
  function EncodeBody(body: Value, isForm: Value, codec: Storage.Codec): (r: Body)
    ensures Truthy(isForm) ==> r == Raw(body)
    ensures !Truthy(isForm) && Truthy(body) ==> r == JsonText(codec.stringify(body))
    ensures !Truthy(isForm) && !Truthy(body) ==> r == NoBody
  {
    if Truthy(isForm) then Raw(body)
    else if Truthy(body) then JsonText(codec.stringify(body))
    else NoBody
  }

  /** The options object `{ method = "GET", body, token, isForm }`; absent
      options are `Undefined`. */
  datatype Options = Options(httpMethod: Value, body: Value, token: Value, isForm: Value)

  function NoOptions(): Options {
    Options(Undefined, Undefined, Undefined, Undefined)
  }

  datatype Request = Request(httpMethod: Value, url: string, headers: Headers, body: Body)

  /** The request `apiRequest` sends: a destructuring default applies only
      to an undefined method (a `null` one is kept). */
  function BuildRequest(base: string, path: string, options: Options, codec: Storage.Codec): (r: Request)
    ensures options.httpMethod.Undefined? ==> r.httpMethod == Str("GET")
    ensures !options.httpMethod.Undefined? ==> r.httpMethod == options.httpMethod
    ensures r.url == RequestUrl(base, path)
    ensures r.headers == CreateHeaders(options.token, options.isForm)
    ensures r.body == EncodeBody(options.body, options.isForm, codec)
  {
    Request(if options.httpMethod.Undefined? then Str("GET") else options.httpMethod,
            base + path,
            CreateHeaders(options.token, options.isForm),
            EncodeBody(options.body, options.isForm, codec))
  }

  /** The parts of a `fetch` response the client reads. */
  datatype Response = Response(ok: bool, statusText: string, text: string)

  /** How an `apiRequest` call settles: with the parsed value, or by
      throwing an `Error` carrying `message`. */
  datatype Reply = Resolved(data: Value) | Rejected(message: string)

  /** How `Promise.all` over two requests settles: both parsed bodies, or
      the message of the request that failed first. */
  datatype Joint = Loaded(first: Value, second: Value) | Failed(message: string)

  /** The message of a failed request: the body's `message`, else its
      `error`, else the status text; a message that is not a string is
      replaced by a generic one. */
  function ErrorMessage(parsed: Value, statusText: string): (r: string)
    ensures !IsNullish(Get(parsed, "message")) ==>
              r == (if Get(parsed, "message").Str? then Get(parsed, "message").s else "Something went wrong")
    ensures IsNullish(Get(parsed, "message")) && !IsNullish(Get(parsed, "error")) ==>
              r == (if Get(parsed, "error").Str? then Get(parsed, "error").s else "Something went wrong")
    ensures IsNullish(Get(parsed, "message")) && IsNullish(Get(parsed, "error")) ==> r == statusText
  {
    var message := Coalesce(Coalesce(Get(parsed, "message"), Get(parsed, "error")), Str(statusText));
    if message.Str? then message.s else "Something went wrong"
  }

  /** The settlement of a request given the server's response. */
  function Settle(response: Response, codec: Storage.Codec): (r: Reply)
    ensures response.ok ==> r == Resolved(ParseResponse(response.text, codec))
    ensures !response.ok ==> r == Rejected(ErrorMessage(ParseResponse(response.text, codec), response.statusText))
  {
    var parsed := ParseResponse(response.text, codec);
    if !response.ok then Rejected(ErrorMessage(parsed, response.statusText)) else Resolved(parsed)
  }

  /** `apiRequest(path, options)` with the network as `send`. */
  function ApiRequest(base: string, path: string, options: Options, codec: Storage.Codec,
                      send: Request -> Response): (r: Reply)
    ensures var response := send(BuildRequest(base, path, options, codec));
            r == Settle(response, codec)
  {
    Settle(send(BuildRequest(base, path, options, codec)), codec)
  }

  /** A failed response whose body has no `message` or `error` (an empty
      body, or plain text) reports the status text. */
  lemma {:induction false} PlainFailureReportsStatus(response: Response, codec: Storage.Codec)
    requires !response.ok
    requires response.text == "" || codec.parse(response.text).None?
    ensures Settle(response, codec) == Rejected(response.statusText)
  {
  }

  /** A successful response carrying JSON text resolves to the JSON image
      of the value the server serialised. */
  lemma SuccessRoundTrip(codec: Storage.Codec, v: Value, statusText: string)
    requires Storage.Lawful(codec)
    requires !v.Undefined?
    ensures Settle(Response(true, statusText, codec.stringify(v)), codec) == Resolved(Storage.Jsonify(v))
  {
    ParseResponseRoundTrip(codec, v);
  }
}

=== FILE: app.dfy ===
/** The application shell: the signed-in session (token and user) restored
    from and persisted to browser storage, login and logout, the route
    guard, and the home page's join button. Navigation is a change of the
    current path. */
module AppShell {
  import opened JsValue
  import opened Storage

  const TokenKey: string := "authToken"
  const UserKey: string := "authUser"

  datatype Shell = Shell(token: Value, user: Value, loginOpen: bool, path: string)

  /** The initial token: the stored string, or `null` when none is stored. */
  function InitialToken(store: Store): (r: Value)
    ensures GetItem(store, TokenKey).Some? ==> r == Str(GetItem(store, TokenKey).value)
    ensures GetItem(store, TokenKey).None? ==> r == Null
  {
    match GetItem(store, TokenKey)
    case Some(t) => Str(t)
    case None => Null
  }

  /** The initial user: the parsed stored JSON, or `null` when nothing (or
      the empty string) is stored or the text does not parse. */
  function InitialUser(store: Store, codec: Codec): (r: Value)
    ensures GetItem(store, UserKey).None? || GetItem(store, UserKey) == Some("") ==> r == Null
    ensures (&& GetItem(store, UserKey).Some? && GetItem(store, UserKey).value != ""
             && codec.parse(GetItem(store, UserKey).value).Some?)
              ==> r == codec.parse(GetItem(store, UserKey).value).value
    ensures (&& GetItem(store, UserKey).Some? && GetItem(store, UserKey).value != ""
             && codec.parse(GetItem(store, UserKey).value).None?)
              ==> r == Null
  {
    match GetItem(store, UserKey)
    case None => Null
    case Some(text) =>
      if text == "" then Null
      else match codec.parse(text)
        case Some(v) => v
        case None => Null
  }

  /** The shell on first render at `path`, before any effect has run. */
  function InitialShell(store: Store, codec: Codec, path: string): Shell {
    Shell(InitialToken(store), InitialUser(store, codec), false, path)
  }

  /** The token effect: a truthy token is written, anything else removes
      the stored one. */
  function PersistToken(store: Store, token: Value): (r: Store)
    ensures Truthy(token) ==> GetItem(r, TokenKey) == Some(ToDisplayString(token))
    ensures !Truthy(token) ==> GetItem(r, TokenKey).None?
    ensures forall k | k != TokenKey :: GetItem(r, k) == GetItem(store, k)
  {
    if Truthy(token) then SetItem(store, TokenKey, ToDisplayString(token)) else RemoveItem(store, TokenKey)
  }

  /** The user effect: a truthy user is written as JSON, anything else
      removes the stored one. */
  function PersistUser(store: Store, user: Value, codec: Codec): (r: Store)
    ensures Truthy(user) ==> GetItem(r, UserKey) == Some(codec.stringify(user))
    ensures !Truthy(user) ==> GetItem(r, UserKey).None?
    ensures forall k | k != UserKey :: GetItem(r, k) == GetItem(store, k)
  {
    if Truthy(user) then SetItem(store, UserKey, codec.stringify(user)) else RemoveItem(store, UserKey)
  }

  /** Both persistence effects. */
  function PersistSession(store: Store, s: Shell, codec: Codec): (r: Store)
    ensures forall k | k != TokenKey && k != UserKey :: GetItem(r, k) == GetItem(store, k)
  {
    PersistUser(PersistToken(store, s.token), s.user, codec)
  }

  /** The guard effect: without a token, a path under "/dashboard" opens
      the login dialog; otherwise the dialog is left as it is. */
  function GuardDashboard(s: Shell): (r: Shell)
    ensures !Truthy(s.token) && StartsWith(s.path, "/dashboard") ==> r == s.(loginOpen := true)
    ensures Truthy(s.token) || !StartsWith(s.path, "/dashboard") ==> r == s
  {
    if !Truthy(s.token) && StartsWith(s.path, "/dashboard") then s.(loginOpen := true) else s
  }

  /** `handleLoginSuccess({ user, token })`: falsy parts become `null`, the
      dialog closes and the dashboard opens. Destructuring a missing
      payload throws. */
  function HandleLoginSuccess(s: Shell, payload: Value): (r: Outcome<Shell>)
    ensures r.Throws? <==> IsNullish(payload)
    ensures r.Returns? ==>
              && r.value.user == (if Truthy(Get(payload, "user")) then Get(payload, "user") else Null)
              && r.value.token == (if Truthy(Get(payload, "token")) then Get(payload, "token") else Null)
              && !r.value.loginOpen
              && r.value.path == "/dashboard"
  {
    if IsNullish(payload) then Throws
    else Returns(Shell(Or(Get(payload, "token"), Null), Or(Get(payload, "user"), Null), false, "/dashboard"))
  }

  /** `handleLogout`: both parts of the session become `null` and the home
      page opens. */
  function HandleLogout(s: Shell): (r: Shell)
    ensures r.token == Null && r.user == Null && r.path == "/" && r.loginOpen == s.loginOpen
  {
    s.(token := Null, user := Null, path := "/")
  }

  /** `handleHomeJoinClick`: to the dashboard when signed in, otherwise the
      login dialog. */
  function HandleHomeJoinClick(s: Shell): (r: Shell)
    ensures Truthy(s.token) ==> r == s.(path := "/dashboard")
    ensures !Truthy(s.token) ==> r == s.(loginOpen := true)
  {
    if Truthy(s.token) then s.(path := "/dashboard") else s.(loginOpen := true)
  }

  datatype View = Children | LoginPrompt

  /** `ProtectedRoute`: the children when there is a token; otherwise the
      login prompt, and the route's `onRequireAuth` opens the dialog. */
  function ProtectedRoute(s: Shell): (r: (View, Shell))
    ensures r.0 == Children <==> Truthy(s.token)
    ensures Truthy(s.token) ==> r.1 == s
    ensures !Truthy(s.token) ==> r.1 == s.(loginOpen := true)
  {
    if Truthy(s.token) then (Children, s) else (LoginPrompt, s.(loginOpen := true))
  }

  /** A session persisted after a successful login with a string token and
      a user object is the session the next page load starts from (the user
      as its JSON image). */
  lemma LoginSurvivesReload(store: Store, codec: Codec, s: Shell, payload: Value, path: string)
    requires Lawful(codec)
    requires !IsNullish(payload)
    requires Get(payload, "token").Str? && Get(payload, "token").s != ""
    requires Get(payload, "user").Obj?
    ensures var after := HandleLoginSuccess(s, payload).value;
            var restored := InitialShell(PersistSession(store, after, codec), codec, path);
            restored.token == after.token && restored.user == Jsonify(after.user)
  {
    var after := HandleLoginSuccess(s, payload).value;
    var st := PersistSession(store, after, codec);
    assert GetItem(PersistToken(store, after.token), TokenKey) == Some(after.token.s);
    assert GetItem(st, TokenKey) == Some(after.token.s);
    assert GetItem(st, UserKey) == Some(codec.stringify(after.user));
    assert codec.stringify(after.user) != "" && codec.parse(codec.stringify(after.user)) == Some(Jsonify(after.user));
  }

  /** After logout the next page load starts signed out, and opening a
      dashboard path then asks for a login. */
  lemma LogoutSurvivesReload(store: Store, codec: Codec, s: Shell, path: string)
    requires StartsWith(path, "/dashboard")
    ensures var restored := InitialShell(PersistSession(store, HandleLogout(s), codec), codec, path);
            && restored.token == Null && restored.user == Null
            && GuardDashboard(restored).loginOpen
  {
    var st := PersistSession(store, HandleLogout(s), codec);
    assert GetItem(PersistToken(store, Null), TokenKey).None?;
    assert GetItem(st, TokenKey).None?;
  }
}

=== FILE: dashboard_layout.dfy ===
/** The doctor dashboard's frame: the section menu, the greeting and
    welcome name, the redirect of the bare dashboard path, and the refresh
    of the overview and profile with its error classification. The current
    hour is a parameter. */
module DashboardLayout {
  import opened JsValue
  import opened Payload
  import GlobalLoader
  import Api

  datatype MenuSection = MenuSection(id: string, path: string, caption: string)

  const Sections: seq<MenuSection> := [
    MenuSection("onboarding", "/dashboard/onboarding", "Onboarding"),
    MenuSection("profile", "/dashboard/profile", "Doctor Profile"),
    MenuSection("availability", "/dashboard/availability", "Doctor Calendar & Availability"),
    MenuSection("appointments", "/dashboard/appointments", "Appointment Management"),
    MenuSection("patients", "/dashboard/patients", "Patient CRM"),
    MenuSection("services", "/dashboard/services", "My Services"),
    MenuSection("chat", "/dashboard/chat", "Chat & Video"),
    MenuSection("notifications", "/dashboard/notifications", "Notifications")]

  /** The greeting for the hour of the day (0 to 23). */
  function Greeting(hour: int): (r: string)
    ensures hour < 12 ==> r == "Good morning"
    ensures 12 <= hour < 17 ==> r == "Good afternoon"
    ensures 17 <= hour ==> r == "Good evening"
  {
    if hour < 12 then "Good morning" else if hour < 17 then "Good afternoon" else "Good evening"
  }

  /** The label of the first section whose path is the current path. */
  function FindLabel(sections: seq<MenuSection>, path: string): (r: Option<string>)
    ensures r.None? <==> forall i | 0 <= i < |sections| :: sections[i].path != path
    ensures r.Some? ==> exists i | 0 <= i < |sections| :: sections[i].path == path && r.value == sections[i].caption
                         && forall j | 0 <= j < i :: sections[j].path != path
  {
    if |sections| == 0 then None
    else if sections[0].path == path then Some(sections[0].caption)
    else
      var r := FindLabel(sections[1..], path);
      assert r.Some? ==> exists i | 1 <= i < |sections| :: sections[i].path == path && r.value == sections[i].caption
                           && forall j | 0 <= j < i :: sections[j].path != path by {
        if r.Some? {
          var i :| 0 <= i < |sections[1..]| && sections[1..][i].path == path && r.value == sections[1..][i].caption
                   && forall j | 0 <= j < i :: sections[1..][j].path != path;
          assert sections[i + 1].path == path && forall j | 1 <= j < i + 1 :: sections[j].path != path;
        }
      }
      r
  }

  /** The header's section label: that of the section at the current path,
      else "Menu". */
  function CurrentSectionLabel(path: string): (r: string)
    ensures (forall i | 0 <= i < |Sections| :: Sections[i].path != path) ==> r == "Menu"
    ensures forall i | 0 <= i < |Sections| && Sections[i].path == path :: r == Sections[i].caption
  {
    SectionPathsDistinct();
    match FindLabel(Sections, path)
    case None => "Menu"
    case Some(caption) => if caption == "" then "Menu" else caption
  }

  /** No two sections share a path, and every caption is non-empty. */
  lemma SectionPathsDistinct()
    ensures forall i, j | 0 <= i < j < |Sections| :: Sections[i].path != Sections[j].path
    ensures forall i | 0 <= i < |Sections| :: Sections[i].caption != ""
  {
    forall i, j | 0 <= i < j < |Sections|
      ensures Sections[i].path != Sections[j].path
    {
      var a := Sections[i].path;
      var b := Sections[j].path;
      // After "/dashboard/" the first two characters tell the sections apart.
      assert a[11] != b[11] || a[12] != b[12];
    }
  }

  /** The bare dashboard path redirects to the onboarding section; every
      other path renders in place. */
  function Redirect(path: string): (r: Option<string>)
    ensures r.Some? <==> path == "/dashboard"
    ensures r.Some? ==> r.value == "/dashboard/onboarding" && CurrentSectionLabel(r.value) == "Onboarding"
  {
    if path == "/dashboard" then Some("/dashboard/onboarding") else None
  }

  /** The profile's own record: its truthy `doctor`, else itself. */
  function ProfileData(profile: Value): Value {
    Or(Get(profile, "doctor"), profile)
  }

  /** The welcome name: the first truthy of the profile's `name`,
      `fullName` and `userName` and the user's `userName`, else "Doctor". */
  function WelcomeName(profile: Value, user: Value): (r: Value)
    ensures r == Str("Doctor") || Truthy(r)
    ensures Truthy(FirstTruthy(ProfileData(profile), ["name", "fullName", "userName"], Undefined)) ==>
              r == FirstTruthy(ProfileData(profile), ["name", "fullName", "userName"], Undefined)
    ensures !Truthy(FirstTruthy(ProfileData(profile), ["name", "fullName", "userName"], Undefined)) ==>
              r == Or(Get(user, "userName"), Str("Doctor"))
  {
    var data := ProfileData(profile);
    var name := Or(Or(Get(data, "name"), Get(data, "fullName")), Get(data, "userName"));
    assert Truthy(name) <==> Truthy(FirstTruthy(data, ["name", "fullName", "userName"], Undefined));
    assert Truthy(name) ==> name == FirstTruthy(data, ["name", "fullName", "userName"], Undefined);
    Or(Or(name, Get(user, "userName")), Str("Doctor"))
  }

  /** The layout's own state. */
  datatype Layout = Layout(overview: Value, profile: Value, loading: bool, error: string, verificationPending: bool)

  const PendingMarker: string := "verification is not approved"

  /** The backend's way of saying the doctor is not verified yet. */
  predicate IsVerificationPending(message: string) {
    message != "" && Contains(Lower(message), PendingMarker)
  }

  /** The `data` of a response body, or the body itself when that is falsy. */
  function Unwrap(body: Value): Value {
    Or(Get(body, "data"), body)
  }

  /** `refreshDashboard`: without a token nothing is fetched and loading
      stops. Otherwise the loader is shown, error and pending flag are
      cleared, and the outcome is classified: both bodies are stored; a
      "verification is not approved" failure sets the pending flag (and
      stores the profile when the follow-up profile request succeeds); any
      other failure sets the error. The loader is hidden at the end.
      Returns the new state, the loader calls, and whether a request was
      made. */
  function RefreshDashboard(s: Layout, token: Value, joint: Api.Joint, retry: Api.Reply)
    : (r: (Layout, seq<GlobalLoader.Signal>, bool))
    ensures !Truthy(token) ==> r == (s.(loading := false), [], false)
    ensures Truthy(token) ==> r.2 && r.1 == [GlobalLoader.Show, GlobalLoader.Hide] && !r.0.loading
    ensures Truthy(token) && joint.Loaded? ==>
              r.0 == Layout(Unwrap(joint.first), Unwrap(joint.second), false, "", false)
    ensures Truthy(token) && joint.Failed? ==>
              && r.0.overview == s.overview
              && (r.0.verificationPending <==> IsVerificationPending(joint.message))
              && (r.0.error == "" <==> IsVerificationPending(joint.message))
              && (!IsVerificationPending(joint.message) ==>
                    r.0.error == (if joint.message == "" then "Failed to load dashboard data" else joint.message))
              && (IsVerificationPending(joint.message) ==>
                    r.0.profile == (if retry.Resolved? then Unwrap(retry.data) else s.profile))
              && (!IsVerificationPending(joint.message) ==> r.0.profile == s.profile)
  {
    if !Truthy(token) then (s.(loading := false), [], false)
    else
      var started := s.(loading := true, error := "", verificationPending := false);
      var settled :=
        match joint
        case Loaded(o, p) => started.(overview := Unwrap(o), profile := Unwrap(p))
        case Failed(m) =>
          if IsVerificationPending(m) then
            var pending := started.(verificationPending := true);
            match retry
            case Resolved(p) => pending.(profile := Unwrap(p))
            case Rejected(_) => pending
          else started.(error := if m == "" then "Failed to load dashboard data" else m);
      (settled.(loading := false), [GlobalLoader.Show, GlobalLoader.Hide], true)
  }

  /** A refresh never leaves both an error and the pending flag set. */
  lemma RefreshErrorOrPending(s: Layout, token: Value, joint: Api.Joint, retry: Api.Reply)
    requires s.error == "" || !s.verificationPending
    ensures var r := RefreshDashboard(s, token, joint, retry).0;
            r.error == "" || !r.verificationPending
  {
  }

  /** The check ignores the case of the message: shouting it changes
      nothing. */
  lemma PendingIgnoresCase(message: string)
    ensures IsVerificationPending(Upper(message)) <==> IsVerificationPending(message)
  {
    assert Lower(Upper(message)) == Lower(message) by {
      assert forall i | 0 <= i < |message| :: LowerChar(UpperChar(message[i])) == LowerChar(message[i]);
    }
  }
}

=== FILE: dashboard_sections.dfy ===
/** The editable lists of the doctor dashboard's sections: the service set,
    the weekly availability editor and the schedule it saves, the chat room
    list de-duplicated by id, and marking a notification as read. */
module DashboardSections {
  import opened JsValue
  import opened Payload
  import Lists
  import Api

  // ---------------------------------------------------------------------------
  // Services

  /** The services shown first: the first truthy of the profile doctor's,
      the profile's and the user's `services`, else an empty array. */
  function InitialServices(profile: Value, user: Value): (r: Value)
    ensures Truthy(r) || r == Arr([])
    ensures Truthy(Get(Get(profile, "doctor"), "services")) ==> r == Get(Get(profile, "doctor"), "services")
    ensures (!Truthy(Get(Get(profile, "doctor"), "services")) && Truthy(Get(profile, "services")))
              ==> r == Get(profile, "services")
    ensures (!Truthy(Get(Get(profile, "doctor"), "services")) && !Truthy(Get(profile, "services")))
              ==> r == Or(Get(user, "services"), Arr([]))
  {
    Or(Or(Or(Get(Get(profile, "doctor"), "services"), Get(profile, "services")), Get(user, "services")), Arr([]))
  }

  /** A loaded `services` value the handlers below can work on: an array
      whose entries are all strings. */
  predicate IsServiceList(v: Value) {
    v.Arr? && forall i | 0 <= i < |v.elems| :: v.elems[i].Str?
  }

  /** The names of such a list, in order. */
  function ServicesOf(v: Value): (r: seq<string>)
    requires IsServiceList(v)
    ensures |r| == |v.elems| && forall i | 0 <= i < |r| :: v.elems[i] == Str(r[i])
  {
    seq(|v.elems|, i requires 0 <= i < |v.elems| => v.elems[i].s)
  }

  /** With `services` found nowhere the page starts from the empty list,
      and a string array found first is taken as it is. */
  lemma InitialServicesList(profile: Value, user: Value)
    ensures (&& !Truthy(Get(Get(profile, "doctor"), "services")) && !Truthy(Get(profile, "services"))
             && !Truthy(Get(user, "services"))) ==>
              IsServiceList(InitialServices(profile, user)) && ServicesOf(InitialServices(profile, user)) == []
    ensures IsServiceList(Get(Get(profile, "doctor"), "services")) && Truthy(Get(Get(profile, "doctor"), "services")) ==>
              ServicesOf(InitialServices(profile, user)) == ServicesOf(Get(Get(profile, "doctor"), "services"))
  {
  }

  /** What `handleAddService` receives: the form's submit event (which adds
      the text typed so far) or a service name. */
  datatype AddInput = Submit | Name(name: string)

  /** `handleAddService`: the input is trimmed; a blank one or one already
      listed changes nothing; otherwise it is appended and the text box is
      cleared. Returns the services and the text box. */
  function AddService(services: seq<string>, typed: string, input: AddInput): (r: (seq<string>, string))
    ensures var t := Trim(if input.Submit? then typed else input.name);
            && (t == "" || t in services ==> r == (services, typed))
            && (t != "" && t !in services ==> r == (services + [t], ""))
    ensures Lists.NoDuplicates(services) ==> Lists.NoDuplicates(r.0)
    ensures forall s | s in r.0 :: s in services || s == Trim(if input.Submit? then typed else input.name)
  {
    var text := if input.Submit? then typed else input.name;
    var t := Trim(text);
    if text == "" || t == "" then (services, typed)
    else if t in services then (services, typed)
    else (services + [t], "")
  }

  /** `handleRemoveService`: every copy of the value goes, the others stay
      in their order. */
  function RemoveService(services: seq<string>, service: string): (r: seq<string>)
    ensures service !in r
    ensures forall s | s != service :: s in r <==> s in services
    ensures Lists.IsSubsequence(r, services)
    ensures service !in services ==> r == services
  {
    Lists.Filter(services, s => s != service)
  }

  /** `toggleService`: removes a listed service and adds an unlisted one
      (trimmed, and clearing the text box). */
  function ToggleService(services: seq<string>, typed: string, service: string): (r: (seq<string>, string))
    ensures service in services ==> r == (RemoveService(services, service), typed)
    ensures service !in services ==> r == AddService(services, typed, Name(service))
  {
    if service in services then (RemoveService(services, service), typed)
    else AddService(services, typed, Name(service))
  }

  /** Toggling an unlisted, already trimmed name twice gives the list back
      (with the text box cleared). */
  lemma ToggleTwiceRestores(services: seq<string>, typed: string, service: string)
    requires service !in services && service != "" && Trim(service) == service
    ensures var once := ToggleService(services, typed, service);
            ToggleService(once.0, once.1, service) == (services, "")
  {
    var once := AddService(services, typed, Name(service));
    assert once == (services + [service], "");
    var p := (s: string) => s != service;
    assert forall i | 0 <= i < |services| :: p(services[i]);
    assert Lists.Filter(services, p) == services;
    assert Lists.Filter([service], p) == [];
    Lists.FilterAppend(services, [service], p);
    assert RemoveService(once.0, service) == services;
  }

  // ---------------------------------------------------------------------------
  // Weekly availability

  /** The schedule: the settings object of each day, indexed by the day's
      number (0 is Sunday, 1 Monday, ..., 6 Saturday). */
  type Week = w: seq<map<string, Value>> | |w| == 7 witness seq(7, _ => map[])

  /** The settings every day starts from. */
  const DefaultDay: map<string, Value> :=
    map["enabled" := Bool(false), "start" := Str("09:00"), "end" := Str("17:00"), "duration" := Int(30)]

  const InitialWeek: Week := seq(7, _ => DefaultDay)

  predicate ValidDay(day: int) {
    0 <= day < 7
  }

  predicate Enabled(config: map<string, Value>) {
    Truthy(Get(Obj(config), "enabled"))
  }

  /** `handleDayToggle`: flips that day's `enabled` and nothing else. */
  function ToggleDay(week: Week, day: int): (r: Week)
    requires ValidDay(day)
    ensures Enabled(r[day]) <==> !Enabled(week[day])
    ensures r[day] == week[day]["enabled" := Bool(!Enabled(week[day]))]
    ensures forall d | 0 <= d < 7 && d != day :: r[d] == week[d]
  {
    week[day := week[day]["enabled" := Bool(!Enabled(week[day]))]]
  }

  /** Toggling a day twice leaves a boolean flag as it was. */
  lemma ToggleDayTwice(week: Week, day: int)
    requires ValidDay(day) && "enabled" in week[day] && week[day]["enabled"].Bool?
    ensures ToggleDay(ToggleDay(week, day), day) == week
  {
    assert ToggleDay(ToggleDay(week, day), day)[day] == week[day];
  }

  /** `handleTimeChange`: sets one field of one day. */
  function ChangeField(week: Week, day: int, field: string, value: Value): (r: Week)
    requires ValidDay(day)
    ensures field in r[day] && r[day][field] == value
    ensures forall f | f in week[day] && f != field :: f in r[day] && r[day][f] == week[day][f]
    ensures forall d | 0 <= d < 7 && d != day :: r[d] == week[d]
  {
    week[day := week[day][field := value]]
  }

  predicate IsWeekday(day: int) {
    1 <= day <= 5
  }

  /** `applyToWeekdays`: Monday's settings, enabled, on Monday to Friday;
      Saturday and Sunday untouched. */
  function ApplyToWeekdays(week: Week): (r: Week)
    ensures forall d | 0 <= d < 7 && IsWeekday(d) :: r[d] == week[1]["enabled" := Bool(true)]
    ensures r[0] == week[0] && r[6] == week[6]
    ensures forall d | 0 <= d < 7 && IsWeekday(d) :: Enabled(r[d])
  {
    var monday := week[1]["enabled" := Bool(true)];
    seq(7, d requires 0 <= d < 7 => if IsWeekday(d) then monday else week[d])
  }

  /** Applying Monday's settings a second time changes nothing. */
  lemma ApplyToWeekdaysIdempotent(week: Week)
    ensures ApplyToWeekdays(ApplyToWeekdays(week)) == ApplyToWeekdays(week)
  {
    var once := ApplyToWeekdays(week);
    assert once[1]["enabled" := Bool(true)] == once[1];
  }

  /** One entry of the saved schedule. */
  datatype Slot = Slot(dayOfWeek: nat, startTime: Value, endTime: Value, slotDurationMinutes: Number)

  /** An enabled day's settings as read for the save, duration not yet
      parsed. */
  datatype DayEntry = DayEntry(day: nat, config: map<string, Value>)

  /** The day numbers of a list of entries. */
  function Days(entries: seq<DayEntry>): (r: seq<nat>)
    ensures |r| == |entries| && forall i | 0 <= i < |entries| :: r[i] == entries[i].day
  {
    seq(|entries|, i requires 0 <= i < |entries| => entries[i].day)
  }

  /** The enabled days among the first `n`, in order. */
  function EnabledBelow(week: Week, n: nat): (r: seq<DayEntry>)
    requires n <= 7
    ensures forall i | 0 <= i < |r| :: r[i].day < n && r[i].config == week[r[i].day]
    ensures forall i, j | 0 <= i < j < |r| :: r[i].day < r[j].day
    ensures forall d | 0 <= d < n :: Enabled(week[d]) <==> d in Days(r)
  {
    if n == 0 then []
    else
      var prefix := EnabledBelow(week, n - 1);
      if Enabled(week[n - 1]) then
        var r := prefix + [DayEntry(n - 1, week[n - 1])];
        assert Days(r) == Days(prefix) + [n - 1];
        r
      else prefix
  }

  /** One payload entry: the day number, start, end and parsed duration. */
  function SlotOf(e: DayEntry): Slot {
    Slot(e.day, Get(Obj(e.config), "start"), Get(Obj(e.config), "end"), ParseInt(Get(Obj(e.config), "duration")))
  }

  /** The day numbers of a list of slots. */
  function SlotDays(slots: seq<Slot>): (r: seq<nat>)
    ensures |r| == |slots| && forall i | 0 <= i < |slots| :: r[i] == slots[i].dayOfWeek
  {
    seq(|slots|, i requires 0 <= i < |slots| => slots[i].dayOfWeek)
  }

  /** The `availability` array sent on save: `Object.entries` lists the
      day keys "0" to "6" in ascending order, and only enabled days are
      kept, each with its number, start, end and parsed duration. */
  function SavePayload(week: Week): (r: seq<Slot>)
    ensures forall d | 0 <= d < 7 :: Enabled(week[d]) <==> d in SlotDays(r)
    ensures forall i | 0 <= i < |r| ::
              && r[i].dayOfWeek < 7
              && r[i].startTime == Get(Obj(week[r[i].dayOfWeek]), "start")
              && r[i].endTime == Get(Obj(week[r[i].dayOfWeek]), "end")
              && r[i].slotDurationMinutes == ParseInt(Get(Obj(week[r[i].dayOfWeek]), "duration"))
    ensures forall i, j | 0 <= i < j < |r| :: r[i].dayOfWeek < r[j].dayOfWeek
  {
    var days := EnabledBelow(week, 7);
    var r := seq(|days|, i requires 0 <= i < |days| => SlotOf(days[i]));
    assert SlotDays(r) == Days(days);
    r
  }

  /** A week with no enabled day saves an empty schedule. */
  lemma NoEnabledDaySavesNothing(week: Week)
    requires forall d | 0 <= d < 7 :: !Enabled(week[d])
    ensures SavePayload(week) == []
  {
    NoneEnabledBelow(week, 7);
  }

  /** The default week is such a week. */
  lemma DefaultWeekSavesNothing()
    ensures SavePayload(InitialWeek) == []
  {
    assert forall d | 0 <= d < 7 :: InitialWeek[d] == DefaultDay;
    NoEnabledDaySavesNothing(InitialWeek);
  }

  lemma {:induction false} NoneEnabledBelow(week: Week, n: nat)
    requires n <= 7
    requires forall d | 0 <= d < n :: !Enabled(week[d])
    ensures EnabledBelow(week, n) == []
    decreases n
  {
    if n > 0 {
      NoneEnabledBelow(week, n - 1);
    }
  }

  /** After `applyToWeekdays` the default week saves exactly Monday to
      Friday, in order, each with 30-minute slots. */
  lemma DefaultWeekdaysPayload()
    ensures var r := SavePayload(ApplyToWeekdays(InitialWeek));
            && (forall d | 0 <= d < 7 :: IsWeekday(d) <==> d in SlotDays(r))
            && (forall i | 0 <= i < |r| :: r[i].slotDurationMinutes == Finite(30))
  {
    var w := ApplyToWeekdays(InitialWeek);
    var on := DefaultDay["enabled" := Bool(true)];
    assert w[0] == DefaultDay && w[6] == DefaultDay && !Enabled(DefaultDay);
    assert forall d | 0 <= d < 7 && IsWeekday(d) :: w[d] == on;
    ParseIntOfInt(30);
  }

  /** The doctor id the save uses: the overview doctor's `_id` or `id` when
      present and truthy, else the overview's `doctorId` or `_id`. */
  function AvailabilityDoctorId(overview: Value): (r: Value)
    ensures var fromDoctor := PickValue(Coalesce(Get(overview, "doctor"), EmptyObject), ["_id", "id"], Undefined);
            && (Truthy(fromDoctor) ==> r == fromDoctor)
            && (!Truthy(fromDoctor) ==> r == PickValue(overview, ["doctorId", "_id"], Undefined))
  {
    Or(PickValue(Coalesce(Get(overview, "doctor"), EmptyObject), ["_id", "id"], Undefined),
       PickValue(overview, ["doctorId", "_id"], Undefined))
  }

  /** The editor's messages. */
  datatype Notice = Notice(loading: bool, error: string, success: string)

  datatype SaveRequest = SaveRequest(path: string, availability: seq<Slot>)

  /** `handleSave`: without a token or a doctor id no request is made and
      the error asks for a refresh. Otherwise the enabled days are posted
      and the reply sets the success or the error message. */
  function SaveAvailability(n: Notice, week: Week, token: Value, doctorId: Value, reply: Api.Reply)
    : (r: (Notice, Option<SaveRequest>))
    ensures !Truthy(token) || !Truthy(doctorId) ==>
              r == (n.(error := "Doctor ID not found. Please refresh."), None)
    ensures Truthy(token) && Truthy(doctorId) ==>
              && r.1 == Some(SaveRequest("/api/doctors/" + ToDisplayString(doctorId) + "/availability/set", SavePayload(week)))
              && !r.0.loading
    ensures Truthy(token) && Truthy(doctorId) && reply.Resolved? ==>
              r.0 == Notice(false, "", "Availability schedule saved successfully!")
    ensures Truthy(token) && Truthy(doctorId) && reply.Rejected? ==>
              r.0 == Notice(false, if reply.message == "" then "Failed to save availability" else reply.message, "")
  {
    if !Truthy(token) || !Truthy(doctorId) then (n.(error := "Doctor ID not found. Please refresh."), None)
    else
      var request := SaveRequest("/api/doctors/" + ToDisplayString(doctorId) + "/availability/set", SavePayload(week));
      match reply
      case Resolved(_) => (Notice(false, "", "Availability schedule saved successfully!"), Some(request))
      case Rejected(m) => (Notice(false, if m == "" then "Failed to save availability" else m, ""), Some(request))
  }

  // ---------------------------------------------------------------------------
  // Chat rooms

  /** The key a room is de-duplicated by. */
  function RoomKey(room: Value): Value {
    Get(room, "_id")
  }

  datatype Entry = Entry(key: Value, room: Value)

  predicate DistinctKeys(es: seq<Entry>) {
    forall i, j | 0 <= i < j < |es| :: es[i].key != es[j].key
  }

  function KeysOf(es: seq<Entry>): (r: seq<Value>)
    ensures |r| == |es| && forall j | 0 <= j < |es| :: r[j] == es[j].key
  {
    seq(|es|, j requires 0 <= j < |es| => es[j].key)
  }

  function RoomKeys(rooms: seq<Value>): (r: seq<Value>)
    ensures |r| == |rooms| && forall i | 0 <= i < |rooms| :: r[i] == RoomKey(rooms[i])
  {
    seq(|rooms|, i requires 0 <= i < |rooms| => RoomKey(rooms[i]))
  }

  /** `Map.set`: a known key keeps its place and takes the new room; a new
      key goes at the end. */
  function SetEntry(es: seq<Entry>, key: Value, room: Value): (r: seq<Entry>)
    requires DistinctKeys(es)
    ensures DistinctKeys(r)
    ensures key in KeysOf(es) ==> |r| == |es| && KeysOf(r) == KeysOf(es)
    ensures key in KeysOf(es) ==> forall j | 0 <= j < |es| ::
              r[j] == (if es[j].key == key then Entry(key, room) else es[j])
    ensures key !in KeysOf(es) ==> r == es + [Entry(key, room)] && KeysOf(r) == KeysOf(es) + [key]
  {
    if key in KeysOf(es) then
      var r := seq(|es|, j requires 0 <= j < |es| => if es[j].key == key then Entry(key, room) else es[j]);
      assert KeysOf(r) == KeysOf(es);
      r
    else
      var r := es + [Entry(key, room)];
      assert KeysOf(r) == KeysOf(es) + [key];
      r
  }

  /** The entries of `new Map(rooms.map(r => [r._id, r]))`, in insertion
      order. */
  function Entries(rooms: seq<Value>): (r: seq<Entry>)
    ensures DistinctKeys(r)
    ensures |r| <= |rooms|
  {
    if |rooms| == 0 then []
    else SetEntry(Entries(rooms[..|rooms| - 1]), RoomKey(rooms[|rooms| - 1]), rooms[|rooms| - 1])
  }

  /** The keys of the entries are exactly the keys of the rooms. */
  lemma {:induction false} EntriesKeys(rooms: seq<Value>)
    ensures forall k :: k in KeysOf(Entries(rooms)) <==> k in RoomKeys(rooms)
    decreases |rooms|
  {
    if |rooms| > 0 {
      var prefix := rooms[..|rooms| - 1];
      EntriesKeys(prefix);
      assert RoomKeys(rooms) == RoomKeys(prefix) + [RoomKey(rooms[|rooms| - 1])];
    }
  }

  /** The last room with the given key (undefined when none has it). */
  function LastWith(rooms: seq<Value>, key: Value): Value {
    if |rooms| == 0 then Undefined
    else if RoomKey(rooms[|rooms| - 1]) == key then rooms[|rooms| - 1]
    else LastWith(rooms[..|rooms| - 1], key)
  }

  /** The position of the first room with the given key (the length when
      none has it). */
  function FirstWith(rooms: seq<Value>, key: Value): (r: nat)
    ensures r <= |rooms|
    ensures r < |rooms| ==> RoomKey(rooms[r]) == key
    ensures forall i | 0 <= i < r :: RoomKey(rooms[i]) != key
  {
    if |rooms| == 0 then 0
    else if RoomKey(rooms[0]) == key then 0
    else 1 + FirstWith(rooms[1..], key)
  }

  /** Each kept room is the last one listed with its key. */
  lemma {:induction false} EntriesLastWins(rooms: seq<Value>)
    ensures forall j | 0 <= j < |Entries(rooms)| :: Entries(rooms)[j].room == LastWith(rooms, Entries(rooms)[j].key)
    decreases |rooms|
  {
    if |rooms| > 0 {
      EntriesLastWins(rooms[..|rooms| - 1]);
    }
  }

  /** Keys keep the order of their first appearance. */
  lemma {:induction false} EntriesFirstOrder(rooms: seq<Value>)
    ensures forall j | 0 <= j < |Entries(rooms)| :: FirstWith(rooms, Entries(rooms)[j].key) < |rooms|
    ensures forall i, j | 0 <= i < j < |Entries(rooms)| ::
              FirstWith(rooms, Entries(rooms)[i].key) < FirstWith(rooms, Entries(rooms)[j].key)
    decreases |rooms|
  {
    if |rooms| > 0 {
      var prefix := rooms[..|rooms| - 1];
      var last := rooms[|rooms| - 1];
      assert rooms == prefix + [last];
      EntriesFirstOrder(prefix);
      var es := Entries(prefix);
      var r := Entries(rooms);
      forall j | 0 <= j < |es| ensures FirstWith(rooms, es[j].key) == FirstWith(prefix, es[j].key) {
        FirstWithExtend(prefix, last, es[j].key);
      }
      if RoomKey(last) in KeysOf(es) {
        assert |r| == |es|;
        assert forall j | 0 <= j < |r| :: r[j].key == es[j].key;
      } else {
        EntriesKeys(prefix);
        assert RoomKey(last) !in RoomKeys(prefix);
        FirstWithAbsent(prefix, last);
        assert r == es + [Entry(RoomKey(last), last)];
        assert forall j | 0 <= j < |es| :: FirstWith(rooms, r[j].key) < FirstWith(rooms, r[|es|].key);
      }
    }
  }

  lemma {:induction false} FirstWithExtend(prefix: seq<Value>, last: Value, key: Value)
    requires FirstWith(prefix, key) < |prefix|
    ensures FirstWith(prefix + [last], key) == FirstWith(prefix, key)
    decreases |prefix|
  {
    if RoomKey(prefix[0]) != key {
      assert (prefix + [last])[1..] == prefix[1..] + [last];
      FirstWithExtend(prefix[1..], last, key);
    }
  }

  lemma {:induction false} FirstWithAbsent(prefix: seq<Value>, last: Value)
    requires RoomKey(last) !in RoomKeys(prefix)
    ensures FirstWith(prefix + [last], RoomKey(last)) == |prefix|
    decreases |prefix|
  {
    if |prefix| > 0 {
      assert RoomKeys(prefix)[0] == RoomKey(prefix[0]);
      assert RoomKeys(prefix[1..]) == RoomKeys(prefix)[1..];
      assert (prefix + [last])[1..] == prefix[1..] + [last];
      FirstWithAbsent(prefix[1..], last);
    }
  }

  /** The last room with a key that occurs has that key. */
  lemma {:induction false} LastWithFound(rooms: seq<Value>, key: Value)
    requires key in RoomKeys(rooms)
    ensures RoomKey(LastWith(rooms, key)) == key
    decreases |rooms|
  {
    var prefix := rooms[..|rooms| - 1];
    if RoomKey(rooms[|rooms| - 1]) != key {
      assert RoomKeys(rooms) == RoomKeys(prefix) + [RoomKey(rooms[|rooms| - 1])];
      LastWithFound(prefix, key);
    }
  }

  /** The de-duplicated room list: reading `_id` of a missing room throws;
      otherwise one room per entry of the id map, in insertion order. */
  function DedupeRooms(rooms: seq<Value>): (r: Outcome<seq<Value>>)
    ensures r.Throws? <==> exists i | 0 <= i < |rooms| :: IsNullish(rooms[i])
    ensures r.Returns? ==>
              && |r.value| == |Entries(rooms)|
              && forall j | 0 <= j < |r.value| :: r.value[j] == Entries(rooms)[j].room
  {
    if exists i | 0 <= i < |rooms| :: IsNullish(rooms[i]) then Throws
    else
      var es := Entries(rooms);
      Returns(seq(|es|, j requires 0 <= j < |es| => es[j].room))
  }

  /** Every kept room carries its entry's key, and is the last room listed
      with that key. */
  lemma KeptRooms(rooms: seq<Value>)
    requires forall i | 0 <= i < |rooms| :: !IsNullish(rooms[i])
    ensures var r := DedupeRooms(rooms).value;
            forall j | 0 <= j < |r| :: RoomKey(r[j]) == Entries(rooms)[j].key && r[j] == LastWith(rooms, RoomKey(r[j]))
  {
    var es := Entries(rooms);
    EntriesLastWins(rooms);
    EntriesKeys(rooms);
    forall j | 0 <= j < |es| ensures RoomKey(es[j].room) == es[j].key {
      assert KeysOf(es)[j] == es[j].key;
      LastWithFound(rooms, es[j].key);
    }
  }

  /** The de-duplicated list has no repeated id, holds every id that
      occurs, keeps the ids in order of first appearance and, for each id,
      the last room listed with it. */
  lemma DedupeRoomsSpec(rooms: seq<Value>)
    requires forall i | 0 <= i < |rooms| :: !IsNullish(rooms[i])
    ensures var r := DedupeRooms(rooms).value;
            && (forall i, j | 0 <= i < j < |r| :: RoomKey(r[i]) != RoomKey(r[j]))
            && (forall k :: k in RoomKeys(r) <==> k in RoomKeys(rooms))
            && (forall j | 0 <= j < |r| :: r[j] == LastWith(rooms, RoomKey(r[j])))
            && (forall i, j | 0 <= i < j < |r| :: FirstWith(rooms, RoomKey(r[i])) < FirstWith(rooms, RoomKey(r[j])))
  {
    var r := DedupeRooms(rooms).value;
    KeptRooms(rooms);
    EntriesFirstOrder(rooms);
    EntriesKeys(rooms);
    assert RoomKeys(r) == KeysOf(Entries(rooms));
  }

  // ---------------------------------------------------------------------------
  // Notifications

  /** `{ ...n, read: true }` */
  function MarkedRead(n: Value): (r: Value)
    ensures Get(r, "read") == Bool(true)
    ensures n.Obj? ==> forall k | k != "read" :: Get(r, k) == Get(n, k)
  {
    Obj(Spread(n)["read" := Bool(true)])
  }

  /** `markAsRead(id)`: after the request succeeds, the notifications whose
      `_id` is strictly equal to `id` are marked read and all others are
      kept as they are (reading `_id` of a missing one throws); after a
      failure the list is unchanged. */
  function MarkAsRead(notifications: seq<Value>, id: Value, reply: Api.Reply): (r: Outcome<seq<Value>>)
    ensures reply.Rejected? ==> r == Returns(notifications)
    ensures reply.Resolved? ==> (r.Throws? <==> exists i | 0 <= i < |notifications| :: IsNullish(notifications[i]))
    ensures reply.Resolved? && r.Returns? ==>
              && |r.value| == |notifications|
              && forall i | 0 <= i < |notifications| ::
                   r.value[i] == (if StrictEquals(Get(notifications[i], "_id"), id) then MarkedRead(notifications[i])
                                  else notifications[i])
  {
    match reply
    case Rejected(_) => Returns(notifications)
    case Resolved(_) =>
      MapRecords(notifications, (_, n) => if StrictEquals(Get(n, "_id"), id) then MarkedRead(n) else n)
  }

  /** Marking an object read keeps its id, and marking it again changes
      nothing. */
  lemma MarkedReadStable(n: Value)
    requires n.Obj?
    ensures MarkedRead(n).Obj? && Get(MarkedRead(n), "_id") == Get(n, "_id")
    ensures MarkedRead(MarkedRead(n)) == MarkedRead(n)
  {
    assert n.fields["read" := Bool(true)]["read" := Bool(true)] == n.fields["read" := Bool(true)];
  }

  /** A list in which every notification with the id is already marked
      read is left as it is. */
  lemma MarkAsReadFixed(xs: seq<Value>, id: Value, reply: Api.Reply)
    requires forall i | 0 <= i < |xs| :: xs[i].Obj?
    requires forall i | 0 <= i < |xs| :: StrictEquals(Get(xs[i], "_id"), id) ==> MarkedRead(xs[i]) == xs[i]
    ensures MarkAsRead(xs, id, reply) == Returns(xs)
  {
    if reply.Resolved? {
      assert forall i | 0 <= i < |xs| :: !IsNullish(xs[i]);
      var result := MarkAsRead(xs, id, reply);
      assert result.Returns?;
      assert result.value == xs;
    }
  }

  /** Marking the same notification read twice is the same as once. */
  lemma MarkAsReadIdempotent(notifications: seq<Value>, id: Value, reply: Api.Reply)
    requires forall i | 0 <= i < |notifications| :: notifications[i].Obj?
    ensures var once := MarkAsRead(notifications, id, reply).value;
            MarkAsRead(once, id, reply) == Returns(once)
  {
    var once := MarkAsRead(notifications, id, reply).value;
    if reply.Resolved? {
      forall i | 0 <= i < |once|
        ensures once[i].Obj?
        ensures StrictEquals(Get(once[i], "_id"), id) ==> MarkedRead(once[i]) == once[i]
      {
        MarkedReadStable(notifications[i]);
      }
      MarkAsReadFixed(once, id, reply);
    }
  }
}

=== FILE: doctor_dashboard.dfy ===
/** The view models of the doctor dashboard: the snapshot cards, the
    onboarding steps, the appointment queue, the calendar rows, the doctor id
    the page resolves, and the pharmacy order summary. Each is built from a
    loosely shaped backend payload with the tolerant readers of `Payload`.

    Time formatting through `Date` and the locale is a parameter `clock`: it
    is applied only to truthy values, as the page does. */
module DoctorDashboard {
  import opened JsValue
  import opened Payload
  import Tally
  import Lists

  datatype Card = Card(caption: Value, value: Value, meta: Value)

  datatype Step = Step(title: Value, kind: Value, status: Value)

  datatype Appointment = Appointment(patient: Value, mode: Value, time: Value, status: Value, notes: Value)

  datatype CalendarRow = CalendarRow(caption: Value, slots: seq<Value>)

  datatype OrderStats = OrderStats(total: nat, statuses: map<string, nat>, totalAmount: int)

  // ---------------------------------------------------------------------------
  // Snapshot cards

  const FallbackLabels: seq<string> := ["Verification tasks", "Clinics synced", "Today’s visits", "Follow-ups"]

  /** A fallback card's value is a present value or the dash, and its
      meta a present value or the empty string. */
  predicate FallbackShaped(card: Card) {
    && (card.value == Str("—") || !IsNullish(card.value))
    && (card.meta == Str("") || !IsNullish(card.meta))
  }

  /** The four cards shown when the overview lists no metrics. */
  function FallbackCards(overview: Value): (r: seq<Card>)
    ensures |r| == |FallbackLabels|
    ensures forall i | 0 <= i < |r| :: r[i].caption == Str(FallbackLabels[i])
    ensures forall i | 0 <= i < |r| :: FallbackShaped(r[i])
    ensures r[0].value == PickValue(overview, ["verificationTasks", "verificationPending", "verifications"], Str("—"))
         && r[0].meta == PickValue(overview, ["verificationMeta", "verificationMessage"], Str(""))
    ensures r[1].value == PickValue(overview, ["clinicsSynced", "clinicCount"], Str("—"))
         && r[1].meta == PickValue(overview, ["lastClinicSync"], Str(""))
    ensures r[2].value == PickValue(overview, ["todayVisits", "visitsToday"], Str("—"))
         && r[2].meta == PickValue(overview, ["visitMeta"], Str(""))
    ensures r[3].value == PickValue(overview, ["followUps", "followUpsPending"], Str("—"))
         && r[3].meta == PickValue(overview, ["followUpMeta"], Str(""))
  {
    var verification := Card(Str("Verification tasks"),
      PickValue(overview, ["verificationTasks", "verificationPending", "verifications"], Str("—")),
      PickValue(overview, ["verificationMeta", "verificationMessage"], Str("")));
    var clinics := Card(Str("Clinics synced"),
      PickValue(overview, ["clinicsSynced", "clinicCount"], Str("—")),
      PickValue(overview, ["lastClinicSync"], Str("")));
    var visits := Card(Str("Today’s visits"),
      PickValue(overview, ["todayVisits", "visitsToday"], Str("—")),
      PickValue(overview, ["visitMeta"], Str("")));
    var followUps := Card(Str("Follow-ups"),
      PickValue(overview, ["followUps", "followUpsPending"], Str("—")),
      PickValue(overview, ["followUpMeta"], Str("")));
    assert FallbackShaped(verification) && FallbackShaped(clinics);
    assert FallbackShaped(visits) && FallbackShaped(followUps);
    [verification, clinics, visits, followUps]
  }

  /** With none of the overview's keys present (the page's default `{}`,
      or a missing overview), every fallback card shows the dash and no
      meta. */
  lemma FallbackCardsOfBareOverview(overview: Value)
    requires NoKeyPresent(overview)
    ensures forall c | c in FallbackCards(overview) :: c.value == Str("—") && c.meta == Str("")
  {
    var r := FallbackCards(overview);
    forall keys: seq<string>, fallback: Value {
      PickAbsent(overview, keys, fallback);
    }
    assert r[0].value == Str("—") && r[0].meta == Str("");
    assert r[1].value == Str("—") && r[1].meta == Str("");
    assert r[2].value == Str("—") && r[2].meta == Str("");
    assert r[3].value == Str("—") && r[3].meta == Str("");
    assert r == [r[0], r[1], r[2], r[3]];
  }

  /** Every key of `v` reads as `undefined` or `null`. */
  ghost predicate NoKeyPresent(v: Value) {
    forall k: string :: IsNullish(Get(v, k))
  }

  /** No present key: the fallback is picked. */
  lemma PickAbsent(overview: Value, keys: seq<string>, fallback: Value)
    requires NoKeyPresent(overview)
    ensures PickValue(overview, keys, fallback) == fallback
  {
  }

  /** The metrics list: the first non-empty one of `metrics`, `stats`,
      `dashboardStats`. */
  function Metrics(overview: Value): seq<Value> {
    SafeArray([Get(overview, "metrics"), Get(overview, "stats"), Get(overview, "dashboardStats")])
  }

  /** One card per metric, each field taken from the first present key. */
  function MetricCard(metric: Value): (r: Card)
    ensures r == Card(PickValue(metric, ["label", "title"], Str("Metric")),
                      PickValue(metric, ["value", "count", "total"], Str("—")),
                      PickValue(metric, ["meta", "subtitle", "description"], Str("")))
  {
    Card(Coalesce(Coalesce(Get(metric, "label"), Get(metric, "title")), Str("Metric")),
         Coalesce(Coalesce(Coalesce(Get(metric, "value"), Get(metric, "count")), Get(metric, "total")), Str("—")),
         Coalesce(Coalesce(Coalesce(Get(metric, "meta"), Get(metric, "subtitle")), Get(metric, "description")), Str("")))
  }

  /** `buildSnapshotStats`: a non-empty metrics list is mapped one to one
      (and throws on a `null` entry, whose `label` it reads); otherwise the
      result is exactly the four fallback cards. */
  function BuildSnapshotStats(overview: Value): (r: Outcome<seq<Card>>)
    ensures |Metrics(overview)| == 0 ==> r == Returns(FallbackCards(overview))
    ensures |Metrics(overview)| > 0 ==>
              (r.Throws? <==> exists i | 0 <= i < |Metrics(overview)| :: IsNullish(Metrics(overview)[i]))
    ensures (r.Returns? && |Metrics(overview)| > 0) ==>
              var ms := Metrics(overview);
              && |r.value| == |ms|
              && forall i | 0 <= i < |ms| ::
                   r.value[i] == Card(PickValue(ms[i], ["label", "title"], Str("Metric")),
                                      PickValue(ms[i], ["value", "count", "total"], Str("—")),
                                      PickValue(ms[i], ["meta", "subtitle", "description"], Str("")))
  {
    var ms := Metrics(overview);
    if |ms| > 0 then MapRecords(ms, (_, m) => MetricCard(m)) else Returns(FallbackCards(overview))
  }

  // ---------------------------------------------------------------------------
  // Onboarding steps

  function StepSources(overview: Value): seq<Value> {
    SafeArray([Get(overview, "onboardingSteps"), Get(Get(overview, "onboarding"), "steps"),
               Get(overview, "verificationSteps")])
  }

  function StepTitleFallback(index: nat): string {
    "Step " + NatToString(index + 1)
  }

  /** `buildOnboardingSteps`: one step per entry of the first non-empty step
      list, a missing title becoming "Step <index + 1>". */
  function BuildOnboardingSteps(overview: Value): (r: Outcome<seq<Step>>)
    ensures r.Throws? <==> exists i | 0 <= i < |StepSources(overview)| :: IsNullish(StepSources(overview)[i])
    ensures r.Returns? ==>
              var steps := StepSources(overview);
              && |r.value| == |steps|
              && forall i | 0 <= i < |steps| ::
                   && r.value[i].title == PickValue(steps[i], ["title", "name"], Str(StepTitleFallback(i)))
                   && r.value[i].kind == PickValue(steps[i], ["type", "category"], Str("Task"))
                   && r.value[i].status == PickValue(steps[i], ["status", "state"], Str("Pending"))
  {
    MapRecords(StepSources(overview), StepOf)
  }

  /** The step shown for the entry at `index`, each field taken from the
      first present key. */
  function StepOf(index: nat, step: Value): (r: Step)
    ensures r == Step(PickValue(step, ["title", "name"], Str(StepTitleFallback(index))),
                      PickValue(step, ["type", "category"], Str("Task")),
                      PickValue(step, ["status", "state"], Str("Pending")))
  {
    Step(Coalesce(Coalesce(Get(step, "title"), Get(step, "name")), Str(StepTitleFallback(index))),
         Coalesce(Coalesce(Get(step, "type"), Get(step, "category")), Str("Task")),
         Coalesce(Coalesce(Get(step, "status"), Get(step, "state")), Str("Pending")))
  }

  // ---------------------------------------------------------------------------
  // Appointment queue

  /** `formatTime`: a falsy value is "TBD"; anything else goes to the
      locale clock. */
  function FormatTime(value: Value, clock: Value -> Value): (r: Value)
    ensures !Truthy(value) ==> r == Str("TBD")
    ensures Truthy(value) ==> r == clock(value)
  {
    if !Truthy(value) then Str("TBD") else clock(value)
  }

  /** The name shown for an appointment's `patient`: a string is used as is
      (even an empty one), an object contributes its first truthy
      `userName`, `name`, `fullName` or `email`, and anything else is
      "Patient". */
  function PatientName(patient: Value): (r: Value)
    ensures patient.Str? ==> r == patient
    ensures !patient.Str? && !Truthy(patient) ==> r == Str("Patient")
    ensures !patient.Str? && Truthy(patient) ==>
              r == FirstTruthy(patient, ["userName", "name", "fullName", "email"], Str("Patient"))
    ensures !patient.Str? ==> r == Str("Patient") || Truthy(r)
  {
    if patient.Str? then patient
    else if Truthy(patient) then
      Or(Or(Or(Or(Get(patient, "userName"), Get(patient, "name")), Get(patient, "fullName")),
            Get(patient, "email")), Str("Patient"))
    else Str("Patient")
  }

  function AppointmentOf(appt: Value, clock: Value -> Value): Appointment {
    Appointment(PatientName(Get(appt, "patient")),
                PickValue(appt, ["mode", "type"], Str("Video")),
                FormatTime(Coalesce(Coalesce(Get(appt, "startTime"), Get(appt, "time")), Get(appt, "slot")), clock),
                PickValue(appt, ["status", "state"], Str("Pending")),
                PickValue(appt, ["reason", "notes"], Str("")))
  }

  /** `buildAppointments`: one entry per appointment of the normalised list;
      a `null` appointment throws. */
  function BuildAppointments(items: Value, clock: Value -> Value): (r: Outcome<seq<Appointment>>)
    ensures r.Throws? <==> exists i | 0 <= i < |NormalizeListExtended(items)| :: IsNullish(NormalizeListExtended(items)[i])
    ensures r.Returns? ==>
              var list := NormalizeListExtended(items);
              && |r.value| == |list|
              && forall i | 0 <= i < |list| ::
                   && r.value[i].patient == PatientName(Get(list[i], "patient"))
                   && r.value[i].mode == PickValue(list[i], ["mode", "type"], Str("Video"))
                   && r.value[i].time == FormatTime(PickValue(list[i], ["startTime", "time", "slot"], Undefined), clock)
                   && r.value[i].status == PickValue(list[i], ["status", "state"], Str("Pending"))
                   && r.value[i].notes == PickValue(list[i], ["reason", "notes"], Str(""))
  {
    var list := NormalizeListExtended(items);
    var r := MapRecords(list, (_, appt) => AppointmentOf(appt, clock));
    assert forall v: Value :: FormatTime(Coalesce(Coalesce(Get(v, "startTime"), Get(v, "time")), Get(v, "slot")), clock)
                           == FormatTime(PickValue(v, ["startTime", "time", "slot"], Undefined), clock);
    r
  }

  // ---------------------------------------------------------------------------
  // Resolved doctor id

  /** The doctor id the page acts for: the first truthy one of the profile's
      first present `doctorId`/`_id`/`id`, the overview's doctor's first
      present `_id`/`id`, and the overview's first present `doctorId`/`_id`;
      failing those, the user's `_id || id` when the user's role is "doctor",
      and `null` otherwise. */
  function ResolvedDoctorId(profile: Value, overview: Value, user: Value): (r: Value)
    ensures var p := PickValue(profile, ["doctorId", "_id", "id"], Undefined);
            Truthy(p) ==> r == p
    ensures var p := PickValue(profile, ["doctorId", "_id", "id"], Undefined);
            var d := PickValue(Get(overview, "doctor"), ["_id", "id"], Undefined);
            !Truthy(p) && Truthy(d) ==> r == d
    ensures var p := PickValue(profile, ["doctorId", "_id", "id"], Undefined);
            var d := PickValue(Get(overview, "doctor"), ["_id", "id"], Undefined);
            var o := PickValue(overview, ["doctorId", "_id"], Undefined);
            !Truthy(p) && !Truthy(d) && Truthy(o) ==> r == o
    ensures var p := PickValue(profile, ["doctorId", "_id", "id"], Undefined);
            var d := PickValue(Get(overview, "doctor"), ["_id", "id"], Undefined);
            var o := PickValue(overview, ["doctorId", "_id"], Undefined);
            !Truthy(p) && !Truthy(d) && !Truthy(o) ==>
              r == (if Get(user, "role") == Str("doctor") then Or(Get(user, "_id"), Get(user, "id")) else Null)
  {
    var fromProfile := PickValue(profile, ["doctorId", "_id", "id"], Undefined);
    if Truthy(fromProfile) then fromProfile
    else
      var overviewDoctor := Coalesce(Get(overview, "doctor"), EmptyObject);
      var fromOverviewDoctor := PickValue(overviewDoctor, ["_id", "id"], Undefined);
      if Truthy(fromOverviewDoctor) then fromOverviewDoctor
      else
        var fromOverview := PickValue(overview, ["doctorId", "_id"], Undefined);
        if Truthy(fromOverview) then fromOverview
        else if Get(user, "role") == Str("doctor") then Or(Get(user, "_id"), Get(user, "id"))
        else Null
  }

  /** A present but falsy profile id (say "") does not stop the search: the
      later keys of the profile are skipped and the overview is consulted. */
  lemma EmptyProfileIdFallsThrough(overview: Value, user: Value, id: Value)
    requires Truthy(id)
    requires Truthy(Get(overview, "doctorId"))
    ensures ResolvedDoctorId(Obj(map["doctorId" := Str(""), "_id" := id]), overview, user)
              == (if Truthy(PickValue(Get(overview, "doctor"), ["_id", "id"], Undefined))
                  then PickValue(Get(overview, "doctor"), ["_id", "id"], Undefined)
                  else Get(overview, "doctorId"))
  {
    var profile := Obj(map["doctorId" := Str(""), "_id" := id]);
    assert FirstPresentAt(profile, ["doctorId", "_id", "id"], 0);
    assert FirstPresentAt(overview, ["doctorId", "_id"], 0);
  }

  /** Without a profile, an overview or a doctor user there is no id. */
  lemma NoSourceNoDoctorId(user: Value)
    requires Get(user, "role") != Str("doctor")
    ensures ResolvedDoctorId(Null, Null, user) == Null
  {
  }

  // ---------------------------------------------------------------------------
  // Calendar rows

  /** " (text)" behind a truthy descriptor; nothing behind a falsy one. */
  function InParens(descriptor: Value): (r: string)
    ensures !Truthy(descriptor) ==> r == ""
    ensures Truthy(descriptor) ==> |r| == |ToDisplayString(descriptor)| + 3 && r[0] == ' ' && r[|r| - 1] == ')'
  {
    if Truthy(descriptor) then " (" + ToDisplayString(descriptor) + ")" else ""
  }

  /** The text of one availability slot. A string is itself; a slot with a
      truthy `startTime` or `from` reads "start - end" plus its descriptor
      in parentheses; a slot with a truthy `time` is the clock's rendering
      plus its `mode`; anything else is its `label`, `title` or "Slot". A
      `null` slot throws. */
  function SlotLabel(slot: Value, clock: Value -> Value): (r: Outcome<Value>)
    ensures slot.Str? ==> r == Returns(slot)
    ensures r.Throws? <==> IsNullish(slot)
    ensures (!slot.Str? && !IsNullish(slot) && (Truthy(Get(slot, "startTime")) || Truthy(Get(slot, "from")))) ==>
              r == Returns(Str(ToDisplayString(PickValue(slot, ["startTime", "from"], Str("TBD")))
                               + " - " + ToDisplayString(PickValue(slot, ["endTime", "to"], Str("TBD")))
                               + InParens(PickValue(slot, ["mode", "type", "label", "activity"], Str("")))))
    ensures (&& !slot.Str? && !IsNullish(slot)
             && !Truthy(Get(slot, "startTime")) && !Truthy(Get(slot, "from")) && Truthy(Get(slot, "time"))) ==>
              r == Returns(Str(ToDisplayString(clock(Get(slot, "time"))) + InParens(Get(slot, "mode"))))
    ensures (&& !slot.Str? && !IsNullish(slot)
             && !Truthy(Get(slot, "startTime")) && !Truthy(Get(slot, "from")) && !Truthy(Get(slot, "time"))) ==>
              r == Returns(PickValue(slot, ["label", "title"], Str("Slot")))
  {
    if slot.Str? then Returns(slot)
    else if IsNullish(slot) then Throws
    else if Truthy(Get(slot, "startTime")) || Truthy(Get(slot, "from")) then
      var start := Coalesce(Coalesce(Get(slot, "startTime"), Get(slot, "from")), Str("TBD"));
      var end := Coalesce(Coalesce(Get(slot, "endTime"), Get(slot, "to")), Str("TBD"));
      var descriptor := Coalesce(Coalesce(Coalesce(Coalesce(Get(slot, "mode"), Get(slot, "type")), Get(slot, "label")),
                                          Get(slot, "activity")), Str(""));
      SlotFields(slot);
      var text := ToDisplayString(start) + " - " + ToDisplayString(end)
                  + (if Truthy(descriptor) then " (" + ToDisplayString(descriptor) + ")" else "");
      Returns(Str(text))
    else if Truthy(Get(slot, "time")) then
      var text := ToDisplayString(FormatTime(Get(slot, "time"), clock))
                  + (if Truthy(Get(slot, "mode")) then " (" + ToDisplayString(Get(slot, "mode")) + ")" else "");
      Returns(Str(text))
    else Returns(Coalesce(Coalesce(Get(slot, "label"), Get(slot, "title")), Str("Slot")))
  }

  /** The fields a timed slot reads, as the first present of their aliases. */
  lemma SlotFields(slot: Value)
    ensures PickValue(slot, ["startTime", "from"], Str("TBD"))
            == Coalesce(Coalesce(Get(slot, "startTime"), Get(slot, "from")), Str("TBD"))
    ensures PickValue(slot, ["endTime", "to"], Str("TBD"))
            == Coalesce(Coalesce(Get(slot, "endTime"), Get(slot, "to")), Str("TBD"))
    ensures PickValue(slot, ["mode", "type", "label", "activity"], Str(""))
            == Coalesce(Coalesce(Coalesce(Coalesce(Get(slot, "mode"), Get(slot, "type")), Get(slot, "label")),
                                 Get(slot, "activity")), Str(""))
  {
    var keys := ["mode", "type", "label", "activity"];
    assert keys[1..] == ["type", "label", "activity"];
    assert keys[1..][1..] == ["label", "activity"];
    assert ["startTime", "from"][1..] == ["from"];
    assert ["endTime", "to"][1..] == ["to"];
  }

  function DayLabel(day: Value, index: nat): Value {
    Coalesce(Coalesce(Coalesce(Coalesce(Coalesce(Get(day, "day"), Get(day, "label")), Get(day, "weekday")),
                               Get(day, "name")), Get(day, "date")), Str("Day " + NatToString(index + 1)))
  }

  /** The slot list of a day: the first non-empty one of its candidates. */
  function DayEntries(day: Value): seq<Value> {
    SafeArray([Get(day, "slots"), Get(day, "times"), Get(day, "blocks"), Get(day, "entries"),
               Get(day, "availability"), Get(day, "schedule")])
  }

  function CalendarRowOf(day: Value, index: nat, clock: Value -> Value): (r: Outcome<CalendarRow>)
    ensures r.Throws? <==> IsNullish(day) || exists j | 0 <= j < |DayEntries(day)| :: IsNullish(DayEntries(day)[j])
    ensures r.Returns? ==>
              && r.value.caption == PickValue(day, ["day", "label", "weekday", "name", "date"],
                                            Str("Day " + NatToString(index + 1)))
              && |r.value.slots| == |DayEntries(day)|
              && forall j | 0 <= j < |DayEntries(day)| :: SlotLabel(DayEntries(day)[j], clock) == Returns(r.value.slots[j])
  {
    if IsNullish(day) then Throws
    else
      var entries := DayEntries(day);
      var f := (j: nat) => if j < |entries| then SlotLabel(entries[j], clock) else Throws;
      assert forall j | 0 <= j < |entries| :: f(j).Throws? <==> IsNullish(entries[j]);
      match MapAll(|entries|, f)
      case Throws => Throws
      case Returns(slots) => Returns(CalendarRow(DayLabel(day, index), slots))
  }

  /** The calendar: one row per day of the loaded schedule, labelled by the
      first present of `day`, `label`, `weekday`, `name`, `date`, else
      "Day <index + 1>". */
  function CalendarRows(schedule: seq<Value>, clock: Value -> Value): (r: Outcome<seq<CalendarRow>>)
    ensures r.Throws? <==> exists i | 0 <= i < |schedule| :: CalendarRowOf(schedule[i], i, clock).Throws?
    ensures r.Returns? ==>
              && |r.value| == |schedule|
              && (forall i | 0 <= i < |schedule| ::
                   r.value[i].caption == PickValue(schedule[i], ["day", "label", "weekday", "name", "date"],
                                                 Str("Day " + NatToString(i + 1))))
              && (forall i | 0 <= i < |schedule| :: CalendarRowOf(schedule[i], i, clock) == Returns(r.value[i]))
  {
    var r := MapAll(|schedule|, (i: nat) => if i < |schedule| then CalendarRowOf(schedule[i], i, clock) else Throws);
    assert r.Returns? ==> forall i | 0 <= i < |schedule| :: CalendarRowOf(schedule[i], i, clock) == Returns(r.value[i]);
    r
  }

  const ScheduleKeys: seq<string> := ["schedule", "availability", "slots", "days", "data"]

  /** The schedule the availability request yields: the response's truthy
      `data`, else the response itself, read as an array under `schedule`,
      `availability`, `slots`, `days` or `data`. */
  function ScheduleFromResponse(response: Value): (r: seq<Value>)
    ensures response.Arr? ==> r == response.elems
    ensures !Truthy(response) ==> r == []
    ensures Get(response, "data").Arr? ==> r == Get(response, "data").elems
    ensures (Truthy(Get(response, "data")) && !Get(response, "data").Arr?) ==>
              && (forall i | FirstArrayAt(Get(response, "data"), ScheduleKeys, i) ::
                    r == Get(Get(response, "data"), ScheduleKeys[i]).elems)
              && ((forall i | 0 <= i < |ScheduleKeys| :: !Get(Get(response, "data"), ScheduleKeys[i]).Arr?) ==> r == [])
    ensures (Truthy(response) && !response.Arr? && !Truthy(Get(response, "data"))) ==>
              && (forall i | FirstArrayAt(response, ScheduleKeys, i) :: r == Get(response, ScheduleKeys[i]).elems)
              && ((forall i | 0 <= i < |ScheduleKeys| :: !Get(response, ScheduleKeys[i]).Arr?) ==> r == [])
  {
    ExtractArrayFromPayload(Or(Get(response, "data"), response), ScheduleKeys)
  }

  /** A day whose `slots` are all strings shows exactly those strings, in
      order, whatever its other lists hold. */
  lemma StringSlotsShownAsIs(day: Value, index: nat, clock: Value -> Value, slots: seq<Value>)
    requires Get(day, "slots") == Arr(slots) && |slots| > 0
    requires forall j | 0 <= j < |slots| :: slots[j].Str?
    ensures CalendarRowOf(day, index, clock).Returns?
    ensures CalendarRowOf(day, index, clock).value.slots == slots
  {
    assert FirstNonEmptyArrayAt([Get(day, "slots"), Get(day, "times"), Get(day, "blocks"), Get(day, "entries"),
                                 Get(day, "availability"), Get(day, "schedule")], 0);
    assert DayEntries(day) == slots;
    var row := CalendarRowOf(day, index, clock);
    assert forall j | 0 <= j < |slots| :: SlotLabel(slots[j], clock) == Returns(slots[j]);
    assert row.Returns? ==> forall j | 0 <= j < |slots| :: row.value.slots[j] == slots[j];
  }

  /** A slot with a start, an end and a mode, all text, reads
      "start - end (mode)". */
  lemma TimedSlotText(slot: Value, clock: Value -> Value, start: string, end: string, mode: string)
    requires Get(slot, "startTime") == Str(start) && start != ""
    requires Get(slot, "endTime") == Str(end)
    requires Get(slot, "mode") == Str(mode) && mode != ""
    ensures SlotLabel(slot, clock) == Returns(Str(start + " - " + end + " (" + mode + ")"))
  {
    assert FirstPresentAt(slot, ["startTime", "from"], 0);
    assert FirstPresentAt(slot, ["endTime", "to"], 0);
    assert FirstPresentAt(slot, ["mode", "type", "label", "activity"], 0);
    assert InParens(Str(mode)) == " (" + mode + ")";
    assert start + " - " + end + (" (" + mode + ")") == start + " - " + end + " (" + mode + ")";
  }

  // ---------------------------------------------------------------------------
  // Pharmacy order summary

  /** The key an order is counted under: its first present `status` or
      `state` as a property name, "unknown" when neither is present. */
  function OrderStatusKey(order: Value): string {
    ToDisplayString(PickValue(order, ["status", "state"], Str("unknown")))
  }

  /** The amount an order contributes: `Number` of its first present
      `total`, `amount` or `grandTotal`, 0 when none is present. */
  function OrderAmount(order: Value): Number {
    ToNumber(PickValue(order, ["total", "amount", "grandTotal"], Int(0)))
  }

  function StatusKeys(orders: seq<Value>): (r: seq<string>)
    ensures |r| == |orders|
    ensures forall i | 0 <= i < |orders| :: r[i] == OrderStatusKey(orders[i])
  {
    seq(|orders|, i requires 0 <= i < |orders| => OrderStatusKey(orders[i]))
  }

  /** The sum of the finite numbers of `ns`; NaN entries are skipped. */
  function FiniteSum(ns: seq<Number>): int {
    if |ns| == 0 then 0 else (if ns[0].Finite? then ns[0].v else 0) + FiniteSum(ns[1..])
  }

  function Amounts(orders: seq<Value>): (r: seq<Number>)
    ensures |r| == |orders|
    ensures forall i | 0 <= i < |orders| :: r[i] == OrderAmount(orders[i])
  {
    seq(|orders|, i requires 0 <= i < |orders| => OrderAmount(orders[i]))
  }

  lemma {:induction false} FiniteSumSnoc(ns: seq<Number>, n: Number)
    ensures FiniteSum(ns + [n]) == FiniteSum(ns) + (if n.Finite? then n.v else 0)
  {
    if |ns| > 0 {
      assert (ns + [n])[1..] == ns[1..] + [n];
      FiniteSumSnoc(ns[1..], n);
    }
  }

  /** The status counts after the `forEach` has visited every order. */
  function StatusCounts(orders: seq<Value>): (r: map<string, nat>)
    ensures r == Tally.Tally(StatusKeys(orders))
  {
    if |orders| == 0 then map[]
    else
      var init := orders[..|orders| - 1];
      assert StatusKeys(orders)[..|orders| - 1] == StatusKeys(init);
      Tally.Bump(StatusCounts(init), OrderStatusKey(orders[|orders| - 1]))
  }

  /** The running amount after the `forEach` has visited every order: only
      finite amounts are added. */
  function AmountTotal(orders: seq<Value>): (r: int)
    ensures r == FiniteSum(Amounts(orders))
  {
    if |orders| == 0 then 0
    else
      var init := orders[..|orders| - 1];
      var amount := OrderAmount(orders[|orders| - 1]);
      assert Amounts(orders) == Amounts(init) + [amount];
      FiniteSumSnoc(Amounts(init), amount);
      AmountTotal(init) + (if amount.Finite? then amount.v else 0)
  }

  /** `pharmacyOrderStats`: nothing for no orders; otherwise the order count,
      the number of orders under each status key (the counts add up to the
      order count), and the sum of the finite amounts. */
  function PharmacyOrderStats(orders: seq<Value>): (r: Option<OrderStats>)
    ensures r.None? <==> |orders| == 0
    ensures r.Some? ==> r.value.total == |orders|
    ensures r.Some? ==> forall k :: k in r.value.statuses <==> exists i | 0 <= i < |orders| :: OrderStatusKey(orders[i]) == k
    ensures r.Some? ==> forall k | k in r.value.statuses :: r.value.statuses[k] == Lists.Count(StatusKeys(orders), k)
    ensures r.Some? ==> Tally.SumValues(r.value.statuses) == r.value.total
    ensures r.Some? ==> r.value.totalAmount == FiniteSum(Amounts(orders))
  {
    if |orders| == 0 then None
    else
      Tally.TallySum(StatusKeys(orders));
      Some(OrderStats(|orders|, StatusCounts(orders), AmountTotal(orders)))
  }

  /** Orders whose amount is not a number add nothing to the total. */
  lemma {:induction false} NaNAmountsAddNothing(orders: seq<Value>, order: Value)
    requires |orders| > 0
    requires OrderAmount(order).NaN?
    ensures PharmacyOrderStats(orders + [order]).value.totalAmount == PharmacyOrderStats(orders).value.totalAmount
  {
    AmountsSnoc(orders, order);
    FiniteSumSnoc(Amounts(orders), OrderAmount(order));
  }

  lemma AmountsSnoc(orders: seq<Value>, order: Value)
    ensures Amounts(orders + [order]) == Amounts(orders) + [OrderAmount(order)]
  {
    var xs := orders + [order];
    assert forall i | 0 <= i < |orders| :: xs[i] == orders[i];
  }
}

=== FILE: global_loader.dfy ===
/** The full-page loading overlay shared by all pages: a count of the loads
    in progress, raised by `showLoader`, lowered by `hideLoader` (never
    below zero), with the overlay shown exactly while the count is
    positive. */
module GlobalLoader {
  import opened JsValue

  /** The calls a page makes on the loader, in order. */
  datatype Signal = Show | Hide

  /** `showLoader`: one more load in progress. */
  function ShowLoader(count: nat): (r: nat)
    ensures r == count + 1
    ensures OverlayVisible(r)
  {
    count + 1
  }

  /** `hideLoader`: one load fewer, but never below zero. */
  function HideLoader(count: nat): (r: nat)
    ensures count > 0 ==> r == count - 1
    ensures count == 0 ==> r == 0
  {
    if count - 1 < 0 then 0 else count - 1
  }

  /** The overlay is rendered while the count is positive. */
  predicate OverlayVisible(count: nat) {
    count > 0
  }

  function Step(count: nat, s: Signal): nat {
    match s
    case Show => ShowLoader(count)
    case Hide => HideLoader(count)
  }

  /** The count after a sequence of calls. */
  function Run(count: nat, signals: seq<Signal>): nat
    decreases |signals|
  {
    if |signals| == 0 then count else Run(Step(count, signals[0]), signals[1..])
  }

  /** `Show` minus `Hide` calls. */
  function Net(signals: seq<Signal>): int
    decreases |signals|
  {
    if |signals| == 0 then 0 else (if signals[0].Show? then 1 else -1) + Net(signals[1..])
  }

  /** Starting from `count`, no prefix of `signals` hides more loads than
      were in progress. */
  predicate NeverUnderflows(count: nat, signals: seq<Signal>) {
    forall k | 0 <= k <= |signals| :: count + Net(signals[..k]) >= 0
  }

  /** Each page pairs its `showLoader` with a `hideLoader` in a `finally`,
      so pairs may nest and interleave: as long as no prefix hides more
      than it showed, the count moves by exactly the net number of calls. */
  lemma {:induction false} RunWithoutUnderflow(count: nat, signals: seq<Signal>)
    requires NeverUnderflows(count, signals)
    ensures Run(count, signals) == count + Net(signals)
    decreases |signals|
  {
    if |signals| > 0 {
      assert signals[..1] == [signals[0]];
      assert Net([signals[0]]) == (if signals[0].Show? then 1 else -1) + Net([signals[0]][1..]);
      assert count + Net(signals[..1]) >= 0;
      var next := Step(count, signals[0]);
      assert next == count + (if signals[0].Show? then 1 else -1);
      forall k | 0 <= k <= |signals[1..]|
        ensures next + Net(signals[1..][..k]) >= 0
      {
        assert signals[..k + 1][1..] == signals[1..][..k];
        assert signals[..k + 1][0] == signals[0];
        assert count + Net(signals[..k + 1]) >= 0;
      }
      RunWithoutUnderflow(next, signals[1..]);
    }
  }

  /** A page that shows and later hides the loader leaves the count where
      it found it, whatever well-paired calls other pages make in between. */
  lemma BalancedLoadRestoresCount(count: nat, between: seq<Signal>)
    requires NeverUnderflows(count + 1, between)
    requires Net(between) == 0
    ensures Run(count, [Show] + between + [Hide]) == count
  {
    var t := [Show] + between + [Hide];
    assert t[1..] == between + [Hide];
    assert Run(count, t) == Run(count + 1, between + [Hide]);
    NetAppend(between, [Hide]);
    forall k | 0 <= k <= |between + [Hide]|
      ensures count + 1 + Net((between + [Hide])[..k]) >= 0
    {
      if k <= |between| {
        assert (between + [Hide])[..k] == between[..k];
      } else {
        assert (between + [Hide])[..k] == between + [Hide];
        assert between[..|between|] == between;
      }
    }
    RunWithoutUnderflow(count + 1, between + [Hide]);
  }

  lemma {:induction false} NetAppend(a: seq<Signal>, b: seq<Signal>)
    ensures Net(a + b) == Net(a) + Net(b)
    decreases |a|
  {
    if |a| > 0 {
      assert (a + b)[1..] == a[1..] + b;
      assert (a + b)[0] == a[0];
      NetAppend(a[1..], b);
    } else {
      assert a + b == b;
    }
  }

  /** A stray `hideLoader` with nothing in progress is absorbed: the count
      stays at zero and the overlay stays hidden. */
  lemma StrayHideIsAbsorbed()
    ensures Run(0, [Hide]) == 0 && !OverlayVisible(Run(0, [Hide]))
  {
  }

  /** `useGlobalLoader`: the provider's value, and an error outside a
      provider. */
  function UseGlobalLoader<T>(context: Option<T>): (r: Outcome<T>)
    ensures r.Throws? <==> context.None?
    ensures context.Some? ==> r == Returns(context.value)
  {
    match context
    case None => Throws
    case Some(c) => Returns(c)
  }
}

=== FILE: invoice.dfy ===
/** The pharmacy invoice page: the address formatter, the money block
    (subtotal, discount, delivery, grand total, amount paid, balance due),
    the per-line totals and row keys, the invoice number and payment
    method, and the load of the order and the store profile. Amounts are
    whole rupees; fractional amounts are not modelled. */
module Invoice {
  import opened JsValue
  import opened Payload
  import Addresses
  import Money
  import Api

  // ---------------------------------------------------------------------------
  // Addresses

  /** The five printed parts of an address, each the first present alias. */
  function AddressParts(address: Value): seq<Value> {
    [ Coalesce(Coalesce(Get(address, "addressLine1"), Get(address, "line1")), Get(address, "address")),
      Coalesce(Get(address, "addressLine2"), Get(address, "line2")),
      Get(address, "city"),
      Get(address, "state"),
      Coalesce(Coalesce(Get(address, "postalCode"), Get(address, "pincode")), Get(address, "zipCode")) ]
  }

  /** `formatAddress`: "Not provided" for a falsy address or one with no
      truthy part; otherwise the truthy parts joined with ", ". */
  function FormatAddress(address: Value): (r: string)
    ensures !Truthy(address) ==> r == "Not provided"
    ensures (forall i | 0 <= i < 5 :: !Truthy(AddressParts(address)[i])) ==> r == "Not provided"
    ensures Truthy(address) && (exists i | 0 <= i < 5 :: Truthy(AddressParts(address)[i])) ==>
              r == Addresses.JoinPresent(AddressParts(address))
  {
    if !Truthy(address) then "Not provided"
    else
      var parts := AddressParts(address);
      if |Addresses.Present(parts)| == 0 then
        assert forall i | 0 <= i < 5 :: !Truthy(parts[i]);
        "Not provided"
      else Addresses.JoinPresent(parts)
  }

  /** An address whose five parts are all non-empty text prints all five,
      in order, comma separated. */
  lemma FullAddressPrinted(address: Value, a: string, b: string, c: string, d: string, e: string)
    requires AddressParts(address) == [Str(a), Str(b), Str(c), Str(d), Str(e)]
    requires a != "" && b != "" && c != "" && d != "" && e != ""
    ensures FormatAddress(address) == a + ", " + b + ", " + c + ", " + d + ", " + e
  {
    assert Get(address, "city") == Str(c);
    assert Truthy(AddressParts(address)[2]);
    Addresses.FiveParts(a, b, c, d, e);
  }

  /** The seller address: a non-empty object `address` in the profile is
      formatted; a non-empty array passes the check too but has none of the
      named parts, so it prints "Not provided"; an empty object or array,
      or no object at all, falls back to the profile's `storeAddress`, else
      "Not provided". */
  function SellerAddress(profile: Value): (r: Value)
    ensures (Get(profile, "address").Obj? && |Get(profile, "address").fields| > 0) ==>
              r == Str(FormatAddress(Get(profile, "address")))
    ensures (Get(profile, "address").Arr? && |Get(profile, "address").elems| > 0) ==> r == Str("Not provided")
    ensures Get(profile, "address") == Obj(map[]) ==>
              r == Coalesce(Get(profile, "storeAddress"), Str("Not provided"))
    ensures Get(profile, "address") == Arr([]) ==>
              r == Coalesce(Get(profile, "storeAddress"), Str("Not provided"))
    ensures !Get(profile, "address").Obj? && !Get(profile, "address").Arr? ==>
              r == Coalesce(Get(profile, "storeAddress"), Str("Not provided"))
  {
    var address := Get(profile, "address");
    var structured := (address.Obj? && |address.fields| > 0) || (address.Arr? && |address.elems| > 0);
    if structured then Str(FormatAddress(address))
    else Coalesce(Get(profile, "storeAddress"), Str("Not provided"))
  }

  // ---------------------------------------------------------------------------
  // Items and line totals

  /** `Number(v ?? 0)` */
  function Amount(v: Value): (r: Number)
    ensures IsNullish(v) ==> r == Finite(0)
    ensures v.Num? ==> r == v.n
  {
    ToNumber(Coalesce(v, Int(0)))
  }

  /** `order.items ?? []`: a missing list is empty; anything else that is
      not an array has no `reduce`, so the page throws. */
  function ItemsOf(order: Value): (r: Outcome<seq<Value>>)
    ensures IsNullish(Get(order, "items")) ==> r == Returns([])
    ensures Get(order, "items").Arr? ==> r == Returns(Get(order, "items").elems)
    ensures r.Throws? <==> !IsNullish(Get(order, "items")) && !Get(order, "items").Arr?
  {
    match Coalesce(Get(order, "items"), Arr([]))
    case Arr(es) => Returns(es)
    case _ => Throws
  }

  /** `Number(item.price ?? 0) * Number(item.quantity ?? 0)`: a missing
      price or quantity reads as 0. */
  function LineBase(item: Value): (r: Number)
    ensures (Amount(Get(item, "price")).Finite? && Amount(Get(item, "quantity")).Finite?) ==>
              r == Finite(Amount(Get(item, "price")).v * Amount(Get(item, "quantity")).v)
    ensures (&& (IsNullish(Get(item, "price")) || IsNullish(Get(item, "quantity")))
             && Amount(Get(item, "price")).Finite? && Amount(Get(item, "quantity")).Finite?) ==> r == Finite(0)
    ensures r.NaN? <==> Amount(Get(item, "price")).NaN? || Amount(Get(item, "quantity")).NaN?
  {
    Mul(Amount(Get(item, "price")), Amount(Get(item, "quantity")))
  }

  /** The discount and the tax of a line, each the first present alias. */
  function LineDiscount(item: Value): Number {
    Amount(Coalesce(Get(item, "discount"), Get(item, "discountAmount")))
  }

  function LineTax(item: Value): Number {
    Amount(Coalesce(Get(item, "taxAmount"), Get(item, "tax")))
  }

  /** `a - b + c` on numbers: the integer result when all three are
      integers, NaN as soon as one is NaN. */
  lemma NumericTotal(a: Number, b: Number, c: Number)
    ensures a.Finite? && b.Finite? && c.Finite? ==> Add(Sub(a, b), c) == Finite(a.v - b.v + c.v)
    ensures Add(Sub(a, b), c).NaN? <==> a.NaN? || b.NaN? || c.NaN?
  {
  }

  /** A line's total: unit price times quantity, less the discount, plus the
      tax; NaN when any of them is not a number. */
  function LineTotal(item: Value): (r: Number)
    ensures (&& LineBase(item).Finite? && LineDiscount(item).Finite? && LineTax(item).Finite?) ==>
              r == Finite(LineBase(item).v - LineDiscount(item).v + LineTax(item).v)
    ensures r.NaN? <==> LineBase(item).NaN? || LineDiscount(item).NaN? || LineTax(item).NaN?
  {
    var base, discount, tax := LineBase(item), LineDiscount(item), LineTax(item);
    NumericTotal(base, discount, tax);
    Add(Sub(base, discount), tax)
  }

  /** A line with neither discount nor tax totals its base. */
  predicate Plain(item: Value) {
    && IsNullish(Get(item, "discount")) && IsNullish(Get(item, "discountAmount"))
    && IsNullish(Get(item, "taxAmount")) && IsNullish(Get(item, "tax"))
  }

  /** When no line carries a discount or a tax, the line totals add up to
      the items' subtotal. */
  lemma PlainLinesSumToSubtotal(items: seq<Value>)
    requires forall i | 0 <= i < |items| :: Plain(items[i])
    ensures Money.SumLines(items, LineTotal) == Money.SumLines(items, LineBase)
  {
    forall i | 0 <= i < |items| && !IsNullish(items[i]) ensures LineTotal(items[i]) == LineBase(items[i]) {
      assert LineDiscount(items[i]) == Finite(0) && LineTax(items[i]) == Finite(0);
    }
    Money.SumLinesCongruent(items, LineTotal, LineBase);
  }

  /** The React key of a row: the product's id, else the item's id, else
      "<product>-<index>" with "item" for a missing product. */
  function RowKey(item: Value, index: nat): (r: Value)
    ensures !IsNullish(Get(Get(item, "product"), "_id")) ==> r == Get(Get(item, "product"), "_id")
    ensures IsNullish(Get(Get(item, "product"), "_id")) && !IsNullish(Get(item, "_id")) ==> r == Get(item, "_id")
    ensures IsNullish(Get(Get(item, "product"), "_id")) && IsNullish(Get(item, "_id")) ==>
              r == Str(ToDisplayString(Coalesce(Get(item, "product"), Str("item"))) + "-" + NatToString(index))
  {
    Coalesce(Coalesce(Get(Get(item, "product"), "_id"), Get(item, "_id")),
             Str(ToDisplayString(Coalesce(Get(item, "product"), Str("item"))) + "-" + NatToString(index)))
  }

  /** Two rows without any id or product get different keys. */
  lemma AnonymousRowKeysDiffer(a: Value, i: nat, b: Value, j: nat)
    requires IsNullish(Get(a, "product")) && IsNullish(Get(a, "_id"))
    requires IsNullish(Get(b, "product")) && IsNullish(Get(b, "_id"))
    requires i != j
    ensures RowKey(a, i) != RowKey(b, j)
  {
    var ka := "item" + "-" + NatToString(i);
    var kb := "item" + "-" + NatToString(j);
    assert RowKey(a, i) == Str(ka) && RowKey(b, j) == Str(kb);
    assert ka[5..] == NatToString(i) && kb[5..] == NatToString(j);
    DigitsOfNat(i);
    DigitsOfNat(j);
  }

  // ---------------------------------------------------------------------------
  // The money block

  /** The sum of the lines' bases; throws on a `null`/`undefined` item or a
      non-array item list. */
  function ItemsSubtotal(order: Value): (r: Outcome<Number>)
    ensures ItemsOf(order).Throws? ==> r.Throws?
    ensures ItemsOf(order).Returns? ==> r == Money.SumLines(ItemsOf(order).value, LineBase)
  {
    match ItemsOf(order)
    case Throws => Throws
    case Returns(items) => Money.SumLines(items, LineBase)
  }

  /** The subtotal: the order's own `subtotal` when present (0 is kept),
      otherwise the items' sum. The items are summed either way, so a bad
      item throws even when the order carries a subtotal. */
  function Subtotal(order: Value): (r: Outcome<Value>)
    ensures r.Throws? <==> ItemsSubtotal(order).Throws?
    ensures r.Returns? && !IsNullish(Get(order, "subtotal")) ==> r.value == Get(order, "subtotal")
    ensures r.Returns? && IsNullish(Get(order, "subtotal")) ==> r.value == Num(ItemsSubtotal(order).value)
  {
    match ItemsSubtotal(order)
    case Throws => Throws
    case Returns(sum) => Returns(Coalesce(Get(order, "subtotal"), Num(sum)))
  }

  const DiscountKeys: seq<string> := ["totalDiscount", "discount", "discountAmount"]
  const DeliveryKeys: seq<string> := ["deliveryCharges", "shippingCharges", "shippingCost"]
  const PaidKeys: seq<string> := ["amountPaid", "paidAmount", "totalPaid"]

  /** The order's discount: the first present alias, else 0. */
  function Discount(order: Value): (r: Value)
    ensures (forall i | 0 <= i < 3 :: IsNullish(Get(order, DiscountKeys[i]))) ==> r == Int(0)
    ensures forall i | FirstPresentAt(order, DiscountKeys, i) :: r == Get(order, DiscountKeys[i])
  {
    PickValue(order, DiscountKeys, Int(0))
  }

  /** The order's delivery charge: the first present alias, else 0. */
  function Delivery(order: Value): (r: Value)
    ensures (forall i | 0 <= i < 3 :: IsNullish(Get(order, DeliveryKeys[i]))) ==> r == Int(0)
    ensures forall i | FirstPresentAt(order, DeliveryKeys, i) :: r == Get(order, DeliveryKeys[i])
  {
    PickValue(order, DeliveryKeys, Int(0))
  }

  /** JavaScript's `n + v` for a number `n`: a string, array or object on
      the right turns the sum into a concatenation of the texts; anything
      else is added as a number. */
  function PlusValue(n: Number, v: Value): (r: Value)
    ensures v.Str? ==> r == Str(ToDisplayString(Num(n)) + v.s)
    ensures !v.Str? && !v.Arr? && !v.Obj? ==> r == Num(Add(n, ToNumber(v)))
  {
    if v.Str? || v.Arr? || v.Obj? then Str(ToDisplayString(Num(n)) + ToDisplayString(v))
    else Num(Add(n, ToNumber(v)))
  }

  /** `order.total ?? subtotal - totalDiscount + deliveryCharges` as the
      page writes it: the subtraction converts to numbers, but the addition
      concatenates when the delivery charge is text. */
  function GrandTotalAsWritten(order: Value, subtotal: Value): (r: Value)
    ensures !IsNullish(Get(order, "total")) ==> r == Get(order, "total")
    ensures IsNullish(Get(order, "total")) ==>
              r == PlusValue(Sub(ToNumber(subtotal), ToNumber(Discount(order))), Delivery(order))
  {
    Coalesce(Get(order, "total"), PlusValue(Sub(ToNumber(subtotal), ToNumber(Discount(order))), Delivery(order)))
  }

  /** The grand total: the order's `total` when present, otherwise the
      subtotal less the discount plus the delivery charge, all read as
      numbers. */
  function GrandTotal(order: Value, subtotal: Value): (r: Value)
    ensures !IsNullish(Get(order, "total")) ==> r == Get(order, "total")
    ensures (&& IsNullish(Get(order, "total"))
             && ToNumber(subtotal).Finite? && ToNumber(Discount(order)).Finite? && ToNumber(Delivery(order)).Finite?)
              ==> r == Int(ToNumber(subtotal).v - ToNumber(Discount(order)).v + ToNumber(Delivery(order)).v)
    ensures IsNullish(Get(order, "total")) ==> r.Num?
  {
    var sum, discount, delivery := ToNumber(subtotal), ToNumber(Discount(order)), ToNumber(Delivery(order));
    var computed := Add(Sub(sum, discount), delivery);
    NumericTotal(sum, discount, delivery);
    Coalesce(Get(order, "total"), Num(computed))
  }

  /** The two agree unless the delivery charge is text (or an array or
      object). */
  lemma GrandTotalAgreesOnNumbers(order: Value, subtotal: Value)
    requires !Delivery(order).Str? && !Delivery(order).Arr? && !Delivery(order).Obj?
    ensures GrandTotalAsWritten(order, subtotal) == GrandTotal(order, subtotal)
  {
  }

  /** An order of 100 with a discount of 10 whose delivery charge of 50
      arrives as text. */
  const TextDeliveryOrder: Value :=
    Obj(map["subtotal" := Int(100), "discount" := Int(10), "deliveryCharges" := Str("50")])

  lemma TextDeliveryOrderFields()
    ensures Discount(TextDeliveryOrder) == Int(10)
    ensures Delivery(TextDeliveryOrder) == Str("50")
    ensures IsNullish(Get(TextDeliveryOrder, "total"))
    ensures ToNumber(Str("50")) == Finite(50)
  {
    TextDeliveryDiscount();
    TextDeliveryCharge();
    TextFiftyIsFifty();
  }

  lemma TextDeliveryDiscount()
    ensures Discount(TextDeliveryOrder) == Int(10)
  {
    assert FirstPresentAt(TextDeliveryOrder, DiscountKeys, 1);
  }

  lemma TextDeliveryCharge()
    ensures Delivery(TextDeliveryOrder) == Str("50")
  {
    assert FirstPresentAt(TextDeliveryOrder, DeliveryKeys, 0);
  }

  /** Worked example for the text delivery charge: "50" reads as 50. */
  lemma TextFiftyIsFifty()
    ensures ToNumber(Str("50")) == Finite(50)
  {
    assert NatToString(5) == "5";
    assert NatToString(50) == NatToString(5) + [DigitChar(0)] == "50";
    assert ToDisplayString(Int(50)) == IntToString(50) == "50";
    NumberOfDisplayedInt(50);
  }

  /** As written, that order prints a grand total of "9050". */
  lemma GrandTotalConcatenates()
    ensures GrandTotalAsWritten(TextDeliveryOrder, Int(100)) == Str("9050")
  {
    TextDeliveryDiscount();
    TextDeliveryCharge();
    assert Sub(ToNumber(Int(100)), ToNumber(Discount(TextDeliveryOrder))) == Finite(90);
    NinetyDisplayed();
    assert PlusValue(Finite(90), Str("50")) == Str("90" + "50");
    assert "90" + "50" == "9050";
  }

  /** Worked example for the text delivery charge: 90 prints as "90". */
  lemma NinetyDisplayed()
    ensures ToDisplayString(Int(90)) == "90"
  {
    assert NatToString(9) == "9";
    assert NatToString(90) == NatToString(9) + [DigitChar(0)] == "90";
  }

  /** With the charge read as a number, the same order totals 140. */
  lemma GrandTotalOfTextDelivery()
    ensures GrandTotal(TextDeliveryOrder, Int(100)) == Int(140)
  {
    TextDeliveryOrderFields();
  }

  /** The amount paid: the first present alias, else the grand total. */
  function AmountPaid(order: Value, grandTotal: Value): (r: Value)
    ensures (forall i | 0 <= i < 3 :: IsNullish(Get(order, PaidKeys[i]))) ==> r == grandTotal
    ensures forall i | FirstPresentAt(order, PaidKeys, i) :: r == Get(order, PaidKeys[i])
  {
    PickValue(order, PaidKeys, grandTotal)
  }

  /** `Math.max(grandTotal - amountPaid, 0)`: never negative, the shortfall
      when there is one, and NaN when either side is not a number. */
  function BalanceDue(grandTotal: Value, amountPaid: Value): (r: Number)
    ensures r.Finite? ==> r.v >= 0
    ensures r.NaN? <==> ToNumber(grandTotal).NaN? || ToNumber(amountPaid).NaN?
    ensures (ToNumber(grandTotal).Finite? && ToNumber(amountPaid).Finite? &&
             ToNumber(grandTotal).v >= ToNumber(amountPaid).v) ==>
              r == Finite(ToNumber(grandTotal).v - ToNumber(amountPaid).v)
    ensures (ToNumber(grandTotal).Finite? && ToNumber(amountPaid).Finite? &&
             ToNumber(grandTotal).v <= ToNumber(amountPaid).v) ==> r == Finite(0)
  {
    Max(Sub(ToNumber(grandTotal), ToNumber(amountPaid)), Finite(0))
  }

  /** The whole money block of an invoice. */
  datatype Totals = Totals(subtotal: Value, discount: Value, delivery: Value, grandTotal: Value,
                           amountPaid: Value, balanceDue: Number)

  /** The money block as the page computes it: the grand total is the
      written `subtotal - discount + delivery`, so a delivery charge that
      arrives as text concatenates, and the amount paid falls back to that
      same total. */
  function InvoiceTotals(order: Value): (r: Outcome<Totals>)
    ensures r.Throws? <==> ItemsSubtotal(order).Throws?
    ensures r.Returns? ==>
              && r.value.subtotal == Subtotal(order).value
              && r.value.discount == Discount(order)
              && r.value.delivery == Delivery(order)
              && r.value.grandTotal == GrandTotalAsWritten(order, r.value.subtotal)
              && r.value.amountPaid == AmountPaid(order, r.value.grandTotal)
              && r.value.balanceDue == BalanceDue(r.value.grandTotal, r.value.amountPaid)
              && (r.value.balanceDue.Finite? ==> r.value.balanceDue.v >= 0)
  {
    match Subtotal(order)
    case Throws => Throws
    case Returns(subtotal) =>
      var grand := GrandTotalAsWritten(order, subtotal);
      var paid := AmountPaid(order, grand);
      Returns(Totals(subtotal, Discount(order), Delivery(order), grand, paid, BalanceDue(grand, paid)))
  }

  /** The same block with the corrected, always numeric grand total. */
  function InvoiceTotalsCorrected(order: Value): (r: Outcome<Totals>)
    ensures r.Throws? <==> ItemsSubtotal(order).Throws?
    ensures r.Returns? ==>
              && r.value.subtotal == Subtotal(order).value
              && r.value.discount == Discount(order)
              && r.value.delivery == Delivery(order)
              && r.value.grandTotal == GrandTotal(order, r.value.subtotal)
              && r.value.amountPaid == AmountPaid(order, r.value.grandTotal)
              && r.value.balanceDue == BalanceDue(r.value.grandTotal, r.value.amountPaid)
              && (r.value.balanceDue.Finite? ==> r.value.balanceDue.v >= 0)
  {
    match Subtotal(order)
    case Throws => Throws
    case Returns(subtotal) =>
      var grand := GrandTotal(order, subtotal);
      var paid := AmountPaid(order, grand);
      Returns(Totals(subtotal, Discount(order), Delivery(order), grand, paid, BalanceDue(grand, paid)))
  }

  /** The two blocks differ only where the grand totals do: they agree on
      every order whose delivery charge is not text, an array or an object. */
  lemma InvoiceTotalsAgreeOnNumbers(order: Value)
    requires !Delivery(order).Str? && !Delivery(order).Arr? && !Delivery(order).Obj?
    ensures InvoiceTotals(order) == InvoiceTotalsCorrected(order)
  {
    if Subtotal(order).Returns? {
      GrandTotalAgreesOnNumbers(order, Subtotal(order).value);
    }
  }

  /** On the order whose delivery charge is text, the page's block shows
      the grand total "9050" and the corrected block 140. */
  lemma TextDeliveryTotals()
    ensures InvoiceTotals(TextDeliveryOrder).Returns?
    ensures InvoiceTotals(TextDeliveryOrder).value.grandTotal == Str("9050")
    ensures InvoiceTotalsCorrected(TextDeliveryOrder).Returns?
    ensures InvoiceTotalsCorrected(TextDeliveryOrder).value.grandTotal == Int(140)
  {
    TextDeliverySubtotal();
    GrandTotalConcatenates();
    GrandTotalOfTextDelivery();
  }

  lemma TextDeliverySubtotal()
    ensures Subtotal(TextDeliveryOrder) == Returns(Int(100))
  {
    assert Get(TextDeliveryOrder, "items") == Undefined;
    assert ItemsOf(TextDeliveryOrder) == Returns([]);
  }

  /** Nothing recorded as paid means the whole amount counts as paid: the
      balance is 0 whenever the grand total is a number. */
  lemma BalanceZeroByDefault(order: Value)
    requires InvoiceTotals(order).Returns?
    requires forall i | 0 <= i < 3 :: IsNullish(Get(order, PaidKeys[i]))
    requires ToNumber(InvoiceTotals(order).value.grandTotal).Finite?
    ensures InvoiceTotals(order).value.balanceDue == Finite(0)
  {
    var t := InvoiceTotals(order).value;
    assert t.amountPaid == t.grandTotal;
    PaidInFull(t.grandTotal);
  }

  /** Paying exactly the total leaves nothing to pay. */
  lemma PaidInFull(total: Value)
    requires ToNumber(total).Finite?
    ensures BalanceDue(total, total) == Finite(0)
  {
  }

  /** An order that carries only its items (no subtotal, total, discount,
      delivery or payment fields) is billed the sum of its lines and owes
      nothing more, when every line is a number. */
  lemma ItemsOnlyOrder(order: Value, items: seq<Value>)
    requires Get(order, "items") == Arr(items)
    requires IsNullish(Get(order, "subtotal")) && IsNullish(Get(order, "total"))
    requires forall i | 0 <= i < 3 :: IsNullish(Get(order, DiscountKeys[i]))
    requires forall i | 0 <= i < 3 :: IsNullish(Get(order, DeliveryKeys[i]))
    requires forall i | 0 <= i < 3 :: IsNullish(Get(order, PaidKeys[i]))
    requires Money.SumLines(items, LineBase).Returns? && Money.SumLines(items, LineBase).value.Finite?
    ensures InvoiceTotals(order).Returns?
    ensures InvoiceTotals(order).value.grandTotal == Num(Money.SumLines(items, LineBase).value)
    ensures InvoiceTotals(order).value.balanceDue == Finite(0)
  {
    var sum := Money.SumLines(items, LineBase).value;
    assert Subtotal(order) == Returns(Num(sum));
    ItemsOnlyGrandTotal(order, sum);
  }

  lemma ItemsOnlyGrandTotal(order: Value, sum: Number)
    requires sum.Finite? && Subtotal(order) == Returns(Num(sum))
    requires IsNullish(Get(order, "total"))
    requires forall i | 0 <= i < 3 :: IsNullish(Get(order, DiscountKeys[i]))
    requires forall i | 0 <= i < 3 :: IsNullish(Get(order, DeliveryKeys[i]))
    ensures GrandTotalAsWritten(order, Num(sum)) == Num(sum)
  {
    assert Delivery(order) == Int(0);
    assert Discount(order) == Int(0);
  }

  // ---------------------------------------------------------------------------
  // Header fields

  /** The invoice number: the order's `invoiceNumber`, else its `orderId`,
      else its `_id`, else the order id of the route. */
  function InvoiceNumber(order: Value, routeOrderId: Value): (r: Value)
    ensures !IsNullish(Get(order, "invoiceNumber")) ==> r == Get(order, "invoiceNumber")
    ensures IsNullish(Get(order, "invoiceNumber")) && !IsNullish(Get(order, "orderId")) ==> r == Get(order, "orderId")
    ensures (IsNullish(Get(order, "invoiceNumber")) && IsNullish(Get(order, "orderId")) && !IsNullish(Get(order, "_id")))
              ==> r == Get(order, "_id")
    ensures (IsNullish(Get(order, "invoiceNumber")) && IsNullish(Get(order, "orderId")) && IsNullish(Get(order, "_id")))
              ==> r == routeOrderId
  {
    var keys := ["invoiceNumber", "orderId", "_id"];
    assert !IsNullish(Get(order, "invoiceNumber")) ==> FirstPresentAt(order, keys, 0);
    assert IsNullish(Get(order, "invoiceNumber")) && !IsNullish(Get(order, "orderId")) ==> FirstPresentAt(order, keys, 1);
    assert (IsNullish(Get(order, "invoiceNumber")) && IsNullish(Get(order, "orderId")) && !IsNullish(Get(order, "_id")))
             ==> FirstPresentAt(order, keys, 2);
    PickValue(order, keys, routeOrderId)
  }

  /** `(order.paymentMethod ?? "COD").toUpperCase()`: "COD" when missing,
      the upper-cased method when it is a string, and a throw otherwise. */
  function PaymentMethod(order: Value): (r: Outcome<string>)
    ensures IsNullish(Get(order, "paymentMethod")) ==> r == Returns("COD")
    ensures Get(order, "paymentMethod").Str? ==> r == Returns(Upper(Get(order, "paymentMethod").s))
    ensures r.Throws? <==> !IsNullish(Get(order, "paymentMethod")) && !Get(order, "paymentMethod").Str?
    ensures r.Returns? ==> forall i | 0 <= i < |r.value| :: !('a' <= r.value[i] <= 'z')
  {
    assert Upper("COD") == "COD" by {
      assert forall i | 0 <= i < 3 :: UpperChar("COD"[i]) == "COD"[i];
    }
    match Coalesce(Get(order, "paymentMethod"), Str("COD"))
    case Str(s) =>
      var u := Upper(s);
      assert forall i | 0 <= i < |u| :: u[i] == UpperChar(s[i]) && !('a' <= UpperChar(s[i]) <= 'z');
      Returns(u)
    case _ => Throws
  }

  /** Upper-casing is idempotent: an order whose method is already the
      displayed one displays the same. */
  lemma PaymentMethodStable(order: Value, again: Value)
    requires PaymentMethod(order).Returns?
    requires Get(again, "paymentMethod") == Str(PaymentMethod(order).value)
    ensures PaymentMethod(again) == PaymentMethod(order)
  {
    var m := PaymentMethod(order).value;
    assert Upper(m) == m by {
      assert forall i | 0 <= i < |m| :: UpperChar(m[i]) == m[i];
    }
  }

  // ---------------------------------------------------------------------------
  // Loading and rendering

  datatype Page = Page(order: Value, profile: Value, loading: bool, error: string)

  const InitialPage: Page := Page(Null, Null, true, "")

  /** The load of the order and the store profile, requested together.
      Without a token or an order id loading just stops. A load cancelled
      before it settles leaves loading on and the error cleared. Otherwise
      both records are stored (`null` when a response has no `data`), or
      the failure's message (with a default) becomes the error; loading
      stops either way. */
  function Load(p: Page, token: Value, orderId: Value, joint: Api.Joint, cancelled: bool): (r: Page)
    ensures !Truthy(token) || !Truthy(orderId) ==> r == p.(loading := false)
    ensures Truthy(token) && Truthy(orderId) && cancelled ==> r == p.(loading := true, error := "")
    ensures (Truthy(token) && Truthy(orderId) && !cancelled && joint.Loaded?) ==>
              r == Page(Coalesce(Get(joint.first, "data"), Null), Coalesce(Get(joint.second, "data"), Null), false, "")
    ensures (Truthy(token) && Truthy(orderId) && !cancelled && joint.Failed?) ==>
              && r.order == p.order && r.profile == p.profile && !r.loading
              && r.error == (if joint.message == "" then "Unable to load invoice details" else joint.message)
  {
    if !Truthy(token) || !Truthy(orderId) then p.(loading := false)
    else
      var started := p.(loading := true, error := "");
      if cancelled then started
      else
        match joint
        case Loaded(o, prof) =>
          started.(order := Coalesce(Get(o, "data"), Null), profile := Coalesce(Get(prof, "data"), Null), loading := false)
        case Failed(m) =>
          started.(error := if m == "" then "Unable to load invoice details" else m, loading := false)
  }

  datatype Screen = Preparing | NotAvailable | Document(order: Value, error: string)

  /** The spinner while loading, "Invoice not available." without an
      order, and otherwise the invoice (with the error banner inside it). */
  function Render(p: Page): (r: Screen)
    ensures p.loading <==> r == Preparing
    ensures !p.loading && !Truthy(p.order) <==> r == NotAvailable
    ensures r.Document? ==> r.order == p.order && r.error == p.error
  {
    if p.loading then Preparing
    else if !Truthy(p.order) then NotAvailable
    else Document(p.order, p.error)
  }

  /** A first load that fails never shows its error: the page has no order
      to render, so it says the invoice is not available. */
  lemma FailedFirstLoadHidesError(token: Value, orderId: Value, message: string)
    requires Truthy(token) && Truthy(orderId)
    ensures var r := Load(InitialPage, token, orderId, Api.Failed(message), false);
            r.error != "" && Render(r) == NotAvailable
  {
  }
}

=== FILE: js_value.dfy ===
/** The JavaScript values the dashboards read from the backend and from
    browser storage, and the handful of language rules the client code leans
    on: truthiness, nullish coalescing, optional property access, `String()`
    and `Number()` conversion, and the string methods the pages call.

    Numbers are integers or NaN: amounts are whole rupees, and fractional
    amounts and infinities are not modelled. */
module JsValue {

  /** A JavaScript number: a finite integer or NaN. */
  datatype Number = Finite(v: int) | NaN

  /** A JavaScript value as the pages see it. Objects are maps from property
      names to values; `Undefined` is also what a missing property reads as. */
  datatype Value =
    | Undefined
    | Null
    | Bool(b: bool)
    | Num(n: Number)
    | Str(s: string)
    | Arr(elems: seq<Value>)
    | Obj(fields: map<string, Value>)

  /** The result of evaluating an expression that can raise a TypeError
      (reading a property of `null`/`undefined`, calling a missing method). */
  datatype Outcome<+T> = Returns(value: T) | Throws

  datatype Option<+T> = None | Some(value: T)

  predicate IsNullish(v: Value) {
    v.Undefined? || v.Null?
  }

  /** JavaScript truthiness: `undefined`, `null`, `false`, `0`, `NaN` and
      `""` are falsy; every array and object is truthy. */
  predicate Truthy(v: Value) {
    match v
    case Undefined => false
    case Null => false
    case Bool(b) => b
    case Num(n) => n.Finite? && n.v != 0
    case Str(s) => s != ""
    case Arr(_) => true
    case Obj(_) => true
  }

  /** `v?.[key]`: the property of an object, and `undefined` for anything
      else (a primitive has none of the properties the pages ask for). */
  function Get(v: Value, key: string): (r: Value)
    ensures v.Obj? && key in v.fields ==> r == v.fields[key]
    ensures !(v.Obj? && key in v.fields) ==> r.Undefined?
  {
    match v
    case Obj(fs) => if key in fs then fs[key] else Undefined
    case _ => Undefined
  }

  /** `v.key` without optional chaining: it throws on `null`/`undefined`. */
  function Member(v: Value, key: string): (r: Outcome<Value>)
    ensures r.Throws? <==> IsNullish(v)
    ensures r.Returns? ==> r.value == Get(v, key)
  {
    if IsNullish(v) then Throws else Returns(Get(v, key))
  }

  /** `a ?? b` */
  function Coalesce(a: Value, b: Value): Value {
    if IsNullish(a) then b else a
  }

  /** `a || b` */
  function Or(a: Value, b: Value): Value {
    if Truthy(a) then a else b
  }

  const EmptyObject: Value := Obj(map[])

  function Int(n: int): Value {
    Num(Finite(n))
  }

  /** The own enumerable properties `{...v}` copies: those of an object,
      the indices of an array or a string (a string contributes its
      characters), and none for `null`, `undefined`, booleans and numbers. */
  function Spread(v: Value): (r: map<string, Value>)
    ensures v.Obj? ==> r == v.fields
    ensures v.Arr? ==> r.Keys == IndexKeys(|v.elems|)
    ensures v.Arr? ==> forall i | 0 <= i < |v.elems| :: r[NatToString(i)] == v.elems[i]
    ensures v.Str? ==> r.Keys == IndexKeys(|v.s|)
    ensures v.Str? ==> forall i | 0 <= i < |v.s| :: r[NatToString(i)] == Str([v.s[i]])
    ensures !v.Obj? && !v.Arr? && !v.Str? ==> r == map[]
  {
    match v
    case Obj(fs) => fs
    case Arr(es) => Indexed(es, |es|)
    case Str(s) => Indexed(seq(|s|, i requires 0 <= i < |s| => Str([s[i]])), |s|)
    case _ => map[]
  }

  /** The decimal names of the indices below `n`. */
  ghost function IndexKeys(n: nat): set<string> {
    set i | 0 <= i < n :: NatToString(i)
  }

  /** The properties "0", "1", ..., "n-1" of an array-like value. */
  function Indexed(es: seq<Value>, n: nat): (r: map<string, Value>)
    requires n <= |es|
    ensures r.Keys == IndexKeys(n)
    ensures forall i | 0 <= i < n :: r[NatToString(i)] == es[i]
  {
    if n == 0 then map[]
    else
      var m := Indexed(es, n - 1);
      assert IndexKeys(n) == IndexKeys(n - 1) + {NatToString(n - 1)};
      forall i | 0 <= i < n - 1 ensures NatToString(i) != NatToString(n - 1) {
        NatToStringInjective(i, n - 1);
      }
      m[NatToString(n - 1) := es[n - 1]]
  }

  /** Distinct indices have distinct names. */
  lemma NatToStringInjective(i: nat, j: nat)
    ensures NatToString(i) == NatToString(j) ==> i == j
  {
    DigitsOfNat(i);
    DigitsOfNat(j);
  }

  // ---------------------------------------------------------------------------
  // Number arithmetic (NaN propagates)

  function Add(a: Number, b: Number): Number {
    if a.Finite? && b.Finite? then Finite(a.v + b.v) else NaN
  }

  function Sub(a: Number, b: Number): Number {
    if a.Finite? && b.Finite? then Finite(a.v - b.v) else NaN
  }

  function Mul(a: Number, b: Number): Number {
    if a.Finite? && b.Finite? then Finite(a.v * b.v) else NaN
  }

  /** `Math.max(a, b)`: NaN when either argument is NaN. */
  function Max(a: Number, b: Number): Number {
    if a.Finite? && b.Finite? then Finite(if a.v < b.v then b.v else a.v) else NaN
  }

  // ---------------------------------------------------------------------------
  // Characters and strings

  predicate IsDigit(c: char) {
    '0' <= c <= '9'
  }

  predicate IsAsciiLetter(c: char) {
    ('a' <= c <= 'z') || ('A' <= c <= 'Z')
  }

  /** The characters `\w` matches in a regular expression without the `u`
      flag. */
  predicate IsWordChar(c: char) {
    IsAsciiLetter(c) || IsDigit(c) || c == '_'
  }

  /** The characters `String.prototype.trim` removes: the JavaScript
      WhiteSpace and LineTerminator code points. */
  predicate IsSpace(c: char) {
    var n := c as int;
    n == 0x09 || n == 0x0A || n == 0x0B || n == 0x0C || n == 0x0D || n == 0x20
    || n == 0xA0 || n == 0x1680 || (0x2000 <= n <= 0x200A) || n == 0x2028
    || n == 0x2029 || n == 0x202F || n == 0x205F || n == 0x3000 || n == 0xFEFF
  }

  function LowerChar(c: char): char {
    if 'A' <= c <= 'Z' then (c as int + 32) as char else c
  }

  function UpperChar(c: char): char {
    if 'a' <= c <= 'z' then (c as int - 32) as char else c
  }

  /** `toLowerCase`, on ASCII letters. */
  function Lower(s: string): (r: string)
    ensures |r| == |s|
    ensures forall i | 0 <= i < |s| :: r[i] == LowerChar(s[i])
  {
    seq(|s|, i requires 0 <= i < |s| => LowerChar(s[i]))
  }

  /** `toUpperCase`, on ASCII letters. */
  function Upper(s: string): (r: string)
    ensures |r| == |s|
    ensures forall i | 0 <= i < |s| :: r[i] == UpperChar(s[i])
  {
    seq(|s|, i requires 0 <= i < |s| => UpperChar(s[i]))
  }

  /** `s` without its leading white space. */
  function TrimStart(s: string): string {
    if |s| > 0 && IsSpace(s[0]) then TrimStart(s[1..]) else s
  }

  lemma {:induction false} TrimStartSpec(s: string)
    ensures var r := TrimStart(s);
            && |r| <= |s| && r == s[|s| - |r|..]
            && (r == [] || !IsSpace(r[0]))
            && (forall i | 0 <= i < |s| - |r| :: IsSpace(s[i]))
    decreases |s|
  {
    if |s| > 0 && IsSpace(s[0]) {
      TrimStartSpec(s[1..]);
    }
  }

  function TrimEnd(s: string): (r: string)
    ensures |r| <= |s| && r == s[..|r|]
    ensures r == [] || !IsSpace(r[|r| - 1])
    ensures forall i | |r| <= i < |s| :: IsSpace(s[i])
  {
    if |s| > 0 && IsSpace(s[|s| - 1]) then TrimEnd(s[..|s| - 1]) else s
  }

  /** `String.prototype.trim`: drops leading and trailing white space and
      nothing else. */
  function Trim(s: string): (r: string)
    ensures r == [] || (!IsSpace(r[0]) && !IsSpace(r[|r| - 1]))
    ensures exists a, b | 0 <= a <= b <= |s| :: r == s[a..b]
              && (forall i | 0 <= i < a :: IsSpace(s[i]))
              && (forall i | b <= i < |s| :: IsSpace(s[i]))
  {
    var t := TrimStart(s);
    TrimStartSpec(s);
    var r := TrimEnd(t);
    assert r == s[|s| - |t|..|s| - |t| + |r|];
    r
  }

  /** `hay.includes(needle)` */
  predicate Contains(hay: string, needle: string) {
    exists i | 0 <= i <= |hay| :: OccursAt(hay, needle, i)
  }

  predicate OccursAt(hay: string, needle: string, i: int) {
    0 <= i <= |hay| - |needle| && hay[i..i + |needle|] == needle
  }

  /** `s.startsWith(prefix)` */
  predicate StartsWith(s: string, prefix: string) {
    |prefix| <= |s| && s[..|prefix|] == prefix
  }

  /** `parts.join(sep)` */
  function Join(parts: seq<string>, sep: string): string {
    if |parts| == 0 then ""
    else if |parts| == 1 then parts[0]
    else parts[0] + sep + Join(parts[1..], sep)
  }

  function DigitChar(d: int): char
    requires 0 <= d < 10
  {
    ('0' as int + d) as char
  }

  function NatToString(n: nat): (r: string)
    ensures |r| > 0
    ensures forall i | 0 <= i < |r| :: IsDigit(r[i])
  {
    if n < 10 then [DigitChar(n)] else NatToString(n / 10) + [DigitChar(n % 10)]
  }

  function IntToString(n: int): string {
    if n < 0 then "-" + NatToString(-n) else NatToString(n)
  }

  /** `String(v)`, which is also what a template literal and
      `v.toString()` produce for the values the pages see. */
  function ToDisplayString(v: Value): string {
    match v
    case Undefined => "undefined"
    case Null => "null"
    case Bool(b) => if b then "true" else "false"
    case Num(n) => if n.NaN? then "NaN" else IntToString(n.v)
    case Str(s) => s
    case Arr(es) => Join(seq(|es|, i requires 0 <= i < |es| =>
                          if IsNullish(es[i]) then "" else ToDisplayString(es[i])), ",")
    case Obj(_) => "[object Object]"
  }

  function DigitsValue(s: string): (r: int)
    requires forall i | 0 <= i < |s| :: IsDigit(s[i])
    ensures r >= 0
  {
    if |s| == 0 then 0
    else
      assert IsDigit(s[|s| - 1]);
      DigitsValue(s[..|s| - 1]) * 10 + (s[|s| - 1] as int - '0' as int)
  }

  predicate AllDigits(s: string) {
    |s| > 0 && forall i | 0 <= i < |s| :: IsDigit(s[i])
  }

  /** `Number(s)` for a string: white space around an optionally signed run
      of decimal digits; the empty string is 0; anything else is NaN. */
  function ParseNumber(s: string): Number {
    var t := Trim(s);
    if t == "" then Finite(0)
    else if AllDigits(t) then Finite(DigitsValue(t))
    else if t[0] == '-' && AllDigits(t[1..]) then Finite(-DigitsValue(t[1..]))
    else if t[0] == '+' && AllDigits(t[1..]) then Finite(DigitsValue(t[1..]))
    else NaN
  }

  /** `Number(v)`: an array is read through its text, as JavaScript does,
      so `[]` is 0 and `[7]` is 7. */
  function ToNumber(v: Value): (r: Number)
    ensures v.Num? ==> r == v.n
    ensures v.Null? || v == Bool(false) ==> r == Finite(0)
    ensures v == Bool(true) ==> r == Finite(1)
    ensures v.Undefined? || v.Obj? ==> r.NaN?
    ensures v == Arr([]) ==> r == Finite(0)
  {
    match v
    case Undefined => NaN
    case Null => Finite(0)
    case Bool(b) => Finite(if b then 1 else 0)
    case Num(n) => n
    case Str(s) => ParseNumber(s)
    case Arr(_) => ParseNumber(ToDisplayString(v))
    case Obj(_) => NaN
  }

  /** The longest run of decimal digits at the start of `s`. */
  function LeadingDigits(s: string): (r: string)
    ensures |r| <= |s| && r == s[..|r|]
    ensures forall i | 0 <= i < |r| :: IsDigit(r[i])
    ensures |r| == |s| || !IsDigit(s[|r|])
  {
    if |s| > 0 && IsDigit(s[0]) then [s[0]] + LeadingDigits(s[1..]) else ""
  }

  /** `parseInt(v)`: the decimal integer at the start of `String(v)` after
      leading white space and an optional sign; NaN when no digit follows. */
  function ParseInt(v: Value): (r: Number)
  {
    var t := TrimStart(ToDisplayString(v));
    var negative := |t| > 0 && t[0] == '-';
    var rest := if |t| > 0 && (t[0] == '-' || t[0] == '+') then t[1..] else t;
    var digits := LeadingDigits(rest);
    if digits == "" then NaN
    else Finite(if negative then -DigitsValue(digits) else DigitsValue(digits))
  }

  /** Reading back a number's decimal digits gives the number. */
  lemma {:induction false} DigitsOfNat(n: nat)
    ensures DigitsValue(NatToString(n)) == n
    decreases n
  {
    if n >= 10 {
      var s := NatToString(n);
      assert s[..|s| - 1] == NatToString(n / 10);
      DigitsOfNat(n / 10);
    }
  }

  /** `parseInt` reads back any integer number value. */
  lemma ParseIntOfInt(n: int)
    ensures ParseInt(Int(n)) == Finite(n)
  {
    var s := ToDisplayString(Int(n));
    var digits := NatToString(if n < 0 then -n else n);
    assert !IsSpace(s[0]);
    assert TrimStart(s) == s;
    var rest := if n < 0 then s[1..] else s;
    assert rest == digits;
    assert LeadingDigits(rest) == digits;
    DigitsOfNat(if n < 0 then -n else n);
  }

  /** A one-element array of a number reads as that number. */
  lemma NumberOfSingletonArray(n: int)
    ensures ToNumber(Arr([Int(n)])) == Finite(n)
  {
    assert ToDisplayString(Arr([Int(n)])) == IntToString(n);
    ParseDisplayedInt(n);
  }

  /** `Number` reads back the text `String` prints for any integer. */
  lemma NumberOfDisplayedInt(n: int)
    ensures ToNumber(Str(ToDisplayString(Int(n)))) == Finite(n)
  {
    ParseDisplayedInt(n);
  }

  lemma ParseDisplayedInt(n: int)
    ensures ParseNumber(IntToString(n)) == Finite(n)
  {
    var s := IntToString(n);
    var m: nat := if n < 0 then -n else n;
    var digits := NatToString(m);
    assert !IsSpace(s[0]) && !IsSpace(s[|s| - 1]);
    assert TrimStart(s) == s;
    assert TrimEnd(s) == s;
    assert Trim(s) == s;
    DigitsOfNat(m);
    if n < 0 {
      assert s[1..] == digits;
      assert !IsDigit(s[0]);
    } else {
      assert s == digits;
    }
  }

  /** `a === b` on the values the pages compare: NaN equals nothing, other
      values compare by content (object identity is not modelled). */
  predicate StrictEquals(a: Value, b: Value) {
    a != Num(NaN) && b != Num(NaN) && a == b
  }

  // ---------------------------------------------------------------------------
  // Mapping over arrays whose callbacks can throw

  /** `[0, n).map(f)` where a callback may throw: the array of results, or
      the exception when any callback throws. */
  function MapAll<T>(n: nat, f: nat -> Outcome<T>): (r: Outcome<seq<T>>)
    ensures r.Throws? <==> exists i | 0 <= i < n :: f(i).Throws?
    ensures r.Returns? ==> |r.value| == n && forall i | 0 <= i < n :: f(i) == Returns(r.value[i])
    decreases n
  {
    if n == 0 then Returns([])
    else
      match MapAll(n - 1, f)
      case Throws => Throws
      case Returns(prefix) =>
        match f(n - 1)
        case Throws => Throws
        case Returns(x) => Returns(prefix + [x])
  }

  /** `xs.map((x, i) => ...)` where the callback reads a property of `x`
      without optional chaining: it throws as soon as an element is `null`
      or `undefined`. */
  function MapRecords<T>(xs: seq<Value>, f: (nat, Value) -> T): (r: Outcome<seq<T>>)
    ensures r.Throws? <==> exists i | 0 <= i < |xs| :: IsNullish(xs[i])
    ensures r.Returns? ==> |r.value| == |xs| && forall i | 0 <= i < |xs| :: r.value[i] == f(i, xs[i])
  {
    var g := (i: nat) => if i < |xs| && !IsNullish(xs[i]) then Returns(f(i, xs[i])) else Throws;
    assert forall i | 0 <= i < |xs| :: g(i).Throws? <==> IsNullish(xs[i]);
    MapAll(|xs|, g)
  }
}

=== FILE: lists.dfy ===
/** Sequence helpers shared by the list views: `Array.prototype.filter` and
    the order-preserving subsequence relation it establishes. */
module Lists {

  /** `a` can be obtained from `b` by deleting elements, keeping the order. */
  ghost predicate IsSubsequence<T>(a: seq<T>, b: seq<T>)
    decreases |b|
  {
    if |a| == 0 then true
    else if |b| == 0 then false
    else (a[0] == b[0] && IsSubsequence(a[1..], b[1..])) || IsSubsequence(a, b[1..])
  }

  /** `xs.filter(p)`: exactly the elements satisfying `p`, in their order. */
  function Filter<T(==)>(xs: seq<T>, p: T -> bool): (r: seq<T>)
    ensures |r| <= |xs|
    ensures forall x | x in r :: x in xs && p(x)
    ensures forall i | 0 <= i < |xs| && p(xs[i]) :: xs[i] in r
    ensures IsSubsequence(r, xs)
    ensures (forall i | 0 <= i < |xs| :: p(xs[i])) ==> r == xs
    ensures (forall i | 0 <= i < |xs| :: !p(xs[i])) ==> r == []
    ensures NoDuplicates(xs) ==> NoDuplicates(r)
  {
    if |xs| == 0 then []
    else if p(xs[0]) then [xs[0]] + Filter(xs[1..], p)
    else Filter(xs[1..], p)
  }

  /** Number of positions of `xs` holding `x`. */
  function Count<T(==)>(xs: seq<T>, x: T): (n: nat)
    ensures n > 0 <==> x in xs
  {
    if |xs| == 0 then 0 else (if xs[0] == x then 1 else 0) + Count(xs[1..], x)
  }

  /** No value occurs twice. */
  predicate NoDuplicates<T(==)>(xs: seq<T>) {
    forall i, j | 0 <= i < j < |xs| :: xs[i] != xs[j]
  }

  /** Filtering keeps every occurrence of a value that passes the test and
      none of one that does not. */
  lemma {:induction false} CountFilter<T>(xs: seq<T>, p: T -> bool, x: T)
    ensures Count(Filter(xs, p), x) == if p(x) then Count(xs, x) else 0
    decreases |xs|
  {
    if |xs| > 0 {
      CountFilter(xs[1..], p, x);
      if p(xs[0]) {
        var r := [xs[0]] + Filter(xs[1..], p);
        assert r[0] == xs[0] && r[1..] == Filter(xs[1..], p);
      }
    }
  }

  /** Filtering distributes over concatenation. */
  lemma {:induction false} FilterAppend<T>(a: seq<T>, b: seq<T>, p: T -> bool)
    ensures Filter(a + b, p) == Filter(a, p) + Filter(b, p)
    decreases |a|
  {
    if |a| > 0 {
      assert (a + b)[0] == a[0];
      assert (a + b)[1..] == a[1..] + b;
      FilterAppend(a[1..], b, p);
    } else {
      assert a + b == b;
    }
  }
}

=== FILE: money.dfy ===
/** Order money as the pharmacy pages compute it: a running sum over an
    order's items that reads a property of every item, so it throws at the
    first `null`/`undefined` item; NaN propagates through the sum. */
module Money {
  import opened JsValue

  /** `items.reduce((sum, item) => sum + line(item), 0)` where `line` reads
      a property of `item` without optional chaining. */
  function SumLines(items: seq<Value>, line: Value -> Number): (r: Outcome<Number>)
    ensures r.Throws? <==> exists i | 0 <= i < |items| :: IsNullish(items[i])
    ensures |items| == 0 ==> r == Returns(Finite(0))
    decreases |items|
  {
    if |items| == 0 then Returns(Finite(0))
    else
      var prefix := items[..|items| - 1];
      var last := items[|items| - 1];
      assert forall i | 0 <= i < |prefix| :: prefix[i] == items[i];
      match SumLines(prefix, line)
      case Throws => Throws
      case Returns(s) => if IsNullish(last) then Throws else Returns(Add(s, line(last)))
  }

  /** The sum of two partial sums, throwing when either part threw. */
  function Combine(a: Outcome<Number>, b: Outcome<Number>): (r: Outcome<Number>)
    ensures r.Throws? <==> a.Throws? || b.Throws?
  {
    if a.Returns? && b.Returns? then Returns(Add(a.value, b.value)) else Throws
  }

  /** Summing a concatenation sums the two halves. */
  lemma {:induction false} SumLinesSplit(a: seq<Value>, b: seq<Value>, line: Value -> Number)
    ensures SumLines(a + b, line) == Combine(SumLines(a, line), SumLines(b, line))
    decreases |b|
  {
    if |b| == 0 {
      assert a + b == a;
    } else {
      var b' := b[..|b| - 1];
      assert (a + b)[..|a + b| - 1] == a + b';
      assert (a + b)[|a + b| - 1] == b[|b| - 1];
      SumLinesSplit(a, b', line);
    }
  }

  /** The order of the items does not change the sum. */
  lemma SumLinesReorder(a: seq<Value>, b: seq<Value>, line: Value -> Number)
    ensures SumLines(a + b, line) == SumLines(b + a, line)
  {
    SumLinesSplit(a, b, line);
    SumLinesSplit(b, a, line);
  }

  /** Two line functions that agree on every non-nullish item give the same
      sum. */
  lemma {:induction false} SumLinesCongruent(items: seq<Value>, f: Value -> Number, g: Value -> Number)
    requires forall i | 0 <= i < |items| && !IsNullish(items[i]) :: f(items[i]) == g(items[i])
    ensures SumLines(items, f) == SumLines(items, g)
    decreases |items|
  {
    if |items| > 0 {
      var prefix := items[..|items| - 1];
      assert forall i | 0 <= i < |prefix| :: prefix[i] == items[i];
      SumLinesCongruent(prefix, f, g);
    }
  }
}

=== FILE: onboarding.dfy ===
/** The onboarding section: the verification status badge, the doctor id
    taken from the overview, the verification request, the detail rows and
    document markers, and which of the four screens is shown. */
module Onboarding {
  import opened JsValue
  import Api

  // ---------------------------------------------------------------------------
  // Status badge

  /** `s.replace(from, to)` with a one-character pattern: only the first
      occurrence is replaced. */
  function ReplaceFirst(s: string, from: char, to: char): (r: string)
    ensures |r| == |s|
    ensures forall j | 0 <= j < |s| :: r[j] == (if s[j] == from && from !in s[..j] then to else s[j])
  {
    if |s| == 0 then s
    else if s[0] == from then
      assert forall j | 0 < j < |s| :: s[..j][0] == from;
      [to] + s[1..]
    else
      var rest := ReplaceFirst(s[1..], from, to);
      PrefixAfterHead(s, from);
      [s[0]] + rest
  }

  /** Past a head that is not `from`, `from` occurs in a prefix of `s` iff
      it occurs in the matching prefix of the tail. */
  lemma PrefixAfterHead(s: string, from: char)
    requires |s| > 0 && s[0] != from
    ensures forall j | 1 <= j <= |s| :: (from in s[..j] <==> from in s[1..][..j - 1])
  {
    forall j | 1 <= j <= |s| ensures from in s[..j] <==> from in s[1..][..j - 1] {
      assert s[..j] == [s[0]] + s[1..][..j - 1];
    }
  }

  /** Only the first occurrence is replaced: a pattern-free string is left
      alone, and everything but that one position is unchanged. */
  lemma ReplaceFirstOnlyFirst(s: string, from: char, to: char)
    ensures from !in s ==> ReplaceFirst(s, from, to) == s
    ensures forall i | 0 <= i < |s| && s[i] == from && from !in s[..i] ::
              ReplaceFirst(s, from, to) == s[..i] + [to] + s[i + 1..]
  {
    if from !in s {
      NoPatternUnchanged(s, from, to);
    }
    forall i | 0 <= i < |s| && s[i] == from && from !in s[..i]
      ensures ReplaceFirst(s, from, to) == s[..i] + [to] + s[i + 1..]
    {
      FirstOccurrenceReplaced(s, from, to, i);
    }
  }

  lemma NoPatternUnchanged(s: string, from: char, to: char)
    requires from !in s
    ensures ReplaceFirst(s, from, to) == s
  {
    var r := ReplaceFirst(s, from, to);
    assert forall j | 0 <= j < |s| :: r[j] == s[j];
  }

  lemma FirstOccurrenceReplaced(s: string, from: char, to: char, i: nat)
    requires i < |s| && s[i] == from && from !in s[..i]
    ensures ReplaceFirst(s, from, to) == s[..i] + [to] + s[i + 1..]
  {
    var r := ReplaceFirst(s, from, to);
    var expected := s[..i] + [to] + s[i + 1..];
    assert |expected| == |r|;
    forall j | 0 <= j < |s| ensures r[j] == expected[j] {
      if j < i {
        assert s[j] in s[..i];
        assert expected[j] == s[j];
      } else if j == i {
        assert expected[j] == to;
      } else {
        assert s[..j][i] == from;
        assert expected[j] == s[j];
      }
    }
  }

  /** The badge text: a missing status is "UNKNOWN"; a string status has
      its first "_" replaced by a space and is upper-cased; any other
      truthy status has no `replace` method, so rendering throws. */
  function BadgeLabel(status: Value): (r: Outcome<string>)
    ensures !Truthy(status) ==> r == Returns("UNKNOWN")
    ensures Truthy(status) && status.Str? ==> r == Returns(Upper(ReplaceFirst(status.s, '_', ' ')))
    ensures r.Throws? <==> Truthy(status) && !status.Str?
  {
    if !Truthy(status) then Returns("UNKNOWN")
    else if status.Str? then Returns(Upper(ReplaceFirst(status.s, '_', ' ')))
    else Throws
  }

  const FallbackStyle: string := "bg-slate-100 text-slate-700 border-slate-200"

  /** The four statuses with a style of their own. */
  const StatusStyles: map<string, string> := map[
    "pending" := "bg-amber-100 text-amber-700 border-amber-200",
    "approved" := "bg-emerald-100 text-emerald-700 border-emerald-200",
    "rejected" := "bg-rose-100 text-rose-700 border-rose-200",
    "under_review" := "bg-blue-100 text-blue-700 border-blue-200"]

  /** The badge style: looked up by the status as a property name; every
      other status gets the fallback. */
  function BadgeStyle(status: Value): (r: string)
    ensures ToDisplayString(status) in StatusStyles ==> r == StatusStyles[ToDisplayString(status)]
    ensures ToDisplayString(status) !in StatusStyles ==> r == FallbackStyle
    ensures r != FallbackStyle <==>
              ToDisplayString(status) in {"pending", "approved", "rejected", "under_review"}
  {
    var key := ToDisplayString(status);
    if key in StatusStyles && StatusStyles[key] != "" then StatusStyles[key] else FallbackStyle
  }

  // ---------------------------------------------------------------------------
  // Doctor id and the verification request

  /** The doctor id effect: nothing happens for a falsy overview; otherwise
      the first truthy of the overview doctor's `_id` and `id` and the
      overview's `doctorId` and `_id` (the last one even when falsy). */
  function DoctorIdFromOverview(overview: Value): (r: Option<Value>)
    ensures !Truthy(overview) <==> r.None?
    ensures r.Some? ==>
              var doctor := Coalesce(Get(overview, "doctor"), EmptyObject);
              && (Truthy(Get(doctor, "_id")) ==> r.value == Get(doctor, "_id"))
              && (!Truthy(Get(doctor, "_id")) && Truthy(Get(doctor, "id")) ==> r.value == Get(doctor, "id"))
              && ((!Truthy(Get(doctor, "_id")) && !Truthy(Get(doctor, "id")) && Truthy(Get(overview, "doctorId")))
                    ==> r.value == Get(overview, "doctorId"))
              && ((!Truthy(Get(doctor, "_id")) && !Truthy(Get(doctor, "id")) && !Truthy(Get(overview, "doctorId")))
                    ==> r.value == Get(overview, "_id"))
  {
    if !Truthy(overview) then None
    else
      var doctor := Coalesce(Get(overview, "doctor"), EmptyObject);
      Some(Or(Or(Or(Get(doctor, "_id"), Get(doctor, "id")), Get(overview, "doctorId")), Get(overview, "_id")))
  }

  datatype Page = Page(verification: Value, loading: bool, error: string, doctorId: Value)

  /** The initial page: spinner on, no record, no id. */
  const InitialPage: Page := Page(Null, true, "", Null)

  /** The verification request: skipped without a token or a doctor id (the
      page is left as it is, so the spinner stays); otherwise the record is
      the response's `data` or the response itself, and a failure sets the
      error; loading ends either way. */
  function FetchVerification(p: Page, token: Value, reply: Api.Reply): (r: (Page, bool))
    ensures !Truthy(token) || !Truthy(p.doctorId) ==> r == (p, false)
    ensures Truthy(token) && Truthy(p.doctorId) ==> r.1 && !r.0.loading && r.0.doctorId == p.doctorId
    ensures (Truthy(token) && Truthy(p.doctorId) && reply.Resolved?) ==>
              r.0.verification == Or(Get(reply.data, "data"), reply.data) && r.0.error == p.error
    ensures (Truthy(token) && Truthy(p.doctorId) && reply.Rejected?) ==>
              && r.0.verification == p.verification
              && r.0.error == (if reply.message == "" then "Failed to load verification details" else reply.message)
  {
    if !Truthy(token) || !Truthy(p.doctorId) then (p, false)
    else
      match reply
      case Resolved(body) => (p.(verification := Or(Get(body, "data"), body), loading := false), true)
      case Rejected(m) =>
        (p.(error := if m == "" then "Failed to load verification details" else m, loading := false), true)
  }

  // ---------------------------------------------------------------------------
  // Rendering

  datatype Screen = Spinner | ErrorBox(message: string) | NoRecord | Details(verification: Value)

  /** Which screen is shown: loading first, then an error, then a missing
      record, then the details. */
  function Render(p: Page): (r: Screen)
    ensures p.loading ==> r == Spinner
    ensures !p.loading && p.error != "" ==> r == ErrorBox(p.error)
    ensures !p.loading && p.error == "" && !Truthy(p.verification) ==> r == NoRecord
    ensures r.Details? <==> !p.loading && p.error == "" && Truthy(p.verification)
  {
    if p.loading then Spinner
    else if p.error != "" then ErrorBox(p.error)
    else if !Truthy(p.verification) then NoRecord
    else Details(p.verification)
  }

  /** Without a token the onboarding page never leaves the spinner. */
  lemma NoTokenKeepsSpinner(p: Page, reply: Api.Reply)
    requires p.loading
    ensures Render(FetchVerification(p, Null, reply).0) == Spinner
  {
  }

  /** A successful request with a truthy record shows the details. */
  lemma LoadedRecordShowsDetails(p: Page, token: Value, body: Value)
    requires Truthy(token) && Truthy(p.doctorId) && p.error == ""
    requires Truthy(Or(Get(body, "data"), body))
    ensures Render(FetchVerification(p, token, Api.Resolved(body)).0).Details?
  {
  }

  /** A detail row shows the value, or "—" for a falsy one. */
  function DetailRow(value: Value): (r: Value)
    ensures Truthy(value) ==> r == value
    ensures !Truthy(value) ==> r == Str("—")
  {
    Or(value, Str("—"))
  }

  /** A document is marked uploaded exactly when its file is truthy. */
  function DocumentStatus(file: Value): (r: string)
    ensures r == "Uploaded" <==> Truthy(file)
    ensures r == "Pending" <==> !Truthy(file)
  {
    if Truthy(file) then "Uploaded" else "Pending"
  }
}

=== FILE: order_details.dfy ===
/** The pharmacy order details page: the six statuses an order can be set
    to, the load of the order, the status change with its loader calls,
    the items' subtotal and the displayed total and payment method. */
module OrderDetails {
  import opened JsValue
  import Money
  import Api
  import GlobalLoader
  import PrescriptionOrders
  import Invoice

  datatype StatusOption = StatusOption(id: string, caption: string)

  /** The choices of the status selector, in workflow order. */
  const StatusOptions: seq<StatusOption> := [
    StatusOption("pending", "Pending"),
    StatusOption("processing", "Processing"),
    StatusOption("ready_for_delivery", "Ready for Delivery"),
    StatusOption("out_for_delivery", "Out for Delivery"),
    StatusOption("delivered", "Delivered"),
    StatusOption("cancelled", "Cancelled")]

  /** The selector offers exactly the six statuses the order list filters
      by, in the same order, each captioned as the order list labels it. */
  lemma StatusOptionsMatchOrderList()
    ensures |StatusOptions| == 6 && StatusOptions[0].id == "pending" && StatusOptions[5].id == "cancelled"
    ensures forall i | 0 <= i < |StatusOptions| ::
              && StatusOptions[i].id == PrescriptionOrders.FilterStatuses[i]
              && PrescriptionOrders.StatusLabel(Str(StatusOptions[i].id)) == StatusOptions[i].caption
    ensures forall i, j | 0 <= i < j < |StatusOptions| :: StatusOptions[i].id != StatusOptions[j].id
  {
    PrescriptionOrders.FilterStatusesLabelled();
    StatusOptionIdsDistinct();
  }

  /** The six status ids differ: by length, or else (for "delivered" and
      "cancelled") by their first letter. */
  lemma StatusOptionIdsDistinct()
    ensures forall i, j | 0 <= i < j < |StatusOptions| :: StatusOptions[i].id != StatusOptions[j].id
  {
    forall i, j | 0 <= i < j < |StatusOptions|
      ensures StatusOptions[i].id != StatusOptions[j].id
    {
      var a := StatusOptions[i].id;
      var b := StatusOptions[j].id;
      assert |a| != |b| || a[0] != b[0];
    }
  }

  // ---------------------------------------------------------------------------
  // Page state

  datatype Page = Page(order: Value, loading: bool, error: string)

  const InitialPage: Page := Page(Null, true, "")

  /** The load of the order: without a token or an order id loading just
      stops; a load cancelled before it settles leaves loading on and the
      error cleared; otherwise the response's `data` (or `null`) becomes
      the order, or the failure's message (with a default) the error. */
  function Load(p: Page, token: Value, orderId: Value, reply: Api.Reply, cancelled: bool): (r: Page)
    ensures !Truthy(token) || !Truthy(orderId) ==> r == p.(loading := false)
    ensures Truthy(token) && Truthy(orderId) && cancelled ==> r == p.(loading := true, error := "")
    ensures (Truthy(token) && Truthy(orderId) && !cancelled && reply.Resolved?) ==>
              r == Page(Coalesce(Get(reply.data, "data"), Null), false, "")
    ensures (Truthy(token) && Truthy(orderId) && !cancelled && reply.Rejected?) ==>
              && r.order == p.order && !r.loading
              && r.error == (if reply.message == "" then "Unable to load order" else reply.message)
  {
    if !Truthy(token) || !Truthy(orderId) then p.(loading := false)
    else
      var started := p.(loading := true, error := "");
      if cancelled then started
      else
        match reply
        case Resolved(body) => started.(order := Coalesce(Get(body, "data"), Null), loading := false)
        case Rejected(m) => started.(error := if m == "" then "Unable to load order" else m, loading := false)
  }

  /** The PATCH request a status change sends. */
  datatype StatusRequest = StatusRequest(path: string, body: Value)

  /** The order with its `status` replaced: `{ ...order, status }`. */
  function WithStatus(order: Value, status: Value): (r: Value)
    ensures Get(r, "status") == status
    ensures order.Obj? ==> forall k | k != "status" :: Get(r, k) == Get(order, k)
  {
    Obj(Spread(order)["status" := status])
  }

  /** `handleStatusChange`: nothing happens without an order id or a token.
      Otherwise the loader is shown and hidden once, the new status is
      sent, and on success a truthy order takes the new status (a missing
      order stays missing); on failure the order is kept and the error is
      set. Returns the page, the loader calls and the request sent. */
  function ChangeStatus(p: Page, orderId: Value, token: Value, newStatus: Value, reply: Api.Reply)
    : (r: (Page, seq<GlobalLoader.Signal>, Option<StatusRequest>))
    ensures !Truthy(orderId) || !Truthy(token) ==> r == (p, [], None)
    ensures Truthy(orderId) && Truthy(token) ==>
              && r.1 == [GlobalLoader.Show, GlobalLoader.Hide]
              && r.2 == Some(StatusRequest("/api/pharmacy/orders/" + ToDisplayString(orderId) + "/status",
                                          Obj(map["status" := newStatus])))
              && r.0.loading == p.loading
    ensures (Truthy(orderId) && Truthy(token) && reply.Resolved?) ==>
              && r.0.error == p.error
              && (Truthy(p.order) ==> r.0.order == WithStatus(p.order, newStatus))
              && (!Truthy(p.order) ==> r.0.order == p.order)
    ensures (Truthy(orderId) && Truthy(token) && reply.Rejected?) ==>
              && r.0.order == p.order
              && r.0.error == (if reply.message == "" then "Unable to update status" else reply.message)
  {
    if !Truthy(orderId) || !Truthy(token) then (p, [], None)
    else
      var request := StatusRequest("/api/pharmacy/orders/" + ToDisplayString(orderId) + "/status",
                                   Obj(map["status" := newStatus]));
      var settled :=
        match reply
        case Resolved(_) => p.(order := if Truthy(p.order) then WithStatus(p.order, newStatus) else p.order)
        case Rejected(m) => p.(error := if m == "" then "Unable to update status" else m);
      (settled, [GlobalLoader.Show, GlobalLoader.Hide], Some(request))
  }

  /** A successful change of an order record touches its status and nothing
      else. */
  lemma StatusChangeTouchesOnlyStatus(p: Page, orderId: Value, token: Value, newStatus: Value, data: Value)
    requires Truthy(orderId) && Truthy(token) && p.order.Obj?
    ensures var after := ChangeStatus(p, orderId, token, newStatus, Api.Resolved(data)).0.order;
            && Get(after, "status") == newStatus
            && forall k | k != "status" :: Get(after, k) == Get(p.order, k)
  {
  }

  /** Setting the same status twice is setting it once. */
  lemma StatusChangeIdempotent(p: Page, orderId: Value, token: Value, newStatus: Value, data: Value)
    requires Truthy(orderId) && Truthy(token)
    ensures var once := ChangeStatus(p, orderId, token, newStatus, Api.Resolved(data)).0;
            ChangeStatus(once, orderId, token, newStatus, Api.Resolved(data)).0 == once
  {
    var once := ChangeStatus(p, orderId, token, newStatus, Api.Resolved(data)).0;
    if Truthy(p.order) {
      var fs := Spread(p.order)["status" := newStatus];
      assert once.order == Obj(fs);
      assert fs["status" := newStatus] == fs;
    }
  }

  /** Whatever the outcome, a status change leaves the loader count where
      it found it. */
  lemma StatusChangeRestoresLoader(count: nat, p: Page, orderId: Value, token: Value, newStatus: Value,
                                   reply: Api.Reply)
    ensures GlobalLoader.Run(count, ChangeStatus(p, orderId, token, newStatus, reply).1) == count
  {
    var signals := ChangeStatus(p, orderId, token, newStatus, reply).1;
    if signals != [] {
      assert signals[1..] == [GlobalLoader.Hide] && signals[1..][1..] == [];
    }
  }

  // ---------------------------------------------------------------------------
  // Money

  /** `(item.price || 0) * (item.quantity || 0)` */
  function DetailLine(item: Value): (r: Number)
    ensures (&& (!Truthy(Get(item, "price")) || !Truthy(Get(item, "quantity")))
             && ToNumber(Or(Get(item, "price"), Int(0))).Finite?
             && ToNumber(Or(Get(item, "quantity"), Int(0))).Finite?)
              ==> r == Finite(0)
    ensures (Get(item, "price").Num? && Get(item, "price").n.Finite? &&
             Get(item, "quantity").Num? && Get(item, "quantity").n.Finite?) ==>
              r == Finite(Get(item, "price").n.v * Get(item, "quantity").n.v)
  {
    Mul(ToNumber(Or(Get(item, "price"), Int(0))), ToNumber(Or(Get(item, "quantity"), Int(0))))
  }

  /** `order?.items?.reduce(...)`: `undefined` when there is no order or no
      item list, a throw for an item list that is not an array or holds a
      `null`/`undefined` item, and otherwise the sum of the lines. */
  function Subtotal(order: Value): (r: Outcome<Value>)
    ensures IsNullish(Get(order, "items")) ==> r == Returns(Undefined)
    ensures Get(order, "items").Arr? ==>
              match Money.SumLines(Get(order, "items").elems, DetailLine)
              case Throws => r.Throws?
              case Returns(sum) => r == Returns(Num(sum))
    ensures r.Throws? ==> !IsNullish(Get(order, "items"))
  {
    match Get(order, "items")
    case Undefined => Returns(Undefined)
    case Null => Returns(Undefined)
    case Arr(items) =>
      (match Money.SumLines(items, DetailLine)
       case Throws => Throws
       case Returns(sum) => Returns(Num(sum)))
    case _ => Throws
  }

  /** `order.total ?? getSubtotal()`: the order's own total when present
      (the expression then does not sum the items), else the subtotal. */
  function TotalAmount(order: Value): (r: Outcome<Value>)
    ensures !IsNullish(Get(order, "total")) ==> r == Returns(Get(order, "total"))
    ensures IsNullish(Get(order, "total")) ==> r == Subtotal(order)
  {
    if !IsNullish(Get(order, "total")) then Returns(Get(order, "total")) else Subtotal(order)
  }

  /** An amount that is missing or a number. */
  predicate NumericOrMissing(v: Value) {
    IsNullish(v) || (v.Num? && v.n.Finite?)
  }

  /** On items whose prices and quantities are numbers or missing, this
      page's subtotal is the invoice's. */
  lemma SubtotalAgreesWithInvoice(items: seq<Value>)
    requires forall i | 0 <= i < |items| ::
               NumericOrMissing(Get(items[i], "price")) && NumericOrMissing(Get(items[i], "quantity"))
    ensures Money.SumLines(items, DetailLine) == Money.SumLines(items, Invoice.LineBase)
  {
    forall i | 0 <= i < |items| && !IsNullish(items[i])
      ensures DetailLine(items[i]) == Invoice.LineBase(items[i])
    {
      var price := Get(items[i], "price");
      var quantity := Get(items[i], "quantity");
      assert ToNumber(Or(price, Int(0))) == Invoice.Amount(price);
      assert ToNumber(Or(quantity, Int(0))) == Invoice.Amount(quantity);
    }
    Money.SumLinesCongruent(items, DetailLine, Invoice.LineBase);
  }

  /** `order.paymentMethod?.toUpperCase() ?? "COD"` */
  function PaymentLabel(order: Value): (r: Outcome<string>)
    ensures IsNullish(Get(order, "paymentMethod")) ==> r == Returns("COD")
    ensures Get(order, "paymentMethod").Str? ==> r == Returns(Upper(Get(order, "paymentMethod").s))
    ensures r.Throws? <==> !IsNullish(Get(order, "paymentMethod")) && !Get(order, "paymentMethod").Str?
  {
    match Get(order, "paymentMethod")
    case Undefined => Returns("COD")
    case Null => Returns("COD")
    case Str(s) => Returns(Upper(s))
    case _ => Throws
  }

  /** This page and the invoice show the same payment method. */
  lemma PaymentLabelAgreesWithInvoice(order: Value)
    ensures PaymentLabel(order) == Invoice.PaymentMethod(order)
  {
  }
}

=== FILE: payload.dfy ===
/** The tolerant readers the dashboard pages use to pull a value or a list
    out of a backend response whose shape varies from endpoint to endpoint:
    try candidate keys in a fixed order, take the first that fits. */
module Payload {
  import opened JsValue

  /** `keys[i]` is the first key whose value in `source` is neither
      `undefined` nor `null`. */
  predicate FirstPresentAt(source: Value, keys: seq<string>, i: int) {
    && 0 <= i < |keys|
    && !IsNullish(Get(source, keys[i]))
    && forall j | 0 <= j < i :: IsNullish(Get(source, keys[j]))
  }

  /** `pickValue(source, keys, fallback)`: the value of the first listed key
      that is neither `undefined` nor `null` (falsy values such as 0 and ""
      are kept), and the fallback when there is none. */
  function PickValue(source: Value, keys: seq<string>, fallback: Value): (r: Value)
    ensures (forall i | 0 <= i < |keys| :: IsNullish(Get(source, keys[i]))) ==> r == fallback
    ensures forall i | FirstPresentAt(source, keys, i) :: r == Get(source, keys[i])
    ensures r == fallback || !IsNullish(r)
    decreases |keys|
  {
    if |keys| == 0 then fallback
    else if !IsNullish(Get(source, keys[0])) then Get(source, keys[0])
    else
      var r := PickValue(source, keys[1..], fallback);
      assert forall i | FirstPresentAt(source, keys, i) :: i > 0 && FirstPresentAt(source, keys[1..], i - 1);
      r
  }

  /** `keys[i]` is the first key whose value in `source` is truthy. */
  predicate FirstTruthyAt(source: Value, keys: seq<string>, i: int) {
    && 0 <= i < |keys|
    && Truthy(Get(source, keys[i]))
    && forall j | 0 <= j < i :: !Truthy(Get(source, keys[j]))
  }

  /** `source?.k1 || source?.k2 || ... || fallback`: the value of the first
      listed key that is truthy, and the fallback when there is none. */
  function FirstTruthy(source: Value, keys: seq<string>, fallback: Value): (r: Value)
    ensures (forall i | 0 <= i < |keys| :: !Truthy(Get(source, keys[i]))) ==> r == fallback
    ensures forall i | FirstTruthyAt(source, keys, i) :: r == Get(source, keys[i])
    decreases |keys|
  {
    if |keys| == 0 then fallback
    else
      var rest := FirstTruthy(source, keys[1..], fallback);
      assert forall i | FirstTruthyAt(source, keys, i) && i > 0 :: FirstTruthyAt(source, keys[1..], i - 1);
      Or(Get(source, keys[0]), rest)
  }

  predicate NonEmptyArray(v: Value) {
    v.Arr? && |v.elems| > 0
  }

  /** `values[i]` is the first non-empty array among `values`. */
  predicate FirstNonEmptyArrayAt(values: seq<Value>, i: int) {
    && 0 <= i < |values|
    && NonEmptyArray(values[i])
    && forall j | 0 <= j < i :: !NonEmptyArray(values[j])
  }

  /** `safeArray(...values)`: the first non-empty array, or []. */
  function SafeArray(values: seq<Value>): (r: seq<Value>)
    ensures (forall i | 0 <= i < |values| :: !NonEmptyArray(values[i])) ==> r == []
    ensures forall i | FirstNonEmptyArrayAt(values, i) :: r == values[i].elems
    decreases |values|
  {
    if |values| == 0 then []
    else if NonEmptyArray(values[0]) then values[0].elems
    else
      var r := SafeArray(values[1..]);
      assert forall i | FirstNonEmptyArrayAt(values, i) :: i > 0 && FirstNonEmptyArrayAt(values[1..], i - 1);
      r
  }

  /** `keys[i]` is the first key under which `payload` holds an array. */
  predicate FirstArrayAt(payload: Value, keys: seq<string>, i: int) {
    && 0 <= i < |keys|
    && Get(payload, keys[i]).Arr?
    && forall j | 0 <= j < i :: !Get(payload, keys[j]).Arr?
  }

  /** The array under the first key that holds one, or []. */
  function FirstArrayUnder(payload: Value, keys: seq<string>): (r: seq<Value>)
    ensures (forall i | 0 <= i < |keys| :: !Get(payload, keys[i]).Arr?) ==> r == []
    ensures forall i | FirstArrayAt(payload, keys, i) :: r == Get(payload, keys[i]).elems
    decreases |keys|
  {
    if |keys| == 0 then []
    else if Get(payload, keys[0]).Arr? then Get(payload, keys[0]).elems
    else
      var r := FirstArrayUnder(payload, keys[1..]);
      assert forall i | FirstArrayAt(payload, keys, i) :: i > 0 && FirstArrayAt(payload, keys[1..], i - 1);
      r
  }

  /** `extractArrayFromPayload(payload, keys)`: a falsy payload gives [], an
      array gives itself, otherwise the array under the first listed key
      holding one (an array is always truthy), else []. */
  function ExtractArrayFromPayload(payload: Value, keys: seq<string>): (r: seq<Value>)
    ensures !Truthy(payload) ==> r == []
    ensures payload.Arr? ==> r == payload.elems
    ensures Truthy(payload) && !payload.Arr? && (forall i | 0 <= i < |keys| :: !Get(payload, keys[i]).Arr?) ==> r == []
    ensures Truthy(payload) && !payload.Arr? ==> forall i | FirstArrayAt(payload, keys, i) :: r == Get(payload, keys[i]).elems
  {
    if !Truthy(payload) then []
    else if payload.Arr? then payload.elems
    else FirstArrayUnder(payload, keys)
  }

  /** `normalizeList` of the dashboard sections: tries `items` then `data`. */
  function NormalizeList(payload: Value): (r: seq<Value>)
    ensures !Truthy(payload) ==> r == []
    ensures payload.Arr? ==> r == payload.elems
    ensures Truthy(payload) && !payload.Arr? && Get(payload, "items").Arr? ==> r == Get(payload, "items").elems
    ensures (Truthy(payload) && !payload.Arr? && !Get(payload, "items").Arr? && Get(payload, "data").Arr?)
              ==> r == Get(payload, "data").elems
    ensures (Truthy(payload) && !payload.Arr? && !Get(payload, "items").Arr? && !Get(payload, "data").Arr?)
              ==> r == []
  {
    var keys := ["items", "data"];
    var r := ExtractArrayFromPayload(payload, keys);
    assert Truthy(payload) && !payload.Arr? && !Get(payload, "items").Arr? && Get(payload, "data").Arr?
      ==> FirstArrayAt(payload, keys, 1);
    r
  }

  /** The keys the doctor dashboard's `normalizeList` tries, in order. */
  const DashboardListKeys: seq<string> := ["items", "data", "appointments", "patients", "notifications"]

  /** `normalizeList` of the doctor dashboard: tries `items`, `data`,
      `appointments`, `patients`, `notifications` in that order, else []. */
  function NormalizeListExtended(payload: Value): (r: seq<Value>)
    ensures !Truthy(payload) ==> r == []
    ensures payload.Arr? ==> r == payload.elems
    ensures Truthy(payload) && !payload.Arr? ==>
              forall i | FirstArrayAt(payload, DashboardListKeys, i) :: r == Get(payload, DashboardListKeys[i]).elems
    ensures (&& Truthy(payload) && !payload.Arr?
             && forall i | 0 <= i < |DashboardListKeys| :: !Get(payload, DashboardListKeys[i]).Arr?)
              ==> r == []
  {
    ExtractArrayFromPayload(payload, DashboardListKeys)
  }

  /** The doctor dashboard's reader only adds fallbacks: whenever the
      sections' reader finds a list (or the payload is falsy or an array),
      both readers return the same list. */
  lemma ExtendedAgreesWithSections(payload: Value)
    requires !Truthy(payload) || payload.Arr? || Get(payload, "items").Arr? || Get(payload, "data").Arr?
    ensures NormalizeListExtended(payload) == NormalizeList(payload)
  {
    if Truthy(payload) && !payload.Arr? {
      if Get(payload, "items").Arr? {
        assert FirstArrayAt(payload, DashboardListKeys, 0);
      } else {
        assert FirstArrayAt(payload, DashboardListKeys, 1);
      }
    }
  }
}

=== FILE: pharmacy_sidebar.dfy ===
/** The pharmacy sidebar: its menu, which entry is highlighted for the
    current path, the status badge of each entry, and the store and user
    names taken from the pharmacy session. */
module PharmacySidebar {
  import opened JsValue

  datatype MenuItem = MenuItem(caption: string, target: string)

  const MenuItems: seq<MenuItem> := [
    MenuItem("Dashboard", "/pharmacy"),
    MenuItem("Orders", "/pharmacy/orders"),
    MenuItem("Inventory", "/pharmacy/inventory"),
    MenuItem("Earnings", "/pharmacy/earnings"),
    MenuItem("Store Profile", "/pharmacy/store-profile"),
    MenuItem("Support", "/pharmacy/support"),
    MenuItem("Settings", "/pharmacy/settings")]

  /** `NavItem`'s highlight: the path is the target, or the target is
      neither "/" nor "/pharmacy" and the path starts with it as a plain
      string (so "/pharmacy/orders-old" highlights "/pharmacy/orders"). */
  predicate IsActive(path: string, target: string) {
    path == target || (target != "/" && target != "/pharmacy" && StartsWith(path, target))
  }

  /** The dashboard entry is highlighted on the dashboard itself only, for
      every path; the rest are worked examples of a section entry matching
      by plain prefix (the general statement is `SectionActiveUnder`). */
  lemma ActiveExamples(path: string)
    ensures IsActive(path, "/pharmacy") <==> path == "/pharmacy"
    ensures IsActive("/pharmacy/orders/42", "/pharmacy/orders")
    ensures IsActive("/pharmacy/orders-old", "/pharmacy/orders")
    ensures !IsActive("/pharmacy/order", "/pharmacy/orders")
  {
    assert ("/pharmacy/orders/42")[..16] == "/pharmacy/orders";
    assert ("/pharmacy/orders-old")[..16] == "/pharmacy/orders";
  }

  /** A section entry is highlighted on every path that extends its
      target, and on no path that does not start with it. */
  lemma SectionActiveUnder(target: string, rest: string, path: string)
    requires target != "/" && target != "/pharmacy"
    ensures IsActive(target + rest, target)
    ensures !StartsWith(path, target) ==> !IsActive(path, target)
  {
    assert (target + rest)[..|target|] == target;
    if path == target {
      assert path[..|target|] == target;
    }
  }

  /** Two strings that are both prefixes of one path are prefixes of each
      other. */
  lemma PrefixesNest(path: string, a: string, b: string)
    ensures StartsWith(path, a) && StartsWith(path, b) && |a| <= |b| ==> StartsWith(b, a)
  {
    if StartsWith(path, a) && StartsWith(path, b) && |a| <= |b| {
      assert b[..|a|] == path[..|b|][..|a|] == path[..|a|];
    }
  }

  /** No menu target is a proper string prefix of another. */
  lemma TargetsDoNotNest()
    ensures forall i, j | 0 <= i < |MenuItems| && 0 <= j < |MenuItems| && i != j ::
              !StartsWith(MenuItems[j].target, MenuItems[i].target) || i == 0
  {
    forall i, j | 0 <= i < |MenuItems| && 0 <= j < |MenuItems| && i != j && i != 0
      ensures !StartsWith(MenuItems[j].target, MenuItems[i].target)
    {
      var a := MenuItems[i].target;
      var b := MenuItems[j].target;
      if |a| <= |b| {
        // The first character after "/pharmacy/" tells the sections apart,
        // except for the three starting with "s", which differ at the second.
        assert a[10] != b[10] || a[11] != b[11];
      }
    }
  }

  /** Whatever the path, at most one menu entry is highlighted. */
  lemma AtMostOneActive(path: string)
    ensures forall i, j | 0 <= i < j < |MenuItems| ::
              !(IsActive(path, MenuItems[i].target) && IsActive(path, MenuItems[j].target))
  {
    TargetsDoNotNest();
    forall i, j | 0 <= i < j < |MenuItems|
      ensures !(IsActive(path, MenuItems[i].target) && IsActive(path, MenuItems[j].target))
    {
      var a := MenuItems[i].target;
      var b := MenuItems[j].target;
      if i == 0 {
        assert IsActive(path, a) ==> path == "/pharmacy";
        assert |b| > |"/pharmacy"|;
      } else {
        PrefixesNest(path, a, b);
        PrefixesNest(path, b, a);
      }
    }
  }

  /** The badge passed to an entry: "Active" for the first, none for the
      others. */
  function Status(index: nat): (r: Value)
    ensures r == Str("Active") <==> index == 0
    ensures index > 0 ==> r.Undefined?
  {
    if index == 0 then Str("Active") else Undefined
  }

  /** The badge text `status ?? "View"`. */
  function BadgeText(status: Value): (r: Value)
    ensures IsNullish(status) ==> r == Str("View")
    ensures !IsNullish(status) ==> r == status
  {
    Coalesce(status, Str("View"))
  }

  /** Exactly the first entry reads "Active"; every other entry reads
      "View", wherever the user is. */
  lemma BadgesOfTheMenu()
    ensures BadgeText(Status(0)) == Str("Active")
    ensures forall i | 0 < i < |MenuItems| :: BadgeText(Status(i)) == Str("View")
  {
  }

  /** The store name: the pharmacy's truthy `storeName`, else the user's
      truthy `userName`, else "City Pharmacy". */
  function StoreName(session: Value): (r: Value)
    ensures Truthy(r)
    ensures Truthy(Get(Coalesce(Get(session, "pharmacy"), EmptyObject), "storeName")) ==>
              r == Get(Get(session, "pharmacy"), "storeName")
    ensures (&& !Truthy(Get(Get(session, "pharmacy"), "storeName"))
             && Truthy(Get(Get(session, "user"), "userName")))
              ==> r == Get(Get(session, "user"), "userName")
    ensures (&& !Truthy(Get(Get(session, "pharmacy"), "storeName"))
             && !Truthy(Get(Get(session, "user"), "userName")))
              ==> r == Str("City Pharmacy")
  {
    var pharmacy := Coalesce(Get(session, "pharmacy"), EmptyObject);
    Or(Or(Get(pharmacy, "storeName"), Get(Get(session, "user"), "userName")), Str("City Pharmacy"))
  }

  /** The user name: the user's `userName` when present (even if empty),
      else "Pharmacy Partner". */
  function UserName(session: Value): (r: Value)
    ensures IsNullish(Get(Get(session, "user"), "userName")) ==> r == Str("Pharmacy Partner")
    ensures !IsNullish(Get(Get(session, "user"), "userName")) ==> r == Get(Get(session, "user"), "userName")
  {
    Coalesce(Get(Get(session, "user"), "userName"), Str("Pharmacy Partner"))
  }

  /** The two fallbacks differ on an empty user name: the store line skips
      it, the greeting prints it. */
  lemma EmptyUserName(session: Value)
    requires IsNullish(Get(session, "pharmacy"))
    requires Get(Get(session, "user"), "userName") == Str("")
    ensures StoreName(session) == Str("City Pharmacy")
    ensures UserName(session) == Str("")
  {
  }
}

=== FILE: prescription_orders.dfy ===
/** The pharmacy's order list: status keys and labels, the filter and
    search over the orders, pagination fifteen to a page, the per-status
    counts, and the page state that filter and search changes reset. */
module PrescriptionOrders {
  import opened JsValue
  import Lists
  import Tally
  import Api
  import GlobalLoader

  // ---------------------------------------------------------------------------
  // Status keys and labels

  /** `getStatusKey`: the status as lower-case text, "pending" when it is
      missing. */
  function StatusKey(status: Value): (r: string)
    ensures !Truthy(status) ==> r == "pending"
    ensures Truthy(status) ==> |r| == |ToDisplayString(status)|
    ensures Truthy(status) ==> forall i | 0 <= i < |r| :: r[i] == LowerChar(ToDisplayString(status)[i])
    ensures forall i | 0 <= i < |r| :: !('A' <= r[i] <= 'Z')
  {
    if Truthy(status) then Lower(ToDisplayString(status)) else "pending"
  }

  /** The six statuses the filter buttons offer, in order. */
  const FilterStatuses: seq<string> :=
    ["pending", "processing", "ready_for_delivery", "out_for_delivery", "delivered", "cancelled"]

  const FriendlyLabels: map<string, string> := map[
    "pending" := "Pending",
    "processing" := "Processing",
    "ready_for_delivery" := "Ready for Delivery",
    "out_for_delivery" := "Out for Delivery",
    "delivered" := "Delivered",
    "cancelled" := "Cancelled"]

  /** `replace(/_/g, " ")` */
  function UnderscoresToSpaces(s: string): (r: string)
    ensures |r| == |s|
    ensures forall i | 0 <= i < |s| :: r[i] == (if s[i] == '_' then ' ' else s[i])
  {
    seq(|s|, i requires 0 <= i < |s| => if s[i] == '_' then ' ' else s[i])
  }

  /** A word character at a word boundary (`\b\w`). */
  predicate WordStart(s: string, i: int)
    requires 0 <= i < |s|
  {
    IsWordChar(s[i]) && (i == 0 || !IsWordChar(s[i - 1]))
  }

  /** `replace(/\b\w/g, c => c.toUpperCase())` */
  function CapitalizeWords(s: string): (r: string)
    ensures |r| == |s|
    ensures forall i | 0 <= i < |s| :: r[i] == (if WordStart(s, i) then UpperChar(s[i]) else s[i])
  {
    seq(|s|, i requires 0 <= i < |s| => if WordStart(s, i) then UpperChar(s[i]) else s[i])
  }

  /** `getStatusLabel`: "Pending" for a missing status; the friendly label
      of a known key; otherwise the status with every "_" a space and every
      word capitalised. */
  function StatusLabel(status: Value): (r: string)
    ensures !Truthy(status) ==> r == "Pending"
    ensures Truthy(status) && StatusKey(status) in FriendlyLabels ==> r == FriendlyLabels[StatusKey(status)]
    ensures Truthy(status) && StatusKey(status) !in FriendlyLabels ==>
              && |r| == |ToDisplayString(status)|
              && '_' !in r
              && Lower(r) == Lower(UnderscoresToSpaces(ToDisplayString(status)))
              && r == CapitalizeWords(UnderscoresToSpaces(ToDisplayString(status)))
  {
    if !Truthy(status) then "Pending"
    else
      var raw := Lower(ToDisplayString(status));
      if raw in FriendlyLabels then FriendlyLabels[raw]
      else
        var spaced := UnderscoresToSpaces(ToDisplayString(status));
        var r := CapitalizeWords(spaced);
        assert forall i | 0 <= i < |r| :: LowerChar(r[i]) == LowerChar(spaced[i]);
        r
  }

  /** Every filter button's status has its friendly label, and its key is
      itself. */
  lemma FilterStatusesLabelled()
    ensures forall i | 0 <= i < |FilterStatuses| ::
              && StatusKey(Str(FilterStatuses[i])) == FilterStatuses[i]
              && StatusLabel(Str(FilterStatuses[i])) == FriendlyLabels[FilterStatuses[i]]
  {
    forall i | 0 <= i < |FilterStatuses|
      ensures StatusKey(Str(FilterStatuses[i])) == FilterStatuses[i]
    {
      var s := FilterStatuses[i];
      assert forall j | 0 <= j < |s| :: LowerChar(s[j]) == s[j];
    }
  }

  // ---------------------------------------------------------------------------
  // Filter and search

  /** The name searched: the shipping name, the user's name or the customer
      name, as lower-case text. */
  function PatientText(order: Value): string {
    Lower(ToDisplayString(Coalesce(Get(Get(order, "shippingAddress"), "fullName"),
                          Coalesce(Get(Get(order, "user"), "userName"),
                          Coalesce(Get(order, "customerName"), Str(""))))))
  }

  /** The id searched: the prescription id, the order id or `_id`, as
      lower-case text. */
  function OrderIdText(order: Value): string {
    Lower(ToDisplayString(Coalesce(Get(order, "prescriptionId"),
                          Coalesce(Get(order, "orderId"),
                          Coalesce(Get(order, "_id"), Str(""))))))
  }

  /** The search term as compared: trimmed and lower-cased. */
  function NormalizedSearch(term: string): string {
    Lower(Trim(term))
  }

  /** The status filter: "all" lets every order through, any other filter
      only the orders with that status key. */
  predicate MatchesFilter(order: Value, filter: string) {
    filter == "all" || StatusKey(Get(order, "status")) == filter
  }

  /** The search: an empty term matches everything, otherwise it must occur
      in the patient name or the order id. */
  predicate MatchesSearch(order: Value, needle: string) {
    needle == "" || Contains(PatientText(order), needle) || Contains(OrderIdText(order), needle)
  }

  predicate Matches(order: Value, filter: string, needle: string) {
    MatchesFilter(order, filter) && MatchesSearch(order, needle)
  }

  /** `filteredOrders`: reading `status` of a missing order throws;
      otherwise the matching orders, in their order. */
  function FilterOrders(orders: seq<Value>, filter: string, term: string): (r: Outcome<seq<Value>>)
    ensures r.Throws? <==> exists i | 0 <= i < |orders| :: IsNullish(orders[i])
    ensures r.Returns? ==>
              && Lists.IsSubsequence(r.value, orders)
              && (forall x | x in r.value :: Matches(x, filter, NormalizedSearch(term)))
              && (forall i | 0 <= i < |orders| && Matches(orders[i], filter, NormalizedSearch(term)) :: orders[i] in r.value)
    ensures r.Returns? ==>
              forall x :: Lists.Count(r.value, x) ==
                          (if Matches(x, filter, NormalizedSearch(term)) then Lists.Count(orders, x) else 0)
  {
    if exists i | 0 <= i < |orders| :: IsNullish(orders[i]) then Throws
    else
      var needle := NormalizedSearch(term);
      var keep := o => Matches(o, filter, needle);
      forall x ensures Lists.Count(Lists.Filter(orders, keep), x) == (if keep(x) then Lists.Count(orders, x) else 0) {
        Lists.CountFilter(orders, keep, x);
      }
      Returns(Lists.Filter(orders, keep))
  }

  /** With the "all" filter and a blank search every order is listed. */
  lemma AllAndBlankListsEverything(orders: seq<Value>, term: string)
    requires forall i | 0 <= i < |orders| :: !IsNullish(orders[i])
    requires Trim(term) == ""
    ensures FilterOrders(orders, "all", term) == Returns(orders)
  {
    assert NormalizedSearch(term) == "";
    assert forall i | 0 <= i < |orders| :: Matches(orders[i], "all", "");
  }

  // ---------------------------------------------------------------------------
  // Pagination

  const PageSize: nat := 15

  /** `Math.max(1, Math.ceil(n / 15))` */
  function TotalPages(n: nat): (r: nat)
    ensures r >= 1
    ensures (r - 1) * PageSize < n || (n == 0 && r == 1)
    ensures n <= r * PageSize
  {
    if n == 0 then 1 else (n + PageSize - 1) / PageSize
  }

  /** `Array.prototype.slice(start, end)`: negative positions count from
      the end, and both are clamped to the array. */
  function Slice<T>(xs: seq<T>, start: int, end: int): (r: seq<T>)
    ensures 0 <= start <= end <= |xs| ==> r == xs[start..end]
    ensures 0 <= start && |xs| <= end ==> r == xs[if start < |xs| then start else |xs|..]
    ensures |r| <= |xs|
  {
    var from := if start < 0 then (if |xs| + start < 0 then 0 else |xs| + start)
                else if start < |xs| then start else |xs|;
    var to := if end < 0 then (if |xs| + end < 0 then 0 else |xs| + end)
              else if end < |xs| then end else |xs|;
    if from < to then xs[from..to] else []
  }

  /** The page actually shown: the current page, but no later than the
      last. */
  function SafePage(current: int, n: nat): (r: int)
    ensures r <= TotalPages(n)
    ensures r == current || r == TotalPages(n)
    ensures current >= 1 ==> r >= 1
  {
    if current < TotalPages(n) then current else TotalPages(n)
  }

  /** `paginatedOrders`: fifteen orders starting at the shown page. */
  function Visible(filtered: seq<Value>, current: int): (r: seq<Value>)
    ensures |r| <= PageSize
  {
    var start := (SafePage(current, |filtered|) - 1) * PageSize;
    Slice(filtered, start, start + PageSize)
  }

  /** The i-th filtered order is shown on page i / 15 + 1, at position
      i % 15. */
  lemma PageHoldsItsOrders(filtered: seq<Value>, i: nat)
    requires i < |filtered|
    ensures var page := Visible(filtered, i / PageSize + 1);
            i % PageSize < |page| && page[i % PageSize] == filtered[i]
  {
    var p := i / PageSize + 1;
    assert (p - 1) * PageSize <= i;
    assert p <= TotalPages(|filtered|);
    assert SafePage(p, |filtered|) == p;
  }

  /** Asking for a page past the last shows the last page. */
  lemma PastTheEndShowsLast(filtered: seq<Value>, current: int)
    requires current >= TotalPages(|filtered|)
    ensures Visible(filtered, current) == Visible(filtered, TotalPages(|filtered|))
  {
  }

  /** `goToPageDelta`: moves by `delta`, kept within the first and the last
      page of `n` filtered orders. */
  function GoToPageDelta(previous: int, delta: int, n: nat): (r: int)
    ensures 1 <= r <= TotalPages(n)
    ensures 1 <= previous + delta <= TotalPages(n) ==> r == previous + delta
    ensures previous + delta < 1 ==> r == 1
    ensures previous + delta > TotalPages(n) ==> r == TotalPages(n)
  {
    var next := previous + delta;
    if next < 1 then 1 else if next > TotalPages(n) then TotalPages(n) else next
  }

  // ---------------------------------------------------------------------------
  // Status counts

  function StatusKeys(orders: seq<Value>): (r: seq<string>)
    ensures |r| == |orders| && forall i | 0 <= i < |orders| :: r[i] == StatusKey(Get(orders[i], "status"))
  {
    seq(|orders|, i requires 0 <= i < |orders| => StatusKey(Get(orders[i], "status")))
  }

  /** The counts folded over the orders from left to right. */
  function CountStatuses(orders: seq<Value>): (r: map<string, nat>)
    ensures r == Tally.Tally(StatusKeys(orders))
  {
    if |orders| == 0 then map[]
    else
      var init := orders[..|orders| - 1];
      assert StatusKeys(orders)[..|orders| - 1] == StatusKeys(init);
      Tally.Bump(CountStatuses(init), StatusKey(Get(orders[|orders| - 1], "status")))
  }

  /** `statusCounts`: reading `status` of a missing order throws; otherwise
      the number of orders under each status key, and the counts add up to
      the number of orders. */
  function StatusCounts(orders: seq<Value>): (r: Outcome<map<string, nat>>)
    ensures r.Throws? <==> exists i | 0 <= i < |orders| :: IsNullish(orders[i])
    ensures r.Returns? ==>
              && (forall k :: k in r.value <==> k in StatusKeys(orders))
              && (forall k | k in r.value :: r.value[k] == Lists.Count(StatusKeys(orders), k))
              && Tally.SumValues(r.value) == |orders|
  {
    if exists i | 0 <= i < |orders| :: IsNullish(orders[i]) then Throws
    else
      Tally.TallySum(StatusKeys(orders));
      Returns(CountStatuses(orders))
  }

  /** The count a filter button shows: `statusCounts[status] || 0`. */
  function ButtonCount(counts: map<string, nat>, status: string): (r: nat)
    ensures status in counts ==> r == counts[status]
    ensures status !in counts ==> r == 0
  {
    if status in counts then counts[status] else 0
  }

  // ---------------------------------------------------------------------------
  // Page state

  /** The page's state: the loaded orders (whatever the response held), the
      filter, the search box, the current page, and the load flags. */
  datatype OrdersPage = OrdersPage(orders: Value, filter: string, search: string, page: int,
                                   loading: bool, error: string)

  const InitialPage: OrdersPage := OrdersPage(Arr([]), "all", "", 1, false, "")

  /** The array the derived lists are computed from: calling `filter` on
      anything but an array throws. */
  function OrdersList(orders: Value): (r: Outcome<seq<Value>>)
    ensures r.Returns? <==> orders.Arr?
    ensures orders.Arr? ==> r.value == orders.elems
  {
    if orders.Arr? then Returns(orders.elems) else Throws
  }

  /** Choosing a filter: a different one goes back to page 1. */
  function SetFilter(p: OrdersPage, filter: string): (r: OrdersPage)
    ensures r.filter == filter
    ensures filter != p.filter ==> r.page == 1
    ensures r.(page := p.page, filter := p.filter) == p
  {
    if filter == p.filter then p else p.(filter := filter, page := 1)
  }

  /** Typing in the search box: a different term goes back to page 1. */
  function SetSearch(p: OrdersPage, term: string): (r: OrdersPage)
    ensures r.search == term
    ensures term != p.search ==> r.page == 1
    ensures r.(page := p.page, search := p.search) == p
  {
    if term == p.search then p else p.(search := term, page := 1)
  }

  /** A previous/next button press. */
  function StepPage(p: OrdersPage, delta: int, filteredCount: nat): (r: OrdersPage)
    ensures 1 <= r.page <= TotalPages(filteredCount)
    ensures r.(page := p.page) == p
  {
    p.(page := GoToPageDelta(p.page, delta, filteredCount))
  }

  /** The orders request: without a token the list is emptied and nothing
      is fetched. Otherwise the loader is shown, the error cleared, and the
      reply sets the orders (`data.items`, else `data`, else an empty
      array) or the error; a load whose page has gone away changes nothing
      further. The loader is hidden at the end either way. */
  function LoadOrders(p: OrdersPage, token: Value, reply: Api.Reply, cancelled: bool)
    : (r: (OrdersPage, seq<GlobalLoader.Signal>))
    ensures !Truthy(token) ==> r == (p.(orders := Arr([])), [])
    ensures Truthy(token) ==> r.1 == [GlobalLoader.Show, GlobalLoader.Hide]
    ensures Truthy(token) && cancelled ==> r.0 == p.(loading := true, error := "")
    ensures Truthy(token) && !cancelled ==> !r.0.loading
    ensures Truthy(token) && !cancelled && reply.Resolved? ==>
              && r.0.error == ""
              && r.0.orders == Coalesce(Get(Get(reply.data, "data"), "items"),
                                        Coalesce(Get(reply.data, "data"), Arr([])))
    ensures Truthy(token) && !cancelled && reply.Rejected? ==>
              && r.0.orders == p.orders
              && r.0.error == (if reply.message == "" then "Unable to load orders." else reply.message)
  {
    if !Truthy(token) then (p.(orders := Arr([])), [])
    else
      var started := p.(loading := true, error := "");
      var settled :=
        if cancelled then started
        else match reply
          case Resolved(body) =>
            var data := Get(body, "data");
            started.(orders := Coalesce(Get(data, "items"), Coalesce(data, Arr([]))), loading := false)
          case Rejected(m) =>
            started.(error := if m == "" then "Unable to load orders." else m, loading := false);
      (settled, [GlobalLoader.Show, GlobalLoader.Hide])
  }
}

=== FILE: registration.dfy ===
/** The doctor registration draft kept across page loads: four form
    sections and the uploaded files, hydrated from browser storage, edited
    by shallow merges, persisted without the files, and reset.

    The draft is a JavaScript object (a `Value`), because hydration spreads
    whatever the stored JSON holds into it. */
module Registration {
  import opened JsValue
  import opened Storage

  const StorageKey: string := "doctorRegistrationData"

  /** The keys of each section, every one starting out empty (`""`), and
      of the files, every one starting out `null`. */
  const PersonalFields: set<string> := {
    "fullName", "email", "phoneNumber", "medicalSpecialization", "yearsOfExperience",
    "clinicHospitalName", "clinicAddress", "state", "city"}
  const RegistrationFields: set<string> := {"registrationNumber", "councilName", "councilDisplayName", "issueDate"}
  const IdentityFields: set<string> := {"documentType"}
  const FileFields: set<string> := {"mbbsCertificate", "mdMsBdsCertificate", "registrationCertificate", "governmentId", "selfie"}

  const DefaultPersonal: map<string, Value> := map k | k in PersonalFields :: Str("")
  const DefaultRegistration: map<string, Value> := map k | k in RegistrationFields :: Str("")
  const DefaultIdentity: map<string, Value> := map k | k in IdentityFields :: Str("")
  const DefaultFiles: map<string, Value> := map k | k in FileFields :: Null

  /** The five parts of a draft. */
  const PartNames: set<string> := {"doctorId", "personal", "registration", "identity", "files"}

  const DefaultFields: map<string, Value> := map[
    "doctorId" := Str(""), "personal" := Obj(DefaultPersonal), "registration" := Obj(DefaultRegistration),
    "identity" := Obj(DefaultIdentity), "files" := Obj(DefaultFiles)]

  const DefaultState: Value := Obj(DefaultFields)

  /** The part names differ from each other (three of them have eight
      letters, and differ in the first). */
  lemma PartNamesDiffer()
    ensures "doctorId" != "personal" && "doctorId" != "identity" && "personal" != "identity"
    ensures "doctorId" != "registration" && "doctorId" != "files"
    ensures "personal" != "registration" && "personal" != "files"
    ensures "identity" != "registration" && "identity" != "files"
    ensures "registration" != "files"
  {
    assert "doctorId"[0] == 'd' && "personal"[0] == 'p' && "identity"[0] == 'i';
  }

  /** The default draft: five parts, an empty doctor id, the files at
      their defaults. */
  lemma DefaultFieldValues()
    ensures DefaultFields.Keys == PartNames
    ensures DefaultFields["doctorId"] == Str("")
    ensures DefaultFields["files"] == Obj(DefaultFiles)
  {
    PartNamesDiffer();
  }

  /** The three form sections that are persisted and merged key by key. */
  datatype Section = Personal | RegistrationDetails | Identity

  function SectionKey(s: Section): string {
    match s
    case Personal => "personal"
    case RegistrationDetails => "registration"
    case Identity => "identity"
  }

  function SectionFields(s: Section): set<string> {
    match s
    case Personal => PersonalFields
    case RegistrationDetails => RegistrationFields
    case Identity => IdentityFields
  }

  function SectionDefaults(s: Section): (r: map<string, Value>)
    ensures r.Keys == SectionFields(s)
  {
    match s
    case Personal => DefaultPersonal
    case RegistrationDetails => DefaultRegistration
    case Identity => DefaultIdentity
  }

  /** `{ ...defaults, ...stored }` for one section: every stored key with
      its stored value, and the defaults for the keys not stored. */
  function MergeSection(s: Section, stored: Value): (r: Value)
    ensures r.Obj? && r.fields.Keys == SectionDefaults(s).Keys + Spread(stored).Keys
    ensures forall k | k in Spread(stored) :: r.fields[k] == Spread(stored)[k]
    ensures forall k | k in SectionDefaults(s) && k !in Spread(stored) :: r.fields[k] == SectionDefaults(s)[k]
  {
    Obj(SectionDefaults(s) + Spread(stored))
  }

  /** The draft's properties built from stored ones: the defaults, then
      every stored property, then the given merged sections, and the files
      back to their defaults. */
  function Assemble(defaults: map<string, Value>, stored: map<string, Value>,
                    personal: Value, registration: Value, identity: Value, files: Value)
    : (r: map<string, Value>)
    requires "personal" in defaults && "registration" in defaults && "identity" in defaults && "files" in defaults
    ensures r.Keys == defaults.Keys + stored.Keys
    ensures r["personal"] == personal && r["registration"] == registration && r["identity"] == identity
    ensures r["files"] == files
    ensures forall k | k in stored && k !in defaults :: r[k] == stored[k]
    ensures forall k | k in defaults && k != "personal" && k != "registration" && k != "identity" && k != "files" ::
              r[k] == if k in stored then stored[k] else defaults[k]
  {
    var overrides := map["personal" := personal, "registration" := registration, "identity" := identity,
                         "files" := files];
    defaults + stored + overrides
  }

  /** The draft built from parsed stored JSON: its properties spread over
      the defaults, each section merged key by key over its defaults, and
      the files always back to their defaults. */
  function HydrateParsed(parsed: Value): (r: Value)
    requires !IsNullish(parsed)
    ensures r.Obj? && r.fields.Keys == DefaultFields.Keys + Spread(parsed).Keys
    ensures "personal" in r.fields && r.fields["personal"] == MergeSection(Personal, Get(parsed, "personal"))
    ensures "registration" in r.fields
            && r.fields["registration"] == MergeSection(RegistrationDetails, Get(parsed, "registration"))
    ensures "identity" in r.fields && r.fields["identity"] == MergeSection(Identity, Get(parsed, "identity"))
    ensures "files" in r.fields && r.fields["files"] == Obj(DefaultFiles)
    ensures "doctorId" in r.fields
            && r.fields["doctorId"] == (if "doctorId" in Spread(parsed) then Spread(parsed)["doctorId"] else Str(""))
    ensures forall k | k in Spread(parsed) && k !in DefaultFields :: k in r.fields && r.fields[k] == Spread(parsed)[k]
  {
    var fields := Assemble(DefaultFields, Spread(parsed), MergeSection(Personal, Get(parsed, "personal")),
                           MergeSection(RegistrationDetails, Get(parsed, "registration")),
                           MergeSection(Identity, Get(parsed, "identity")), Obj(DefaultFiles));
    DefaultFieldValues();
    PartNamesDiffer();
    assert fields["doctorId"] == if "doctorId" in Spread(parsed) then Spread(parsed)["doctorId"] else DefaultFields["doctorId"];
    Obj(fields)
  }

  /** `hydrateFromStorage`: the defaults when nothing (or the empty string)
      is stored, when the stored text is not JSON, or when it is JSON `null`
      (reading `null.personal` throws inside the `try`); otherwise the
      stored draft merged over the defaults. */
  function Hydrate(store: Store, codec: Codec): (r: Value)
    ensures GetItem(store, StorageKey).None? ==> r == DefaultState
    ensures GetItem(store, StorageKey) == Some("") ==> r == DefaultState
    ensures (&& GetItem(store, StorageKey).Some? && GetItem(store, StorageKey).value != ""
             && codec.parse(GetItem(store, StorageKey).value).None?) ==> r == DefaultState
    ensures (&& GetItem(store, StorageKey).Some? && GetItem(store, StorageKey).value != ""
             && codec.parse(GetItem(store, StorageKey).value).Some?) ==>
              var parsed := codec.parse(GetItem(store, StorageKey).value).value;
              r == if IsNullish(parsed) then DefaultState else HydrateParsed(parsed)
    ensures r.Obj? && "files" in r.fields && r.fields["files"] == Obj(DefaultFiles)
  {
    match GetItem(store, StorageKey)
    case None => DefaultState
    case Some(raw) =>
      if raw == "" then DefaultState
      else match codec.parse(raw)
        case None => DefaultState
        case Some(parsed) => if IsNullish(parsed) then DefaultState else HydrateParsed(parsed)
  }

  /** The persisted part of the draft: everything but the files. */
  function Snapshot(data: Value): (r: Value)
    ensures r.Obj? && r.fields.Keys == {"doctorId", "personal", "registration", "identity"}
    ensures "files" !in r.fields
    ensures forall k | k in r.fields :: r.fields[k] == Get(data, k)
  {
    Obj(map["doctorId" := Get(data, "doctorId"), "personal" := Get(data, "personal"),
            "registration" := Get(data, "registration"), "identity" := Get(data, "identity")])
  }

  /** The persist effect: the snapshot as JSON text under the draft's key,
      every other key untouched. */
  function Persist(store: Store, data: Value, codec: Codec): (r: Store)
    ensures GetItem(r, StorageKey) == Some(codec.stringify(Snapshot(data)))
    ensures forall k | k != StorageKey :: GetItem(r, k) == GetItem(store, k)
  {
    SetItem(store, StorageKey, codec.stringify(Snapshot(data)))
  }

  /** `setDoctorId`: the trimmed string; `null` or `undefined` becomes "";
      any other value has no `trim` method, so the call throws. */
  function SetDoctorId(data: Value, doctorId: Value): (r: Outcome<Value>)
    ensures r.Throws? <==> !doctorId.Str? && !IsNullish(doctorId)
    ensures doctorId.Str? ==> r == Returns(Obj(Spread(data)["doctorId" := Str(Trim(doctorId.s))]))
    ensures IsNullish(doctorId) ==> r == Returns(Obj(Spread(data)["doctorId" := Str("")]))
  {
    if doctorId.Str? then Returns(Obj(Spread(data)["doctorId" := Str(Trim(doctorId.s))]))
    else if IsNullish(doctorId) then Returns(Obj(Spread(data)["doctorId" := Str("")]))
    else Throws
  }

  /** `updatePersonal`, `updateRegistration`, `updateIdentity` and
      `updateFiles`: the given keys are merged into that one sub-object; the
      other keys of the sub-object and every other part of the draft are
      unchanged. */
  function UpdatePart(data: Value, part: string, updates: Value): (r: Value)
    requires data.Obj?
    ensures r.Obj? && r.fields.Keys == data.fields.Keys + {part}
    ensures forall k | k in data.fields && k != part :: r.fields[k] == data.fields[k]
    ensures r.fields[part].Obj?
    ensures r.fields[part].fields.Keys == Spread(Get(data, part)).Keys + Spread(updates).Keys
    ensures forall k | k in Spread(updates) :: r.fields[part].fields[k] == Spread(updates)[k]
    ensures forall k | k in Spread(Get(data, part)) && k !in Spread(updates) ::
              r.fields[part].fields[k] == Spread(Get(data, part))[k]
  {
    Obj(data.fields[part := Obj(Spread(Get(data, part)) + Spread(updates))])
  }

  /** `resetRegistration(preserveDoctorId = true)`: the defaults, keeping
      the doctor id only when asked to; without it, the stored draft is
      removed as well. */
  function ResetRegistration(data: Value, store: Store, preserveDoctorId: Value): (r: (Value, Store))
    ensures var preserve := preserveDoctorId.Undefined? || Truthy(preserveDoctorId);
            && r.0 == Obj(DefaultFields["doctorId" := if preserve then Get(data, "doctorId") else Str("")])
            && (preserve ==> r.1 == store)
            && (!preserve ==> GetItem(r.1, StorageKey).None?
                              && forall k | k != StorageKey :: GetItem(r.1, k) == GetItem(store, k))
  {
    var preserve := if preserveDoctorId.Undefined? then true else Truthy(preserveDoctorId);
    var doctorId := if preserve then Get(data, "doctorId") else Str("");
    (Obj(DefaultFields["doctorId" := doctorId]), if preserve then store else RemoveItem(store, StorageKey))
  }

  /** The section under `key` is an object holding at least the section's
      default keys, and it survives JSON text. */
  ghost predicate SectionOk(data: Value, key: string, fields: set<string>)
    requires data.Obj?
  {
    && key in data.fields
    && data.fields[key].Obj?
    && fields <= data.fields[key].fields.Keys
    && JsonStable(data.fields[key])
  }

  /** A draft as the provider keeps it: the five parts, a string doctor id,
      and sections that hold at least their default keys and survive JSON
      text. */
  ghost predicate WellFormedDraft(data: Value) {
    && data.Obj?
    && data.fields.Keys == PartNames
    && "doctorId" in data.fields && data.fields["doctorId"].Str?
    && SectionOk(data, "personal", PersonalFields)
    && SectionOk(data, "registration", RegistrationFields)
    && SectionOk(data, "identity", IdentityFields)
  }

  lemma SnapshotStable(data: Value)
    requires WellFormedDraft(data)
    ensures JsonStable(Snapshot(data))
  {
    JsonStableObject(Snapshot(data).fields);
  }

  /** Stored JSON text of a value that survives JSON is hydrated from that
      very value. */
  lemma HydrateStoredValue(store: Store, codec: Codec, v: Value)
    requires Lawful(codec)
    requires !IsNullish(v) && JsonStable(v)
    requires GetItem(store, StorageKey) == Some(codec.stringify(v))
    ensures Hydrate(store, codec) == HydrateParsed(v)
  {
    assert codec.stringify(v) != "" && codec.parse(codec.stringify(v)) == Some(Jsonify(v));
  }

  /** A section that already holds every default key is its own merge. */
  lemma MergeKeepsFullSection(s: Section, section: Value)
    requires section.Obj? && SectionFields(s) <= section.fields.Keys
    ensures MergeSection(s, section) == section
  {
    assert SectionDefaults(s) + section.fields == section.fields;
  }

  /** The five parts of a draft. */
  lemma DraftKeys()
    ensures DefaultFields.Keys == PartNames
  {
  }

  /** Two drafts with the same five parts are the same draft. */
  lemma PartsDetermineDraft(a: map<string, Value>, b: map<string, Value>)
    requires a.Keys == b.Keys == PartNames
    requires a["doctorId"] == b["doctorId"] && a["personal"] == b["personal"]
    requires a["registration"] == b["registration"] && a["identity"] == b["identity"]
    requires a["files"] == b["files"]
    ensures a == b
  {
  }

  /** Hydrating a well-formed draft's snapshot gives the draft back, with
      the files at their defaults. */
  lemma HydrateSnapshot(data: Value)
    requires WellFormedDraft(data)
    ensures HydrateParsed(Snapshot(data)) == Obj(data.fields["files" := Obj(DefaultFiles)])
  {
    var r := HydrateParsed(Snapshot(data)).fields;
    var expected := data.fields["files" := Obj(DefaultFiles)];
    HydrateSnapshotKeys(data);
    PartNamesDiffer();
    HydrateSnapshotSections(data);
    assert r["doctorId"] == expected["doctorId"];
    assert r["files"] == expected["files"];
    PartsDetermineDraft(r, expected);
  }

  /** The hydrated snapshot has the draft's five parts. */
  lemma HydrateSnapshotKeys(data: Value)
    requires WellFormedDraft(data)
    ensures HydrateParsed(Snapshot(data)).fields.Keys == PartNames
    ensures data.fields["files" := Obj(DefaultFiles)].Keys == PartNames
  {
    DefaultFieldValues();
  }

  /** The three sections of a well-formed draft come back from its
      snapshot unchanged. */
  lemma HydrateSnapshotSections(data: Value)
    requires WellFormedDraft(data)
    ensures var r := HydrateParsed(Snapshot(data)).fields;
            && r["personal"] == data.fields["personal"]
            && r["registration"] == data.fields["registration"]
            && r["identity"] == data.fields["identity"]
  {
    HydrateSnapshotSection(data, Personal, "personal");
    HydrateSnapshotSection(data, RegistrationDetails, "registration");
    HydrateSnapshotSection(data, Identity, "identity");
  }

  /** Each section of a well-formed draft comes back from its snapshot
      unchanged. */
  lemma HydrateSnapshotSection(data: Value, s: Section, key: string)
    requires WellFormedDraft(data)
    requires key == SectionKey(s)
    ensures HydrateParsed(Snapshot(data)).fields[key] == data.fields["files" := Obj(DefaultFiles)][key]
  {
    var section := data.fields[key];
    assert Get(Snapshot(data), key) == section;
    MergeKeepsFullSection(s, section);
  }

  /** What is persisted comes back on the next load: the same doctor id and
      sections, with the files reset to their defaults. */
  lemma HydratePersisted(store: Store, data: Value, codec: Codec)
    requires Lawful(codec)
    requires WellFormedDraft(data)
    ensures Hydrate(Persist(store, data, codec), codec) == Obj(data.fields["files" := Obj(DefaultFiles)])
  {
    SnapshotStable(data);
    HydrateStoredValue(Persist(store, data, codec), codec, Snapshot(data));
    HydrateSnapshot(data);
  }

  /** The defaults with a string doctor id form a well-formed draft. */
  lemma DefaultsWellFormed(doctorId: string)
    ensures WellFormedDraft(Obj(DefaultFields["doctorId" := Str(doctorId)]))
  {
    JsonStableObject(DefaultPersonal);
    JsonStableObject(DefaultRegistration);
    JsonStableObject(DefaultIdentity);
    DraftKeys();
  }

  /** A reset that keeps a string doctor id yields a draft whose next load
      is that draft again (files included, as they are already the
      defaults). */
  lemma ResetThenReload(data: Value, store: Store, codec: Codec)
    requires Lawful(codec)
    requires Get(data, "doctorId").Str?
    ensures var reset := ResetRegistration(data, store, Undefined);
            Hydrate(Persist(reset.1, reset.0, codec), codec) == reset.0
  {
    var reset := ResetRegistration(data, store, Undefined);
    var m := reset.0.fields;
    assert m == DefaultFields["doctorId" := Get(data, "doctorId")];
    DefaultsWellFormed(Get(data, "doctorId").s);
    HydratePersisted(reset.1, reset.0, codec);
    assert m["files"] == Obj(DefaultFiles);
    UpdateWithOwnValue(m, "files");
  }

  lemma UpdateWithOwnValue(m: map<string, Value>, k: string)
    requires k in m
    ensures m[k := m[k]] == m
  {
  }
}

=== FILE: settings_page.dfy ===
/** The pharmacy settings page: the store profile loaded into the settings
    form, with the store address flattened to one line. */
module SettingsPage {
  import opened JsValue
  import Addresses
  import Api
  import GlobalLoader
  import Invoice

  /** The printed parts of an address, in order. */
  function AddressParts(address: Value): seq<Value> {
    [Get(address, "line1"), Get(address, "line2"), Get(address, "city"), Get(address, "state"), Get(address, "pincode")]
  }

  /** `formatAddress`: the empty string for a falsy address, otherwise the
      truthy parts joined with ", " (empty again when none is truthy). */
  function FormatAddress(address: Value): (r: string)
    ensures !Truthy(address) ==> r == ""
    ensures (forall i | 0 <= i < 5 :: !Truthy(AddressParts(address)[i])) ==> r == ""
    ensures Truthy(address) ==> r == Addresses.JoinPresent(AddressParts(address))
    ensures forall i | 0 <= i < 5 && Truthy(address) && Truthy(AddressParts(address)[i]) && AddressParts(address)[i].Str? ::
              Contains(r, AddressParts(address)[i].s)
  {
    if !Truthy(address) then "" else Addresses.JoinPresent(AddressParts(address))
  }

  /** An address whose five parts are all non-empty text prints all five,
      in order, comma separated. */
  lemma FullAddressPrinted(address: Value, a: string, b: string, c: string, d: string, e: string)
    requires AddressParts(address) == [Str(a), Str(b), Str(c), Str(d), Str(e)]
    requires a != "" && b != "" && c != "" && d != "" && e != ""
    ensures FormatAddress(address) == a + ", " + b + ", " + c + ", " + d + ", " + e
  {
    assert Get(address, "city") == Str(c);
    Addresses.FiveParts(a, b, c, d, e);
  }

  /** For an address written with `line1`, `line2` and `pincode` (and none of
      the longer aliases) the settings page and the invoice print the same
      line, except that the settings page leaves an address without any
      truthy part blank where the invoice says "Not provided". */
  lemma FormatAddressAgreesWithInvoice(address: Value)
    requires Truthy(address)
    requires IsNullish(Get(address, "addressLine1")) && IsNullish(Get(address, "addressLine2"))
    requires IsNullish(Get(address, "postalCode"))
    requires !IsNullish(Get(address, "line1")) && !IsNullish(Get(address, "pincode"))
    ensures (exists i | 0 <= i < 5 :: Truthy(AddressParts(address)[i])) ==>
              FormatAddress(address) == Invoice.FormatAddress(address)
    ensures (forall i | 0 <= i < 5 :: !Truthy(AddressParts(address)[i])) ==>
              FormatAddress(address) == "" && Invoice.FormatAddress(address) == "Not provided"
  {
    assert Invoice.AddressParts(address) == AddressParts(address);
  }

  /** The settings form. */
  datatype Form = Form(storeName: Value, ownerName: Value, phoneNumber: Value, storeAddress: string)

  const InitialForm: Form := Form(Str(""), Str(""), Str(""), "")

  /** The form filled from a profile record: each field missing from the
      record (`null` or `undefined`) becomes "", and the address is
      flattened. */
  function FormFromProfile(data: Value): (r: Form)
    ensures IsNullish(Get(data, "storeName")) ==> r.storeName == Str("")
    ensures !IsNullish(Get(data, "storeName")) ==> r.storeName == Get(data, "storeName")
    ensures IsNullish(Get(data, "ownerName")) ==> r.ownerName == Str("")
    ensures !IsNullish(Get(data, "ownerName")) ==> r.ownerName == Get(data, "ownerName")
    ensures IsNullish(Get(data, "phoneNumber")) ==> r.phoneNumber == Str("")
    ensures !IsNullish(Get(data, "phoneNumber")) ==> r.phoneNumber == Get(data, "phoneNumber")
    ensures r.storeAddress == FormatAddress(Get(data, "address"))
  {
    Form(Coalesce(Get(data, "storeName"), Str("")),
         Coalesce(Get(data, "ownerName"), Str("")),
         Coalesce(Get(data, "phoneNumber"), Str("")),
         FormatAddress(Get(data, "address")))
  }

  /** An empty profile gives the initial, blank form. */
  lemma EmptyProfileGivesBlankForm()
    ensures FormFromProfile(EmptyObject) == InitialForm
  {
  }

  /** The profile load: nothing without a token; otherwise the loader is
      shown and hidden once (the hide sits in a `finally`, so it runs even
      for a cancelled load), and the form is replaced by the response's
      `data` (or `{}`) only when the request succeeded and the page did not
      cancel it. A failure keeps the form. */
  function LoadProfile(form: Form, token: Value, reply: Api.Reply, cancelled: bool)
    : (r: (Form, seq<GlobalLoader.Signal>))
    ensures !Truthy(token) ==> r == (form, [])
    ensures Truthy(token) ==> r.1 == [GlobalLoader.Show, GlobalLoader.Hide]
    ensures Truthy(token) && (cancelled || reply.Rejected?) ==> r.0 == form
    ensures (Truthy(token) && !cancelled && reply.Resolved?) ==>
              r.0 == FormFromProfile(Coalesce(Get(reply.data, "data"), EmptyObject))
  {
    if !Truthy(token) then (form, [])
    else
      var next :=
        match reply
        case Resolved(body) => if cancelled then form else FormFromProfile(Coalesce(Get(body, "data"), EmptyObject))
        case Rejected(_) => form;
      (next, [GlobalLoader.Show, GlobalLoader.Hide])
  }

  /** Every profile load leaves the loader count where it found it. */
  lemma LoadRestoresLoader(count: nat, form: Form, token: Value, reply: Api.Reply, cancelled: bool)
    ensures GlobalLoader.Run(count, LoadProfile(form, token, reply, cancelled).1) == count
  {
    var signals := LoadProfile(form, token, reply, cancelled).1;
    if signals != [] {
      assert signals[1..] == [GlobalLoader.Hide] && signals[1..][1..] == [];
    }
  }
}

=== FILE: storage.dfy ===
/** Browser storage and the JSON text kept in it. `localStorage` is a map
    from keys to strings; `JSON.parse` and `JSON.stringify` are library code
    and enter the model as a `Codec` parameter, about which only the
    round-trip law `Lawful` is assumed. */
module Storage {
  import opened JsValue

  type Store = map<string, string>

  /** `JSON.parse` (None when it throws) and `JSON.stringify`. */
  datatype Codec = Codec(parse: string -> Option<Value>, stringify: Value -> string)

  /** What survives a trip through JSON text: object properties holding
      `undefined` are dropped, `undefined` array slots and NaN become null. */
  function Jsonify(v: Value): Value {
    match v
    case Undefined => Undefined
    case Null => Null
    case Bool(_) => v
    case Num(n) => if n.NaN? then Null else v
    case Str(_) => v
    case Arr(es) => Arr(seq(|es|, i requires 0 <= i < |es| =>
                          if es[i].Undefined? then Null else Jsonify(es[i])))
    case Obj(fs) => Obj(map k | k in fs && !fs[k].Undefined? :: Jsonify(fs[k]))
  }

  /** The value comes back from JSON text exactly as it went in. */
  predicate JsonStable(v: Value) {
    Jsonify(v) == v
  }

  /** An object whose properties are all defined and themselves survive
      JSON text survives it too. */
  lemma JsonStableObject(fs: map<string, Value>)
    requires forall k | k in fs :: !fs[k].Undefined? && JsonStable(fs[k])
    ensures JsonStable(Obj(fs))
  {
    var m := map k | k in fs && !fs[k].Undefined? :: Jsonify(fs[k]);
    assert m.Keys == fs.Keys;
    assert m == fs;
  }

  /** `JSON.parse(JSON.stringify(v))` gives `Jsonify(v)` for every value
      `JSON.stringify` turns into text, and that text is never empty. */
  ghost predicate Lawful(c: Codec) {
    forall v: Value {:trigger c.stringify(v)} :: !v.Undefined? ==>
      c.stringify(v) != "" && c.parse(c.stringify(v)) == Some(Jsonify(v))
  }

  /** `localStorage.getItem(key)` */
  function GetItem(store: Store, key: string): Option<string> {
    if key in store then Some(store[key]) else None
  }

  /** `localStorage.setItem(key, text)` */
  function SetItem(store: Store, key: string, text: string): (r: Store)
    ensures GetItem(r, key) == Some(text)
    ensures forall k | k != key :: GetItem(r, k) == GetItem(store, k)
  {
    store[key := text]
  }

  /** `localStorage.removeItem(key)` */
  function RemoveItem(store: Store, key: string): (r: Store)
    ensures GetItem(r, key) == None
    ensures forall k | k != key :: GetItem(r, k) == GetItem(store, k)
  {
    store - {key}
  }
}

=== FILE: tally.dfy ===
/** Counting occurrences into an object keyed by string, the
    `acc[key] = (acc[key] || 0) + 1` reduction both order pages use. */
module Tally {
  import Lists

  /** One step of the reduction: the count of `k` goes up by one. */
  function Bump(m: map<string, nat>, k: string): (r: map<string, nat>)
    ensures r.Keys == m.Keys + {k}
    ensures r[k] == (if k in m then m[k] else 0) + 1
    ensures forall j | j in m && j != k :: r[j] == m[j]
  {
    m[k := (if k in m then m[k] else 0) + 1]
  }

  /** The counts of `keys`, folded from left to right. */
  function Tally(keys: seq<string>): (r: map<string, nat>)
    ensures forall k :: k in r <==> k in keys
    ensures forall k | k in r :: r[k] == Lists.Count(keys, k)
  {
    if |keys| == 0 then map[]
    else
      var init := keys[..|keys| - 1];
      var last := keys[|keys| - 1];
      assert keys == init + [last];
      CountSnoc(init, last);
      Bump(Tally(init), last)
  }

  lemma {:induction false} CountSnoc(xs: seq<string>, y: string)
    ensures forall k :: Lists.Count(xs + [y], k) == Lists.Count(xs, k) + (if k == y then 1 else 0)
  {
    forall k ensures Lists.Count(xs + [y], k) == Lists.Count(xs, k) + (if k == y then 1 else 0) {
      CountSnocOne(xs, y, k);
    }
  }

  lemma {:induction false} CountSnocOne(xs: seq<string>, y: string, k: string)
    ensures Lists.Count(xs + [y], k) == Lists.Count(xs, k) + (if k == y then 1 else 0)
  {
    if |xs| > 0 {
      assert (xs + [y])[1..] == xs[1..] + [y];
      CountSnocOne(xs[1..], y, k);
    }
  }

  /** The sum of the values of a map. */
  ghost function SumValues(m: map<string, nat>): nat
    decreases |m|
  {
    if m == map[] then 0
    else
      var k :| k in m;
      m[k] + SumValues(m - {k})
  }

  /** The sum does not depend on which key is taken out first. */
  lemma {:induction false} SumValuesRemove(m: map<string, nat>, k: string)
    requires k in m
    ensures SumValues(m) == m[k] + SumValues(m - {k})
    decreases |m|
  {
    var j :| j in m && SumValues(m) == m[j] + SumValues(m - {j});
    if j != k {
      assert |m - {j}| < |m|;
      SumValuesRemove(m - {j}, k);
      SumValuesRemove(m - {k}, j);
      assert (m - {j}) - {k} == (m - {k}) - {j};
    }
  }

  /** Bumping a count raises the sum of the counts by one. */
  lemma {:induction false} SumValuesBump(m: map<string, nat>, k: string)
    ensures SumValues(Bump(m, k)) == SumValues(m) + 1
  {
    var r := Bump(m, k);
    SumValuesRemove(r, k);
    if k in m {
      SumValuesRemove(m, k);
      assert r - {k} == m - {k};
    } else {
      assert r - {k} == m;
    }
  }

  /** The counts add up to the number of keys counted. */
  lemma {:induction false} TallySum(keys: seq<string>)
    ensures SumValues(Tally(keys)) == |keys|
  {
    if |keys| > 0 {
      TallySum(keys[..|keys| - 1]);
      SumValuesBump(Tally(keys[..|keys| - 1]), keys[|keys| - 1]);
    }
  }
}
